=== FILE: README.md ===
# Cardstack hub core, modelled in Dafny

This project models the core of the Cardstack hub's write and indexing paths. The model is pure functions and datatypes. Every operation returns its result, or the error it throws, as a value. Effects on plugins, the search client and the event emitter become an ordered log of calls.

- **Card identities and the card format** (`indexing/card-utils.js`):
  - decoding and encoding `repository::package::card[::model]` ids, `getCardId` and `isCard`;
  - the internal and external card validators;
  - `addCardNamespacing` and `removeCardNamespacing`, which are inverses on every card the external validator accepts whose id can root a namespace and whose own members, linkages other than `model`, and included resources are restorable;
  - `generateInternalCardFormat`, `getCardSchemas` and `deriveCardModelContentType`;
  - `formatHasField` and the `uniqBy` dedupe of included resources.
- **The writers** (`writers.js`):
  - `_getSchemaDetailsForType` and the top-level `data` check;
  - `_createQueryLinks`;
  - the card diff of `handleCardOperations`;
  - the `try`/`finally` protocol of `handleCreate`, `_update` and `delete` (validate, hooks, finalize, batch, abort) and the arguments each passes to `_finalize`;
  - `PendingChange`;
  - `_deleteInternalCardResources` with `sortSchemaForDelete`.
- **The sources update** (`indexing/sources-update.js`):
  - data-source registration and the schema lifecycle (unset, held, given away);
  - `destroy`;
  - hint narrowing and the per-updater content pass;
  - `add`, `delete` and `deleteAllWithoutNonce`.
- **The operations object** (`indexing/operations.js`): saves tagged with the replace-all nonce, and the nonce's begin/finish protocol.
- **The router map** (`routers.js`):
  - `joinPath` and `buildPathFromRouteStack`;
  - `_discoverRouters`: its depth bound, route validation, cycle avoidance for `:type` placeholder routes, and the top-level dedupe and ordering.
- **Model field access** (`model.js`): `isRelationshipObject`, the dispatch of `getField`, and the fallbacks of `getRelated`.

Parameters stand for things the model does not compute:
- the schema's answers (`isSchemaType`, `getType`, each type's router, `isCanonicalRoute`);
- values produced by plugins and user code (a writer's finalize meta, an updater's `updateContent` result, a computed field's value, a document's search projection);
- `Math.random()`.

Some behaviour is modelled as written even where it looks unintended:
- `handleCreate` and `_update` pass their `isBulk` flag in the `id` position of `_finalize`, so `pending.finalize` always receives `undefined` (`Writers.BulkFlagNeverReachesFinalize`).
- A minted nonce of `0` makes `finishReplaceAll` refuse (`Operations.ZeroNonceRefused`).
- A type routed to by an exact-type route is not checked against the route stack. Only `:type` placeholder routes skip the types already on it.

## Model

| member | source | states |
|---|---|---|
| CardIdentity.ContextFromId | indexing/card-utils.js:33-49 | A missing id, or one with fewer than two `::` pieces, decodes to the empty context. Otherwise the first four pieces become repository, package, card and model. |
| CardIdentity.ContextToId | indexing/card-utils.js:50-52 | The encoded id starts with the context's first present part. |
| CardIdentity.GetCardId | indexing/card-utils.js:66-75 | The card id exists exactly when the id has at least three pieces. It is made of the first three pieces, and it is a prefix of the id. |
| CardIdentity.IsCardIffCardId | indexing/card-utils.js:53-55 | `isCard(type, id)` holds iff type equals id and the id names a card. |
| CardIdentity.GetCardIdIdempotent | indexing/card-utils.js:66-75 | The card of a card id is that card id. |
| CardIdentity.ContextRoundTrip | indexing/card-utils.js:33-52 | Decoding the encoding of two to four parts gives them back, when no part holds `::` and no non-last part ends in `:`. |
| CardIdentity.IdRoundTrip | indexing/card-utils.js:33-52 | Encoding the decoding of an id with two to four pieces gives the id back. |
| CardIdentity.ContextRoundTripNeedsSegments | indexing/card-utils.js:33-52 | A part that ends in `:` breaks the round trip: `["r","a:","b"]` does not come back. |
| CardIdentity.NamespacedParts | indexing/card-utils.js:53-75 | `root::name` belongs to card `root`, and its model part is `name`. |
| CardIdentity.PlainParts | indexing/card-utils.js:66-75 | A name without `::` is not inside any card and has no model part. |
| CardIdentity.RootIsCard | indexing/card-utils.js:53-75 | A namespace root is its own card id, and `isCard(root, root)` holds. |
| CardValidation.Foreign | indexing/card-utils.js:100-115 | A linkage or included resource is accepted iff it is a card, or its type is a schema type or lies in the card, and its id lies in the card. |
| CardValidation.CheckLinkages | indexing/card-utils.js:93-110 | Succeeds exactly when every non-`fields` relationship's linkage passes the foreign test. |
| CardValidation.ValidateInternal | indexing/card-utils.js:76-119 | The first 400 errors in the source's order: missing id, missing type, id differing from type, then the pointer to the first field whose id lies outside the card. |
| CardValidation.ValidateInternalIffValid | indexing/card-utils.js:76-119 | The internal validator passes exactly the cards that meet four conditions. The id is present and equals the type. The fields linkage is absent or a list whose every id lies inside the card. No other relationship links anything foreign. No included resource is foreign. |
| CardValidation.ValidateExternal | indexing/card-utils.js:120-138 | Gives a 400 for a missing id, a non-`cards` type, a missing or mismatched model linkage, or a missing model. Passes exactly the externally valid cards. |
| CardNamespacing.AddRef | indexing/card-utils.js:578-624 | A `cards` linkage is untouched by namespacing. |
| CardNamespacing.AddRefInsideCard | indexing/card-utils.js:578-624 | Any other namespaced linkage points inside the card, with its old id as the model part. |
| CardNamespacing.AddResource | indexing/card-utils.js:584-589 | A `cards` resource or card model keeps its type and id. Any other resource gets the id `root::id`. Its type becomes `root::type` unless it is a schema type. Meta is kept. |
| CardNamespacing.AddResourceMembers | indexing/card-utils.js:590-622 | An internal model or card model has every attribute and relationship renamed `root::name`, in insertion order, with linkages namespaced. A schema model or `cards` resource keeps its attributes and relationship names, and only its linkages are namespaced. A `cards` resource's `model` linkage is left alone. |
| CardNamespacing.PrefixAll | indexing/card-utils.js:591-598 | When no member's name is another's prefixed name, moving each member to its prefixed name leaves exactly the prefixed members, in insertion order. |
| CardNamespacing.AddNamespacing | indexing/card-utils.js:578-624 | Gives a result iff the id names a card. The result is the data and every included resource, each namespaced under that card, with the count kept. |
| CardNamespacing.RemoveResource | indexing/card-utils.js:536-540 | A `cards` resource or card model keeps its type and id. Any other resource has its type and id replaced by their model part when they lie inside a card. Meta is kept. |
| CardNamespacing.RemoveResourcePlainMembers | indexing/card-utils.js:541-575 | Members whose names lie inside no card stay where they are: attributes unchanged, relationships with their linkages stripped. A `cards` resource's `model` relationship is left alone. |
| CardNamespacing.RemoveResourcePrefixedMembers | indexing/card-utils.js:541-575 | Members named `root::name` move back to `name`, in insertion order, with their linkages stripped. |
| CardNamespacing.RemoveNamespacing | indexing/card-utils.js:530-577 | Gives a result iff the id is truthy. The result is the data and every included resource with the namespace removed, with the count kept. |
| CardNamespacing.RefRoundTrip | indexing/card-utils.js:530-624 | Removing the namespace restores a namespaced linkage. |
| CardNamespacing.NamespacedInjective | indexing/card-utils.js:578-624 | Two names namespaced under the same root are equal only if the names are. |
| CardNamespacing.NamesRoundTrip | indexing/card-utils.js:530-624 | Prefixing every member name and stripping it again restores the object, key order included. |
| CardNamespacing.ResourceRoundTrip | indexing/card-utils.js:530-624 | Every restorable resource comes back: a `cards` resource, a card model, a schema model, or an internal model. |
| CardNamespacing.NamespacingRoundTrip | indexing/card-utils.js:530-624 | `removeCardNamespacing(addCardNamespacing(card))` is the card when its id can root a namespace and every resource is restorable. The `model` relationship of a `cards` resource, which both directions skip, need not be restorable. |
| CardNamespacing.ValidCardRoundTrip | indexing/card-utils.js:530-624 | A card the external validator accepts, whose id can root a namespace, with plain member names, restorable linkages other than `model` and restorable included resources, is restorable, and removing the namespacing gives it back. |
| CardNamespacing.SameTypeAndIdStaysPrefixed | indexing/card-utils.js:536-540 | An internal model whose type equals its id comes back still prefixed. Namespacing makes it look like a card model, which removal leaves alone. |
| CardNamespacing.EmptyNameStaysPrefixed | indexing/card-utils.js:541-548 | An attribute named with the empty string stays under `root::` after removal. Its model part is empty, which the loop reads as none. |
| CardFormat.FindByKey | indexing/card-utils.js:146 | Finds a resource with the `type/id` key exactly when one exists, and the one found is the first with that key. |
| CardFormat.WithFields | indexing/card-utils.js:150-151 | The model's `fields` linkage is set. Its type, id, attributes, meta and every other relationship are kept. |
| CardFormat.CopyAssetsGet | indexing/card-utils.js:156-162 | An asset attribute takes the card's value when that value is truthy. Every other attribute is unchanged. |
| CardFormat.RewriteCards | indexing/card-utils.js:167-183 | A resource without an id is left alone. Otherwise a `cards` resource takes its id as its type, every other type is kept, and each relationship keeps its name and place with its `cards` references redirected. Id, attributes and meta are kept. |
| CardFormat.GenerateInternal | indexing/card-utils.js:139-185 | Throws without an id, fails as the external validator does, and gives a TypeError when the id names no card. When it succeeds, the card was valid. |
| CardFormat.GenerateInternalSucceeds | indexing/card-utils.js:139-185 | Generation succeeds for every externally valid card whose id names a card and has no `/`. |
| CardFormat.GenerateInternalModel | indexing/card-utils.js:146-184 | For a card id without `/`, the generated `data` has the card's id as its type and id. |
| CardFormat.GenerateInternalIncluded | indexing/card-utils.js:163-184 | The generated `included` holds only resources whose id lies inside the card. It is strictly shorter than the external `included`, because the model moved to `data`. |
| CardFormat.GenerateInternalIncludedExactly | indexing/card-utils.js:163-184 | The generated `included` is exactly the namespaced included resources other than the model whose id lies inside the card, each with its `cards` linkages redirected. Every one of them appears, and nothing else does. |
| CardFormat.AssembleAssets | indexing/card-utils.js:156-162 | An asset attribute of the model takes the card's value when that value is truthy. Every other attribute keeps the model's value. |
| CardFormat.GenerateInternalFields | indexing/card-utils.js:145-151 | For a card id without `/`, the model carries the card's fields linkage, or an empty list, with `cards` linkages redirected. |
| CardFormat.AssembleRedirectsCards | indexing/card-utils.js:167-183 | Neither the model in `data` (when it has an id) nor any included resource keeps a linkage to `cards`. |
| CardFormat.DeriveContentType | indexing/card-utils.js:351-374 | Nothing exactly for a card without an id. A to-one fields linkage throws. Otherwise it succeeds with a `content-types` resource whose id is the card id. |
| CardFormat.DeriveContentTypeFields | indexing/card-utils.js:351-374 | The derived content type lists `fields`, the asset fields, the card's fields and the metadata field. Its default includes name the card's fields. |
| CardFormat.GetCardSchemas | indexing/card-utils.js:331-350 | Nothing for a card without an id. Otherwise the result is the schema-type resources of `included`, in order and exactly those, followed by the derived content type. It succeeds exactly when the derivation does. |
| CardFormat.FormatHasField | indexing/card-utils.js:625-633 | A field is shown iff it is metadata, and for `embedded` only if it is also needed when embedded. |
| CardFormat.EmbeddedFieldsAreIsolatedFields | indexing/card-utils.js:625-633 | The embedded view shows a subset of the isolated view's fields. |
| CardFormat.DedupeIncluded | indexing/card-utils.js:525 | One resource per `type/id`, with the same set of keys as the input. Each kept resource is the first of its key in the input, and the kept ones follow the order of those first occurrences. |
| CardDiff.Difference | writers.js:145-154 | `differenceBy`: keeps exactly the elements whose key the other list lacks, each as often as it occurs there. |
| CardDiff.DifferenceInOrder | writers.js:145-154 | The difference of two lists joined is the two differences joined, so the kept elements keep their order. |
| CardDiff.Intersection | writers.js:140-144 | `intersectionBy`: gives the shared keys, each once, taken from the first list. |
| CardDiff.Compute | writers.js:134-157 | On delete, everything is deleted. Without an old card, everything included is added. |
| CardDiff.DiffAgainstExisting | writers.js:139-154 | Against an old card: the added, changed and deleted keys are the new-only, shared and old-only keys. |
| CardDiff.DiffDisjoint | writers.js:134-157 | The added, changed and deleted parts never share a key. |
| PendingChanges.ContextFor | writers.js:708-727 | A document context exists exactly for a present side, with that side's type, id and source. |
| PendingChanges.CopyOptsGet | writers.js:729-734 | After the option loop, a key reads the option's value when the option was given and the change held nothing non-null there. Otherwise it reads as before. |
| PendingChanges.ConstructCopies | writers.js:686-735 | A new change holds exactly the options whose keys were free on the bare instance. |
| PendingChanges.Construct | writers.js:686-735 | Throws iff searchers or schema are missing. Otherwise holds both callbacks and both contexts. |
| PendingChanges.Finalize | writers.js:737-745 | Clears both callbacks, records the flag, and fires the finalizer that was held. |
| PendingChanges.Abort | writers.js:747-754 | Clears both callbacks and fires the aborter that was held. |
| PendingChanges.FiresAtMostOnce | writers.js:737-754 | Across any sequence of finalize and abort calls, at most one callback fires, and it is the one the first call finds. |
| PendingChanges.FinalizeThenAbort | writers.js:737-754 | Finalize followed by abort fires only the finalizer. |
| Schemas.SourceIdOf | writers.js:479-483 | The source id is present exactly when the type, its data source and that source's id all exist. |
| Writers.SchemaDetails | writers.js:613-641 | 403 "Not a writable type" when the type, its data source or its writer is missing. Otherwise gives that writer. |
| Writers.RequireData | writers.js:298-302 | A document without `data` is refused with a 400. |
| Writers.QueryLink | writers.js:655-677 | A query linkage becomes `links.related` with no data. Any other relationship is unchanged. No query linkage remains. |
| Writers.CreateQueryLinks | writers.js:648-681 | Only relationships change, under the same keys in the same order. |
| Writers.QueryLinksGet | writers.js:648-681 | Each relationship of the result is the input's, rewritten. |
| Writers.QueryLinksRemoveQueries | writers.js:648-681 | No query linkage survives, and a resource without one comes back unchanged. |
| Writers.QueryLinksIdempotent | writers.js:648-681 | Rewriting twice is rewriting once. |
| Writers.Planned | writers.js:255-462 | Starts with validation, is in protocol order, and holds exactly the steps the path runs (hooks by path, cache invalidation on a new schema). |
| Writers.Execute | writers.js:255-276 | Runs a prefix of the plan. Completes iff no planned step throws; otherwise stops at the first step that throws. |
| Writers.WritePath | writers.js:203-470 | A missing `data` is a 400 before any step. A throw from the card operations propagates. A card delete without an internal card does nothing. An unwritable type is refused. A throw from the writer's `prepare*` hook or `createPendingChange` propagates. None of these runs a step or aborts anything. |
| Writers.AttemptAbortsOnce | writers.js:277-281 | An attempt ends with exactly one abort, after a prefix of the plan. It returns only when the whole plan ran. |
| Writers.AttemptOrdered | writers.js:255-281 | The trace of an attempt is in protocol order. |
| Writers.WritePathAbortsOnce | writers.js:203-470 | Every write path that reaches the pending change aborts exactly once, last, in protocol order, and returns exactly when no step threw. A path leaves an empty trace exactly when it stops before its pending change exists. |
| Writers.FinalizeWrite | writers.js:500-517 | `_finalize` fires the held finalizer and records the flag. It gives the final document's context when there is one, and otherwise a fresh context from the id argument. |
| Writers.BulkFlagNeverReachesFinalize | writers.js:500-501 | As the call sites at lines 268, 345 and 450 are written, the flag `pending.finalize` records is always absent. |
| Writers.AttemptFiresOnce | writers.js:737-754 | Over an attempt, the finalizer fires if finalize was reached and the aborter fires otherwise, never both. Both are cleared afterwards. |
| Writers.WritePathFiresOnce | writers.js:203-470 | Over a write path that reaches the pending change, exactly one of the finalizer and aborter fires, and the recorded bulk flag is absent. |
| SchemaDelete.CompareForDelete | writers.js:759-774 | Content types come before fields, computed fields count as fields, and there is no preference between any other pair. |
| SchemaDelete.SortAsWrittenKeepsFieldFirst | writers.js:759-774 | With that comparator, a stable insertion sort of `[field, other, content-type]` leaves the field first. |
| SchemaDelete.SortForDelete | writers.js:759-774 | The delete order is a permutation, and every content type comes before every field. |
| SchemaDelete.ClearRelatedTypes | writers.js:550-551 | A field's `related-types` becomes empty. Its type, id and meta are kept. |
| SchemaDelete.ReplaceFirst | writers.js:559-562 | The first entry with the key gets the replacement and every other entry is unchanged. Without such an entry the list is unchanged. |
| SchemaDelete.Resave | writers.js:543-563 | Each field with related types is re-saved once, in order, with its related types cleared. Each list entry is either kept or replaced by what a re-save gave back. |
| SchemaDelete.PlanIsShaped | writers.js:528-563 | The internal deletes are models inside a card that are not card models. The re-saves are field saves. The schema resources lie outside every card. |
| SchemaDelete.StepsOrdered | writers.js:534-583 | The calls run stage by stage: internal deletes, re-saves, content-type removal, schema deletes. This holds for any order of the schema deletes. |
| SchemaDelete.StepsSchemaOrder | writers.js:574-583 | When the schema resources are deleted in an order that puts content types first, no field delete comes before a content-type delete. |
| SchemaDelete.StepsKeepCards | writers.js:531-583 | No delete call removes a card model itself. |
| SchemaDelete.DeleteInternalOrder | writers.js:523-586 | `_deleteInternalCardResources` as written, sorting with `sort(sortSchemaForDelete)`, runs its stages in order and never deletes a card model. |
| SchemaDelete.DeleteAsWrittenFieldFirst | writers.js:574-583 | As written, a field, another schema resource and a content type, all outside every card and without related types, are deleted in that order: the field goes before the content type. |
| SchemaDelete.SortKeepsFieldFirst | writers.js:759-774 | The comparator's sort leaves any such field, other resource and content type in their input order. |
| SchemaDelete.DeleteIntendedOrder | writers.js:523-586 | With the intended delete order, the stages run in order, every content type is deleted before every field, and no card model is deleted. |
| SchemaDelete.DeleteIntendedReorders | writers.js:523-586 | The corrected procedure makes the same calls as the one as written, of the same count. Only the order of the schema deletes differs. |
| Sorting.SortByComparator | writers.js:574 | Sorting with a comparator returns a permutation of its input, whatever the comparator does. |
| SchemaDelete.DeleteInternalDropsContentTypes | writers.js:524-573 | Nothing happens for an empty list. Card content types are removed exactly when a card model is among the resources. |
| SchemaDelete.DeleteOf | writers.js:534-540 | The delete of a resource carries its type and id. Reading `resource.meta.version` is a TypeError exactly when the resource has no `meta`. |
| SchemaDelete.Performed | writers.js:534-583 | The calls made are a prefix of the planned calls, none of which throws. The run completes exactly when no planned call throws. Otherwise it stops at the first throwing call, with that call's error. |
| SchemaDelete.DeleteInternalFaults | writers.js:523-586 | The procedure as written throws a TypeError exactly when an internal model or a schema resource it deletes has no `meta`. Otherwise it makes every planned call. |
| SourcesUpdates.AddDataSource | indexing/sources-update.js:20-33 | Throws once a schema exists. A source without an indexer adds nothing. Otherwise its updater is registered under its id, with whether it can be destroyed, and its models are collected. Nothing else changes. |
| SourcesUpdates.Schema | indexing/sources-update.js:40-48 | Throws once the schema was given away. Otherwise builds it from all collected models on first use and keeps it. |
| SourcesUpdates.TakeSchema | indexing/sources-update.js:50-56 | Gives the schema `schema()` would, and marks it given away. Nothing else changes. |
| SourcesUpdates.Destroy | indexing/sources-update.js:58-67 | The schema is torn down iff it is held. Exactly the updaters with `destroy` are destroyed, and, with distinct keys, in the order they were registered. |
| SourcesUpdates.HintTypesFrom | indexing/sources-update.js:77 | Exactly the truthy hint types are kept. |
| SourcesUpdates.HintedSources | indexing/sources-update.js:80-86 | Exactly the truthy source ids behind the hinted types. |
| SourcesUpdates.HintedSourcesSpec | indexing/sources-update.js:77-86 | A source id is hinted iff some hint's truthy type resolves to it. |
| SourcesUpdates.SelectUpdatersSpec | indexing/sources-update.js:77-90 | An updater runs iff its source is hinted, or no hinted type resolves at all. |
| SourcesUpdates.UntypedHintsIgnored | indexing/sources-update.js:77 | Hints with a falsy type change nothing about the selection. |
| SourcesUpdates.RunUpdatersAt | indexing/sources-update.js:92-97 | The k-th selected updater loads its meta, updates content, and saves meta, as calls 3k to 3k+2. |
| SourcesUpdates.RunUpdatersOpen | indexing/sources-update.js:92-99 | The batch is not finished inside the updater loop. |
| SourcesUpdates.Update | indexing/sources-update.js:69-100 | Throws iff the schema was given away. Otherwise the batch is begun and the updaters are kept. |
| SourcesUpdates.PassOrder | indexing/sources-update.js:69-99 | Accommodate, begin the batch, the updaters in order, then `done()` once, last. |
| SourcesUpdates.Add | indexing/sources-update.js:119-141 | Throws once the schema was given away, and for a document to save when no batch was begun. A falsy search document saves nothing and emits nothing. Otherwise the save, with the source and generation, is followed by the `add` event. |
| SourcesUpdates.Delete | indexing/sources-update.js:143-155 | Throws once the schema was given away, or when no batch was begun. The delete is by type and id alone, followed by the `delete` event. |
| SourcesUpdates.DeleteAllWithoutNonce | indexing/sources-update.js:157-161 | Older generations of the source are dropped, then the event is emitted. Nothing else changes. |
| SourcesUpdates.EventsFollowWrites | indexing/sources-update.js:119-155 | An add is announced iff the search document is truthy. A delete's first call is the batch delete. |
| Operations.Save | indexing/operations.js:18-21 | Every record a save adds carries this object's source and current nonce. |
| Operations.Delete | indexing/operations.js:22-25 | A delete carries neither source nor generation. |
| Operations.BeginReplaceAll | indexing/operations.js:26-28 | The nonce becomes `floor(MAX_SAFE_INTEGER * random)`, within `[0, MAX_SAFE_INTEGER)`. |
| Operations.FinishReplaceAll | indexing/operations.js:29-35 | Throws iff the nonce is falsy. Otherwise sweeps the source's other generations. |
| Operations.ZeroNonceRefused | indexing/operations.js:26-33 | A nonce of 0 can be minted, and then the sweep is refused. |
| Operations.NonceTagsSaves | indexing/operations.js:18-35 | Until the next begin, the nonce stays the same and every save and sweep carries it. |
| Operations.ReplaceAllTagsSaves | indexing/operations.js:8-28 | A fresh object saves with no generation. After a begin, every save carries the minted nonce. |
| Operations.FinishWithoutBeginRefused | indexing/operations.js:11-33 | A finish with no begin before it throws. |
| Routers.JoinQueries | routers.js:296-300 | Query strings are joined by `&`, with an empty side adding nothing and a leading `&` dropped. |
| Routers.JoinPath | routers.js:289-303 | Splitting the result at `?` gives the joined path (a right-hand `/` adds nothing) and the joined query. A `?` is written iff the query is non-empty. |
| Routers.JoinPlainPaths | routers.js:289-303 | Without query strings, joining is concatenation. |
| Routers.BuildPath | routers.js:281-283 | The built path's path part is the route paths from the root down. |
| Routers.BuildPlainPath | routers.js:281-283 | Without query strings, the built path is exactly the mount path. |
| Routers.Discover | routers.js:131-204 | Throws past 50 levels. Succeeds only if every route of the router in use has a path starting with `/`. A type with no router, and no default at the top, gives `[]`. Every entry was reached from the stack and lies within the depth bound. At the top, paths are unique with `/` last. |
| Routers.Walk | routers.js:146-178 | The route loop succeeds only if every remaining route has a valid path. |
| Routers.SweepSkipsStack | routers.js:157-168 | A `:type` placeholder route descends into exactly the types not on the stack, in schema order. |
| Routers.Arrange | routers.js:192-201 | The paths of the unsorted map are kept, each once, with the route discovered first for each. The result is sorted by the five keys: `/` last, then more `/`, `?` and `&` pieces and deeper route stacks first. |
| Models.GetField | model.js:50-72 | Unknown field names throw. Computed relationships are always relationship objects, a bare value being wrapped as `{data: v}`. Other computed values are kept. Relationships read `relationships`, `id`/`type` read the top level, and other fields read `attributes`. |
| Models.GetRelated | model.js:74-103 | Nothing to load iff there is neither `links.related` nor truthy `data`. Then it gives `[]` for has-many and `null` otherwise. |
| Models.ComputedRelationshipLoads | model.js:56-102 | A bare computed relationship value is loaded as linkage: an array ref by ref, another truthy value as one ref, and a falsy value as nothing. |
| Models.MissingRelationshipIsEmpty | model.js:63-102 | A stored relationship the document lacks reads as `[]` for has-many and `null` otherwise. |

## Left out

- File-system work: `generateCardModule`, `createBrowserAssets` and `createPkgFile`, the card module cache, and `loadCard`'s module generation.
- `adaptCardToFormat` and `adaptCardCollectionToFormat` beyond `formatHasField` and the final dedupe. They fetch through searchers and card services.
- The dotted paths of lodash `get`/`set` are read as plain member names. A relationship or field name that itself holds a `.` is not modelled.
- The bulk (array) forms of `create` and `update`, with their `Promise.all` fan-out and `bulkPush`. The binary create path and `createBinary` are also left out, as are `_cleanupBodyData`'s `withOnlyRealFields`.
- `_createQueryLinks` mutates the shared relationship objects of its input in place. The model gives a new resource and leaves the input alone.
- Writer plugin work is a parameter: `prepareCreate`, `prepareUpdate`, `prepareDelete` and the finalizer's meta. So are `schema.validate`, `applyChanges` and the read-authorization step.
- `addStaticModels`, `_loadMeta` and `_saveMeta` payloads beyond the source id, the logging, and the event payloads beyond the call recorded.
- Objects are kept as entry lists in insertion order: attributes, relationships, meta, the option objects and the updaters. `Object.keys` and `Object.entries` list integer-like keys first, in ascending order, and the model does not. So for an object with an integer-like member name, the order the model states is not the order the program enumerates. The members and values are the same either way.
- SourcesUpdates.Update: an updater's `updateContent` is a function of its source id and loaded meta. The saves and deletes it makes through its operations object are modelled separately, in the operations module.
- `Math.random()` is a parameter in `[0, 1)`, and the nonce arithmetic is done on reals with `floor`. The double-precision rounding of the product is not modelled.
- `getSpace`, `getRoutersInfo`, `hasUnconsumedPath` and the error-card and application-card lookups. These are searcher I/O and regex and URI decoding.
- Routers.Discover: `namespacedPath` is built by a regex rewrite and is not modelled. A route's query and extra parameters are carried through opaquely.
- Routers.Discover: the thrown messages do not include the JSON dump of the route stack.
- Models.GetField: a computed field's `compute` is a parameter, and the errors it throws are not modelled. Indexing a truthy string or array by a field name gives `undefined` here, even for names like `length`.
- `Model.getModel`, `getModels` and what `getRelated` loads through them. `getRelated` stops at which of these it would call and with what.
- CardIdentity.ContextRoundTrip: stated for parts without `::` whose non-last members do not end in `:`. Other parts do not round-trip, as CardIdentity.ContextRoundTripNeedsSegments shows.
- CardNamespacing.ResourceRoundTrip: stated only for restorable resources. Outside that set the source's round trip does fail, as CardNamespacing.SameTypeAndIdStaysPrefixed and CardNamespacing.EmptyNameStaysPrefixed show. A card id whose card part ends in `:` fails too, because the delimiter then splits in the wrong place.
- CardNamespacing.NamespacingRoundTrip: stated only for cards whose resources are all restorable, for the same reasons. A card's `model` linkage points at the card id itself, which holds `::`. That linkage is exempt, because both directions leave it untouched, so validated cards are covered (CardNamespacing.ValidCardRoundTrip). A linkage from one included resource to another card's model is not restorable and is not covered.
- CardNamespacing.AddResourceMembers: stated only when no member's name is another member's prefixed name. Otherwise the source's loop overwrites a member it has yet to visit.
- Sorting.SortByComparator: stands for the engine's `Array.prototype.sort` as a stable insertion sort. With an inconsistent comparator another algorithm can give another order.
- CardFormat.GenerateInternalSucceeds: stated for card ids without `/`. With a `/`, the `type/id` key match can find another resource.

## Findings

| source | as written | input that shows it | evidently intended | confidence | as-written member | corrected member |
|---|---|---|---|---|---|---|
| writers.js:759-774 | `sortSchemaForDelete`, as line 574 uses it, orders only content types against fields and calls every other pair equal, so it is not a consistent comparator and `Array.prototype.sort` need not put content types first | `[fields, other-schema-type, content-types]`: each neighbouring pair compares equal, so a stable insertion sort leaves the field ahead of the content type | every content type deleted before every field, the dependency order that the note at writers.js:757-758 and the comparator's two branches aim at | not executed | SchemaDelete.DeleteAsWrittenFieldFirst | SchemaDelete.DeleteIntendedOrder |

=== FILE: base.dfy ===
/** Shared vocabulary: optional values, results and the errors the hub raises. */
module Base {

  /** A value that may be absent: `None` stands for JavaScript's `undefined` or `null`. */
  datatype Option<+T> = None | Some(value: T) {
    function GetOr(default: T): T {
      match this
      case Some(v) => v
      case None => default
    }
  }

  /** The outcome of an operation that may throw. */
  datatype Result<+T, +E> = Ok(value: T) | Err(error: E) {
    predicate IsFailure() { Err? }

    function PropagateFailure<U>(): Result<U, E>
      requires Err?
    {
      Err(error)
    }

    function Extract(): T
      requires Ok?
    {
      value
    }
  }

  /** What a thrown error carries, as far as callers can observe it. */
  datatype Error =
    | Http(status: int, pointer: Option<string>) // hub error with an HTTP status and an optional source pointer
    | Titled(status: int, title: string)         // hub error with an HTTP status and a title
    | Thrown(reason: string)                     // an error without a status, named by what went wrong
    | TypeFault                                  // a JavaScript TypeError (property access on undefined, …)

  /** JavaScript truthiness of an optional string: defined and not empty. */
  predicate Truthy(s: Option<string>) {
    s.Some? && s.value != ""
  }

  /** Template-literal interpolation of an optional string. */
  function Text(s: Option<string>): string {
    match s
    case Some(v) => v
    case None => "undefined"
  }
}

=== FILE: card_diff.dfy ===
/** What a card write changes among the card's internal resources: the
    resources to add, to update and to delete, compared by `${type}/${id}`. */
module CardDiff {
  import opened Base
  import opened Resources
  import opened Lists

  datatype Diff = Diff(added: seq<Resource>, changed: seq<Resource>, deleted: seq<Resource>)

  /** lodash `differenceBy(a, b, key)`: the elements of `a`, in order and
      with their repeats, whose key no element of `b` has. */
  function Difference(a: seq<Resource>, b: seq<Resource>): (r: seq<Resource>)
    ensures forall x :: x in r <==> x in a && Key(x) !in KeySet(b, Key)
    ensures forall x :: multiset(r)[x] == if Key(x) in KeySet(b, Key) then 0 else multiset(a)[x]
    ensures KeySet(r, Key) == KeySet(a, Key) - KeySet(b, Key)
  {
    var keys := KeySet(b, Key);
    var p := (x: Resource) => Key(x) !in keys;
    var r := Filter(a, p);
    forall x
      ensures x in r <==> x in a && Key(x) !in keys
      ensures multiset(r)[x] == if Key(x) in keys then 0 else multiset(a)[x]
    {
      FilterMembers(a, p, x);
      FilterCount(a, p, x);
    }
    FilterKeySet(a, Key, p, (k: string) => k !in keys);
    r
  }

  /** The difference of a concatenation is the concatenation of the
      differences: each kept element stays where `a` had it. */
  lemma DifferenceInOrder(a1: seq<Resource>, a2: seq<Resource>, b: seq<Resource>)
    ensures Difference(a1 + a2, b) == Difference(a1, b) + Difference(a2, b)
  {
    FilterAppend(a1, a2, (x: Resource) => Key(x) !in KeySet(b, Key));
  }

  /** lodash `intersectionBy(a, b, key)`: the first element of `a` of each key
      that some element of `b` also has, in order. */
  function Intersection(a: seq<Resource>, b: seq<Resource>): (r: seq<Resource>)
    ensures forall x :: x in r ==> x in a && Key(x) in KeySet(b, Key)
    ensures forall i, j :: 0 <= i < j < |r| ==> Key(r[i]) != Key(r[j])
    ensures KeySet(r, Key) == KeySet(a, Key) * KeySet(b, Key)
  {
    var keys := KeySet(b, Key);
    var p := (x: Resource) => Key(x) in keys;
    var shared := Filter(a, p);
    forall x | x in shared
      ensures x in a && Key(x) in keys
    {
      FilterMembers(a, p, x);
    }
    FilterKeySet(a, Key, p, (k: string) => k in keys);
    UniqBy(shared, Key)
  }

  /** The diff of `handleCardOperations`: on a delete every resource of the
      internal card goes; on a write against an existing card the included
      resources are split by key against the old card's; on a first write
      everything included is added. */
  function Compute(isDeletion: bool, internal: Document, existing: Option<Document>): (d: Diff)
    ensures isDeletion ==> d == Diff([], [], [internal.data] + internal.included)
    ensures !isDeletion && existing.None? ==> d == Diff(internal.included, [], [])
  {
    if isDeletion then Diff([], [], [internal.data] + internal.included)
    else if existing.Some? then
      Diff(Difference(internal.included, existing.value.included),
           Intersection(internal.included, existing.value.included),
           Difference(existing.value.included, internal.included))
    else Diff(internal.included, [], [])
  }

  /** Against an existing card, the keys of the new included resources are
      split between added (new only) and changed (in both); the deleted ones
      are the old keys the new card dropped. Each added or deleted resource
      is one of the card's, and every new resource is either added or shares
      its key with a changed one. */
  lemma DiffAgainstExisting(internal: Document, existing: Document)
    ensures var d := Compute(false, internal, Some(existing));
      var newKeys := KeySet(internal.included, Key);
      var oldKeys := KeySet(existing.included, Key);
      KeySet(d.added, Key) == newKeys - oldKeys
      && KeySet(d.changed, Key) == newKeys * oldKeys
      && KeySet(d.deleted, Key) == oldKeys - newKeys
      && (forall x :: x in d.added <==> x in internal.included && Key(x) !in oldKeys)
      && (forall x :: x in d.deleted <==> x in existing.included && Key(x) !in newKeys)
      && (forall x :: x in d.changed ==> x in internal.included)
      && (forall x :: x in internal.included ==> x in d.added || Key(x) in KeySet(d.changed, Key))
  {
    var d := Compute(false, internal, Some(existing));
    forall x | x in internal.included
      ensures x in d.added || Key(x) in KeySet(d.changed, Key)
    {
      var i :| 0 <= i < |internal.included| && internal.included[i] == x;
      assert Key(x) in KeySet(internal.included, Key);
    }
  }

  /** The three parts never overlap by key. */
  lemma DiffDisjoint(isDeletion: bool, internal: Document, existing: Option<Document>)
    ensures var d := Compute(isDeletion, internal, existing);
      KeySet(d.added, Key) * KeySet(d.changed, Key) == {}
      && KeySet(d.added, Key) * KeySet(d.deleted, Key) == {}
      && KeySet(d.changed, Key) * KeySet(d.deleted, Key) == {}
  {
    if !isDeletion && existing.Some? {
      DiffAgainstExisting(internal, existing.value);
    }
  }
}

=== FILE: card_format.dfy ===
/** Translating a card from the external format clients send to the internal
    graph the hub indexes, deriving the card's own content type, and the field
    filter of the isolated and embedded views. */
module CardFormat {
  import opened Base
  import opened Strings
  import opened Objects
  import opened Json
  import opened Resources
  import opened CardIdentity
  import opened CardValidation
  import opened CardNamespacing
  import opened Lists

  /** The attributes that carry a card's browser assets, in the order they are copied. */
  const AssetFields: seq<string> :=
    ["isolated-template", "isolated-js", "isolated-css", "embedded-template", "embedded-js", "embedded-css"]

  const MetadataFieldTypes: string := "metadata-field-types"

  /** The first resource with the given `${type}/${id}` key. */
  function FindByKey(rs: seq<Resource>, key: string): (r: Option<Resource>)
    ensures r.Some? ==> r.value in rs && Key(r.value) == key
    ensures r.Some? ==> exists i :: 0 <= i < |rs| && rs[i] == r.value && NoKeyBefore(rs, key, i)
    ensures r.None? <==> forall i :: 0 <= i < |rs| ==> Key(rs[i]) != key
    decreases |rs|
  {
    if |rs| == 0 then None
    else if Key(rs[0]) == key then
      assert NoKeyBefore(rs, key, 0);
      Some(rs[0])
    else
      var r := FindByKey(rs[1..], key);
      assert forall i :: 1 <= i < |rs| ==> rs[i] == rs[1..][i - 1];
      if r.Some? then
        var i :| 0 <= i < |rs[1..]| && rs[1..][i] == r.value && NoKeyBefore(rs[1..], key, i);
        assert NoKeyBefore(rs, key, i + 1);
        r
      else r
  }

  /** No resource before index `i` has the key. */
  predicate NoKeyBefore(rs: seq<Resource>, key: string, i: int)
    requires 0 <= i <= |rs|
  {
    forall j :: 0 <= j < i ==> Key(rs[j]) != key
  }

  /** `lodash.set(model, 'relationships.fields.data', fields)`: the data of an
      existing `fields` relationship is replaced, or the relationship is added. */
  function WithFields(model: Resource, fields: Linkage): (r: Resource)
    ensures LinkageOf(r, "fields") == fields
    ensures r.typ == model.typ && r.id == model.id && r.attributes == model.attributes && r.meta == model.meta
    ensures forall k :: k != "fields" ==> Get(r.relationships, k) == Get(model.relationships, k)
  {
    var rel := match Get(model.relationships, "fields")
      case Some(existing) => existing.(data := fields)
      case None => Relationship(fields, NoLinks);
    SetThenGet(model.relationships, "fields", rel, "fields");
    SetKeepsOthers(model.relationships, "fields", rel);
    model.(relationships := Set(model.relationships, "fields", rel))
  }

  /** The asset loop: each listed attribute the card holds with a truthy value
      is copied onto the model. */
  function CopyAssets(attrs: Obj<Value>, source: Obj<Value>, fields: seq<string>): Obj<Value>
    decreases |fields|
  {
    if |fields| == 0 then attrs
    else
      var v := Get(source, fields[0]);
      var next := if v.Some? && v.value.Truthy() then Set(attrs, fields[0], v.value) else attrs;
      CopyAssets(next, source, fields[1..])
  }

  /** An asset attribute holds the card's value when that is truthy; every
      other attribute of the model is unchanged. */
  lemma {:induction false} CopyAssetsGet(attrs: Obj<Value>, source: Obj<Value>, fields: seq<string>, k: string)
    ensures Get(CopyAssets(attrs, source, fields), k) ==
      if k in fields && Get(source, k).Some? && Get(source, k).value.Truthy() then Get(source, k)
      else Get(attrs, k)
    decreases |fields|
  {
    if |fields| > 0 {
      var v := Get(source, fields[0]);
      var next := if v.Some? && v.value.Truthy() then Set(attrs, fields[0], v.value) else attrs;
      CopyAssetsGet(next, source, fields[1..], k);
      if v.Some? && v.value.Truthy() {
        SetThenGet(attrs, fields[0], v.value, k);
      }
      assert k in fields <==> k == fields[0] || k in fields[1..];
    }
  }

  /** A linkage to `cards` becomes a linkage to the card model `{type: id, id: id}`. */
  function CardsRef(x: Ref): (r: Ref)
    ensures r.id == x.id
    ensures r.typ == Cards ==> r.id == Cards
    ensures x.typ != Cards ==> r == x
  {
    if x.typ == Cards then Ref(x.id, x.id) else x
  }

  /** The rewrite applied to every output resource with a truthy id: a `cards`
      resource takes its id as its type, and every `cards` linkage is redirected. */
  function RewriteCards(r: Resource): (out: Resource)
    ensures out.id == r.id && out.attributes == r.attributes && out.meta == r.meta
    ensures !Truthy(r.id) ==> out == r
    ensures Truthy(r.id) && r.typ == Cards ==> out.typ == r.id
    ensures r.typ != Cards ==> out.typ == r.typ
    ensures Truthy(r.id) ==>
      Keys(out.relationships) == Keys(r.relationships)
      && forall i :: 0 <= i < |r.relationships| ==>
           out.relationships[i].1 == MapData(r.relationships[i].1, CardsRef)
  {
    if !Truthy(r.id) then r
    else r.(typ := if r.typ == Cards then r.id else r.typ,
            relationships := MapValues(r.relationships, (rel: Relationship) => MapData(rel, CardsRef)))
  }

  /** The fields linkage a card carries, or an empty list. */
  function FieldsOrEmpty(data: Resource): Linkage {
    var l := LinkageOf(data, "fields");
    if l.Truthy() then l else ToMany([])
  }

  /** `meta.version` when it is neither undefined nor null. */
  function Version(data: Resource): Option<Value> {
    var v := Get(MetaOf(data), "version");
    if v.Some? && !v.value.Undefined? && !v.value.Null? then v else None
  }

  /** The card model after the fields, version and asset attributes of the card
      are put on it. */
  function DecorateModel(model: Resource, data: Resource): (r: Resource)
    ensures r.typ == model.typ && r.id == model.id
  {
    var m1 := WithFields(model, FieldsOrEmpty(data));
    var m2 := match Version(data)
      case Some(v) => m1.(meta := Some(Set(MetaOf(m1), "version", v)))
      case None => m1;
    m2.(attributes := CopyAssets(m2.attributes, data.attributes, AssetFields))
  }

  /** The included resources that stay: not the model and with an id inside the card. */
  function OtherResources(included: seq<Resource>, model: Resource, id: string): seq<Resource> {
    Filter(included, (i: Resource) => Key(i) != Key(model) && i.id.Some? && Includes(i.id.value, id))
  }

  /** An included resource that stays in the internal format: not keyed as the
      card model `id/id`, and with an id inside the card. */
  predicate StaysIncluded(x: Resource, id: string) {
    Key(x) != ModelKey(id) && x.id.Some? && Includes(x.id.value, id)
  }

  /** The message thrown for a card document without an id. */
  const MissingCardId: string := "The card ID must be supplied in the card document in order to create the card."

  /** The steps after namespacing: find the card model `id/id`, decorate it,
      keep the other resources of the card and redirect `cards` linkages. */
  function Assemble(ns: Document, id: string): (r: Result<Document, Error>)
    ensures r.Err? <==> FindByKey(ns.included, ModelKey(id)).None?
    ensures r.Err? ==> r.error == BadRequest(ModelPointer)
  {
    match FindByKey(ns.included, ModelKey(id))
    case None => Err(BadRequest(ModelPointer))
    case Some(model) =>
      Ok(Document(RewriteCards(DecorateModel(model, ns.data)),
                  Map(OtherResources(ns.included, model, id), RewriteCards)))
  }

  /** `generateInternalCardFormat(schema, card)`. */
  function GenerateInternal(isSchemaType: string -> bool, card: Document): (r: Result<Document, Error>)
    ensures !Truthy(card.data.id) ==> r.Err? && r.error.Thrown?
    ensures Truthy(card.data.id) && !ExternalValid(card) ==>
      r.Err? && r.error == ValidateExternal(card).error && r.error.Http? && r.error.status == 400
    ensures ExternalValid(card) && GetCardId(card.data.id).None? ==> r == Err(TypeFault)
    ensures r.Ok? ==> (ExternalValid(card) && GetCardId(card.data.id).Some?
      && r == Assemble(AddNamespacing(isSchemaType, card).value, card.data.id.value))
  {
    var id := card.data.id;
    if !Truthy(id) then Err(Thrown(MissingCardId))
    else match ValidateExternal(card)
      case Err(e) => Err(e)
      case Ok(_) =>
        match AddNamespacing(isSchemaType, card)
        case None => Err(TypeFault)
        case Some(ns) => Assemble(ns, id.value)
  }

  /** `${t}/${i}` with no '/' in `x` equals `${x}/${x}` only for `t == i == x`. */
  lemma KeyWithoutSlash(t: string, i: string, x: string)
    requires '/' !in x
    requires t + "/" + i == x + "/" + x
    ensures t == x && i == x
  {
    var s := x + "/" + x;
    assert s[|t|] == '/';
    assert t == s[..|t|];
    assert x == s[..|x|];
    assert i == s[|t| + 1..];
    assert x == s[|x| + 1..];
  }

  lemma KeyIsModel(r: Resource, x: string)
    requires '/' !in x && |Split(x)| >= 3
    requires Key(r) == ModelKey(x)
    ensures r.typ == Some(x) && r.id == Some(x)
    ensures IsCard(r.typ, r.id)
  {
    KeyWithoutSlash(Text(r.typ), Text(r.id), x);
    assert Split("undefined") == ["undefined"] by {
      assert !DelimAt("undefined", 0);
      SplitWithoutDelim("undefined");
    }
  }

  /** For a card id without '/', every valid external card whose id names a
      card generates its internal format. */
  lemma GenerateInternalSucceeds(isSchemaType: string -> bool, card: Document)
    requires ExternalValid(card) && GetCardId(card.data.id).Some?
    requires '/' !in card.data.id.value
    ensures GenerateInternal(isSchemaType, card).Ok?
  {
    var id := card.data.id.value;
    var root := GetCardId(card.data.id).value;
    var ns := AddNamespacing(isSchemaType, card).value;
    var j :| 0 <= j < |card.included| && Key(card.included[j]) == ModelKey(id);
    KeyIsModel(card.included[j], id);
    assert ns.included[j] == AddResource(isSchemaType, root, card.included[j]);
    assert Key(ns.included[j]) == ModelKey(id);
  }

  /** The assembled `data` is the card model, under the card's id as type and id. */
  lemma AssembleModel(ns: Document, id: string)
    requires Assemble(ns, id).Ok?
    requires '/' !in id && |Split(id)| >= 3
    ensures Assemble(ns, id).value.data.typ == Some(id)
    ensures Assemble(ns, id).value.data.id == Some(id)
  {
    var model := FindByKey(ns.included, ModelKey(id)).value;
    KeyIsModel(model, id);
    ModelIsNotCards(model, id);
    AssembledData(ns, id);
  }

  lemma ModelIsNotCards(model: Resource, id: string)
    requires model.typ == Some(id) && |Split(id)| >= 3
    ensures model.typ != Cards
  {
    assert Split("cards") == ["cards"];
  }

  lemma AssembledData(ns: Document, id: string)
    requires Assemble(ns, id).Ok?
    ensures var model := FindByKey(ns.included, ModelKey(id)).value;
      model.typ != Cards ==>
        Assemble(ns, id).value.data.typ == model.typ && Assemble(ns, id).value.data.id == model.id
  {
  }

  /** The generated `data` is the card model, under the card's id as type and id. */
  lemma GenerateInternalModel(isSchemaType: string -> bool, card: Document)
    requires GenerateInternal(isSchemaType, card).Ok?
    requires '/' !in card.data.id.value
    ensures GenerateInternal(isSchemaType, card).value.data.typ == card.data.id
    ensures GenerateInternal(isSchemaType, card).value.data.id == card.data.id
  {
    AssembleModel(AddNamespacing(isSchemaType, card).value, card.data.id.value);
  }

  /** The assembled `included` holds only resources whose id lies inside the
      card, and the model is not among them. */
  lemma AssembleIncluded(ns: Document, id: string)
    requires Assemble(ns, id).Ok?
    ensures var out := Assemble(ns, id).value;
      (forall i :: 0 <= i < |out.included| ==> out.included[i].id.Some? && Includes(out.included[i].id.value, id))
      && |out.included| < |ns.included|
  {
    var model := FindByKey(ns.included, ModelKey(id)).value;
    var p := (i: Resource) => Key(i) != Key(model) && i.id.Some? && Includes(i.id.value, id);
    var others := Filter(ns.included, p);
    forall i | 0 <= i < |others|
      ensures others[i].id.Some? && Includes(others[i].id.value, id)
    {
      assert p(others[i]);
    }
    FilterDrops(ns.included, p, model);
  }

  /** The generated `included` holds only resources whose id lies inside the
      card, and the model is not among them: it is strictly shorter than the
      external `included`. */
  lemma GenerateInternalIncluded(isSchemaType: string -> bool, card: Document)
    requires GenerateInternal(isSchemaType, card).Ok?
    ensures var out := GenerateInternal(isSchemaType, card).value;
      (forall i :: 0 <= i < |out.included| ==>
        out.included[i].id.Some? && Includes(out.included[i].id.value, card.data.id.value))
      && |out.included| < |card.included|
  {
    AssembleIncluded(AddNamespacing(isSchemaType, card).value, card.data.id.value);
  }

  /** `out` is exactly the resources of `src` that stay, each with its `cards`
      linkages redirected: every one of `out` comes from one of `src` that
      stays, and every one of `src` that stays reaches `out`. */
  predicate IncludedExactly(out: seq<Resource>, src: seq<Resource>, id: string) {
    ComesFromStaying(out, src, id) && (forall j :: 0 <= j < |src| && StaysIncluded(src[j], id) ==> RewriteCards(src[j]) in out)
  }

  /** Every resource of `out` is a redirected resource of `src` that stays. */
  predicate ComesFromStaying(out: seq<Resource>, src: seq<Resource>, id: string) {
    forall i :: 0 <= i < |out| ==> RedirectedStaying(out[i], src, id)
  }

  /** `x` is a redirected resource of `src` that stays. */
  predicate RedirectedStaying(x: Resource, src: seq<Resource>, id: string) {
    exists j :: 0 <= j < |src| && StaysIncluded(src[j], id) && x == RewriteCards(src[j])
  }

  /** The generated `included` is exactly the namespaced included resources
      that stay, each with its `cards` linkages redirected; the namespaced
      resources are `AddResource` of the external ones, one for one. */
  lemma GenerateInternalIncludedExactly(isSchemaType: string -> bool, card: Document)
    requires GenerateInternal(isSchemaType, card).Ok?
    ensures var ns := AddNamespacing(isSchemaType, card).value;
      IncludedExactly(GenerateInternal(isSchemaType, card).value.included, ns.included, card.data.id.value)
      && |ns.included| == |card.included|
      && forall j :: 0 <= j < |card.included| ==>
           ns.included[j] == AddResource(isSchemaType, GetCardId(card.data.id).value, card.included[j])
  {
    AssembleIncludedExactly(AddNamespacing(isSchemaType, card).value, card.data.id.value);
  }

  /** The included resources that stay beside a model keyed `id/id` are exactly
      those `StaysIncluded` accepts. */
  lemma OtherResourcesMembers(included: seq<Resource>, model: Resource, id: string, x: Resource)
    requires Key(model) == ModelKey(id)
    ensures x in OtherResources(included, model, id) <==> x in included && StaysIncluded(x, id)
  {
    FilterMembers(included, (i: Resource) => Key(i) != Key(model) && i.id.Some? && Includes(i.id.value, id), x);
  }

  /** The assembled `included` is exactly the included resources that stay,
      each with its `cards` linkages redirected. */
  lemma AssembleIncludedExactly(ns: Document, id: string)
    requires Assemble(ns, id).Ok?
    ensures IncludedExactly(Assemble(ns, id).value.included, ns.included, id)
  {
    var model := FindByKey(ns.included, ModelKey(id)).value;
    assert Assemble(ns, id).value.included == Map(OtherResources(ns.included, model, id), RewriteCards);
    OthersExactly(ns.included, model, id);
  }

  lemma OthersExactly(src: seq<Resource>, model: Resource, id: string)
    requires Key(model) == ModelKey(id)
    ensures IncludedExactly(Map(OtherResources(src, model, id), RewriteCards), src, id)
  {
    OthersComeFromSource(src, model, id);
    OthersReachOutput(src, model, id);
  }

  lemma OthersComeFromSource(src: seq<Resource>, model: Resource, id: string)
    requires Key(model) == ModelKey(id)
    ensures ComesFromStaying(Map(OtherResources(src, model, id), RewriteCards), src, id)
  {
    var others := OtherResources(src, model, id);
    var out := Map(others, RewriteCards);
    forall i | 0 <= i < |out|
      ensures RedirectedStaying(out[i], src, id)
    {
      OtherResourcesMembers(src, model, id, others[i]);
      var j :| 0 <= j < |src| && src[j] == others[i];
      assert StaysIncluded(src[j], id) && out[i] == RewriteCards(src[j]);
    }
  }

  lemma OthersReachOutput(src: seq<Resource>, model: Resource, id: string)
    requires Key(model) == ModelKey(id)
    ensures forall j :: 0 <= j < |src| && StaysIncluded(src[j], id) ==>
      RewriteCards(src[j]) in Map(OtherResources(src, model, id), RewriteCards)
  {
    var others := OtherResources(src, model, id);
    var out := Map(others, RewriteCards);
    forall j | 0 <= j < |src| && StaysIncluded(src[j], id)
      ensures RewriteCards(src[j]) in out
    {
      OtherResourcesMembers(src, model, id, src[j]);
      var i :| 0 <= i < |others| && others[i] == src[j];
      assert out[i] == RewriteCards(src[j]);
    }
  }

  /** Filtering out an element that is present makes the list shorter. */
  lemma {:induction false} FilterDrops<T>(s: seq<T>, p: T -> bool, x: T)
    requires x in s && !p(x)
    ensures |Filter(s, p)| < |s|
    decreases |s|
  {
    if s[0] != x {
      FilterDrops(s[1..], p, x);
    }
  }

  /** The assembled model carries the card's fields linkage (an empty list when
      the card has none), with `cards` linkages redirected. */
  lemma AssembleFields(ns: Document, id: string)
    requires Assemble(ns, id).Ok?
    ensures LinkageOf(Assemble(ns, id).value.data, "fields") == MapLinkage(FieldsOrEmpty(ns.data), CardsRef)
           || !Truthy(Assemble(ns, id).value.data.id)
  {
    var model := FindByKey(ns.included, ModelKey(id)).value;
    var d := DecorateModel(model, ns.data);
    var m1 := WithFields(model, FieldsOrEmpty(ns.data));
    assert LinkageOf(d, "fields") == LinkageOf(m1, "fields");
    if Truthy(d.id) {
      GetMapValues(d.relationships, (rel: Relationship) => MapData(rel, CardsRef), "fields");
    }
  }

  /** The generated model carries the card's fields linkage (an empty list when
      the card has none), with `cards` linkages redirected. */
  lemma GenerateInternalFields(isSchemaType: string -> bool, card: Document)
    requires GenerateInternal(isSchemaType, card).Ok?
    requires '/' !in card.data.id.value
    ensures LinkageOf(GenerateInternal(isSchemaType, card).value.data, "fields")
         == MapLinkage(FieldsOrEmpty(AddNamespacing(isSchemaType, card).value.data), CardsRef)
  {
    var ns := AddNamespacing(isSchemaType, card).value;
    AssembleModel(ns, card.data.id.value);
    AssembleFields(ns, card.data.id.value);
  }

  /** Each asset attribute of the assembled model holds the card's value when
      that is truthy; every other attribute is the card model's own. */
  lemma AssembleAssets(ns: Document, id: string, k: string)
    requires Assemble(ns, id).Ok?
    ensures var v := Get(ns.data.attributes, k);
      Get(Assemble(ns, id).value.data.attributes, k)
        == if k in AssetFields && v.Some? && v.value.Truthy() then v
           else Get(FindByKey(ns.included, ModelKey(id)).value.attributes, k)
  {
    var model := FindByKey(ns.included, ModelKey(id)).value;
    var m1 := WithFields(model, FieldsOrEmpty(ns.data));
    var m2 := match Version(ns.data)
      case Some(v) => m1.(meta := Some(Set(MetaOf(m1), "version", v)))
      case None => m1;
    CopyAssetsGet(m2.attributes, ns.data.attributes, AssetFields, k);
  }

  /** No included resource of the assembled card keeps a linkage to `cards`
      (short of one whose id is itself `cards`). */
  lemma AssembleRedirectsCards(ns: Document, id: string)
    requires Assemble(ns, id).Ok? && id != ""
    ensures var out := Assemble(ns, id).value;
      (Truthy(out.data.id) ==> NoCardsLinkage(out.data))
      && forall i :: 0 <= i < |out.included| ==> NoCardsLinkage(out.included[i])
  {
    var out := Assemble(ns, id).value;
    if Truthy(out.data.id) {
      var model := FindByKey(ns.included, ModelKey(id)).value;
      RewrittenHasNoCardsLinkage(DecorateModel(model, ns.data));
    }
    var model := FindByKey(ns.included, ModelKey(id)).value;
    var others := OtherResources(ns.included, model, id);
    forall i | 0 <= i < |others|
      ensures NoCardsLinkage(RewriteCards(others[i]))
    {
      var p := (x: Resource) => Key(x) != Key(model) && x.id.Some? && Includes(x.id.value, id);
      assert p(others[i]);
      assert Truthy(others[i].id);
      RewrittenHasNoCardsLinkage(others[i]);
    }
  }

  /** Every linkage of the resource that points at `cards` has the id `cards`. */
  predicate NoCardsLinkage(r: Resource) {
    forall k :: 0 <= k < |r.relationships| ==>
      match r.relationships[k].1.data
      case ToOne(x) => x.typ == Cards ==> x.id == Cards
      case ToMany(refs) => forall j :: 0 <= j < |refs| ==> refs[j].typ == Cards ==> refs[j].id == Cards
      case _ => true
  }

  lemma RewrittenHasNoCardsLinkage(r: Resource)
    requires Truthy(r.id)
    ensures NoCardsLinkage(RewriteCards(r))
  {
    var out := RewriteCards(r);
    forall k | 0 <= k < |out.relationships|
      ensures match out.relationships[k].1.data
        case ToOne(x) => x.typ == Cards ==> x.id == Cards
        case ToMany(refs) => forall j :: 0 <= j < |refs| ==> refs[j].typ == Cards ==> refs[j].id == Cards
        case _ => true
    {
      assert out.relationships[k].1 == MapData(r.relationships[k].1, CardsRef);
    }
  }

  // ------------------------------------------------------ the card schema

  /** The test `getCardSchemas` keeps an included resource by. */
  function SchemaTest(isSchemaType: string -> bool): Resource -> bool {
    (i: Resource) => IsSchemaType(isSchemaType, i.typ)
  }

  function FieldRef(id: string): Ref {
    Ref(Some("fields"), Some(id))
  }

  function AssetRefs(): (refs: seq<Ref>)
    ensures |refs| == |AssetFields|
  {
    seq(|AssetFields|, i requires 0 <= i < |AssetFields| => FieldRef(AssetFields[i]))
  }

  /** A missing id reads as `undefined` in the default includes. */
  function IdValue(id: Option<string>): Value {
    match id
    case Some(s) => Str(s)
    case None => Undefined
  }

  function IdValues(refs: seq<Ref>): (vs: seq<Value>)
    ensures |vs| == |refs|
    ensures forall i :: 0 <= i < |refs| ==> vs[i] == IdValue(refs[i].id)
  {
    seq(|refs|, i requires 0 <= i < |refs| => IdValue(refs[i].id))
  }

  /** `deriveCardModelContentType(card)`: nothing for a card without an id; a
      to-one fields linkage has no `map` and throws. */
  function DeriveContentType(card: Document): (r: Result<Option<Resource>, Error>)
    ensures !Truthy(card.data.id) <==> r == Ok(None)
    ensures LinkageOf(card.data, "fields").ToOne? && Truthy(card.data.id) ==> r == Err(TypeFault)
    ensures Truthy(card.data.id) && !LinkageOf(card.data, "fields").ToOne? ==>
      r.Ok? && r.value.Some? && r.value.value.typ == Some("content-types") && r.value.value.id == GetCardId(card.data.id)
  {
    if !Truthy(card.data.id) then Ok(None)
    else
      var cardFields: Result<seq<Ref>, Error> := match LinkageOf(card.data, "fields")
        case ToMany(refs) => Ok(refs)
        case ToOne(_) => Err(TypeFault)
        case _ => Ok([]);
      match cardFields
      case Err(e) => Err(e)
      case Ok(refs) =>
        var fields := [FieldRef("fields")] + AssetRefs() + refs
          + [Ref(Some("computed-fields"), Some(MetadataFieldTypes))];
        var includes := [Str("fields"), Str("fields.related-types"), Str("fields.constraints")] + IdValues(refs);
        Ok(Some(Resource(
          Some("content-types"),
          GetCardId(card.data.id),
          [("default-includes", Arr(includes))],
          [("fields", Relationship(ToMany(fields), NoLinks))],
          None)))
  }

  /** The derived content type is the card's own, lists the built-in fields,
      every field of the card in order and the metadata field, and includes
      every field of the card by default. */
  lemma DeriveContentTypeFields(card: Document)
    requires DeriveContentType(card).Ok? && DeriveContentType(card).value.Some?
    ensures var ct := DeriveContentType(card).value.value;
      var refs := LinkageOf(card.data, "fields");
      ct.typ == Some("content-types") && ct.id == GetCardId(card.data.id)
      && LinkageOf(ct, "fields").ToMany?
      && var listed := LinkageOf(ct, "fields").refs;
      listed[0] == FieldRef("fields")
      && (forall i :: 0 <= i < |AssetFields| ==> listed[1 + i] == FieldRef(AssetFields[i]))
      && listed[|listed| - 1] == Ref(Some("computed-fields"), Some(MetadataFieldTypes))
      && (refs.ToMany? ==>
            (|listed| == |refs.refs| + 8
             && (forall i :: 0 <= i < |refs.refs| ==> listed[7 + i] == refs.refs[i])
             && (forall i :: 0 <= i < |refs.refs| ==>
                   IdValue(refs.refs[i].id) in Get(ct.attributes, "default-includes").value.items)))
  {
    var ct := DeriveContentType(card).value.value;
    var refs := LinkageOf(card.data, "fields");
    if refs.ToMany? {
      var includes := [Str("fields"), Str("fields.related-types"), Str("fields.constraints")] + IdValues(refs.refs);
      assert Get(ct.attributes, "default-includes") == Some(Arr(includes));
      forall i | 0 <= i < |refs.refs|
        ensures IdValue(refs.refs[i].id) in includes
      {
        assert includes[3 + i] == IdValue(refs.refs[i].id);
      }
    }
  }

  /** `getCardSchemas(schema, card)`: nothing for a card without an id;
      otherwise the included schema models in order, then the derived content
      type. */
  function GetCardSchemas(isSchemaType: string -> bool, card: Document): (r: Result<Option<seq<Resource>>, Error>)
    ensures !Truthy(card.data.id) ==> r == Ok(None)
    ensures r.Ok? && r.value.Some? ==>
      |r.value.value| >= 1
      && DeriveContentType(card).Ok? && DeriveContentType(card).value.Some?
      && r.value.value[|r.value.value| - 1] == DeriveContentType(card).value.value
      && (forall i :: 0 <= i < |r.value.value| - 1 ==>
            r.value.value[i] in card.included && IsSchemaType(isSchemaType, r.value.value[i].typ))
    ensures r.Ok? && r.value.Some? ==>
      r.value.value[..|r.value.value| - 1] == Filter(card.included, SchemaTest(isSchemaType))
      && forall x :: x in r.value.value[..|r.value.value| - 1] <==> x in card.included && IsSchemaType(isSchemaType, x.typ)
    ensures Truthy(card.data.id) ==> (r.Ok? <==> DeriveContentType(card).Ok?)
  {
    if !Truthy(card.data.id) then Ok(None)
    else
      var schemaModels := Filter(card.included, SchemaTest(isSchemaType));
      match DeriveContentType(card)
      case Err(e) => Err(e)
      case Ok(None) => Ok(Some(schemaModels))
      case Ok(Some(ct)) =>
        forall x
          ensures x in schemaModels <==> x in card.included && IsSchemaType(isSchemaType, x.typ)
        {
          FilterMembers(card.included, SchemaTest(isSchemaType), x);
        }
        assert (schemaModels + [ct])[..|schemaModels|] == schemaModels;
        Ok(Some(schemaModels + [ct]))
  }

  // --------------------------------------------------------- view filters

  /** What the view filter reads of a field. */
  datatype FieldInfo = FieldInfo(isMetadata: bool, neededWhenEmbedded: bool)

  /** `formatHasField(field, format)`: metadata fields are shown in every view
      except that the embedded view shows only those needed when embedded. */
  function FormatHasField(field: FieldInfo, format: string): (r: bool)
    ensures r ==> field.isMetadata
    ensures format != "embedded" ==> (r <==> field.isMetadata)
  {
    if !field.isMetadata then false
    else if format == "embedded" && !field.neededWhenEmbedded then false
    else true
  }

  /** The embedded view shows a subset of the fields of the isolated view. */
  lemma EmbeddedFieldsAreIsolatedFields(field: FieldInfo)
    ensures FormatHasField(field, "embedded") ==> FormatHasField(field, "isolated")
    ensures FormatHasField(field, "embedded") <==> FormatHasField(field, "isolated") && field.neededWhenEmbedded
  {
  }

  /** `uniqBy(included, i => `${i.type}/${i.id}`)` of the adapted card: one
      resource per key, the first of each, in input order. */
  function DedupeIncluded(included: seq<Resource>): (r: seq<Resource>)
    ensures forall i, j :: 0 <= i < j < |r| ==> Key(r[i]) != Key(r[j])
    ensures forall i :: 0 <= i < |r| ==> r[i] in included
    ensures KeySet(r, Key) == KeySet(included, Key)
    ensures forall i :: 0 <= i < |r| ==> KeptFirst(included, Key, {}, r[i])
    ensures forall i :: 0 <= i < |r| ==> included[FirstIndex(included, Key, Key(r[i]))] == r[i]
    ensures forall i, i' :: 0 <= i < i' < |r| ==> FirstIndex(included, Key, Key(r[i])) < FirstIndex(included, Key, Key(r[i']))
  {
    UniqBy(included, Key)
  }
}

=== FILE: card_identity.dfy ===
/** Card identities `repository::package::card[::model]` and the string
    functions that decode, encode and classify them. */
module CardIdentity {
  import opened Base
  import opened Strings

  /** The decoded parts of an identity; a missing part is `None`. */
  datatype CardContext = CardContext(
    repository: Option<string>,
    packageName: Option<string>,
    cardId: Option<string>,
    modelId: Option<string>)

  const NoContext: CardContext := CardContext(None, None, None, None)

  function PartAt(parts: seq<string>, i: nat): Option<string> {
    if i < |parts| then Some(parts[i]) else None
  }

  /** The context whose present parts are `parts`, in order. */
  function FromParts(parts: seq<string>): CardContext {
    CardContext(PartAt(parts, 0), PartAt(parts, 1), PartAt(parts, 2), PartAt(parts, 3))
  }

  /** The parts of a context that are present, in order. */
  function Present(c: CardContext): seq<string> {
    (if c.repository.Some? then [c.repository.value] else [])
    + (if c.packageName.Some? then [c.packageName.value] else [])
    + (if c.cardId.Some? then [c.cardId.value] else [])
    + (if c.modelId.Some? then [c.modelId.value] else [])
  }

  function Min(a: int, b: int): int {
    if a < b then a else b
  }

  /** Decoding an identity: the empty context for a missing id or for an id
      with fewer than two parts, otherwise its first four parts in order. */
  function ContextFromId(id: Option<string>): (c: CardContext)
    ensures id.None? ==> c == NoContext
    ensures id.Some? && |Split(id.value)| < 2 ==> c == NoContext
    ensures id.Some? && |Split(id.value)| >= 2 ==>
      Present(c) == Split(id.value)[..Min(4, |Split(id.value)|)]
  {
    if id.None? then NoContext
    else
      var parts := Split(id.value);
      if |parts| < 2 then NoContext
      else
        var c := FromParts(parts);
        assert Present(c) == parts[..Min(4, |parts|)];
        c
  }

  /** Encoding a context: its present parts joined with the delimiter. */
  function ContextToId(c: CardContext): (id: string)
    ensures |Present(c)| >= 1 ==> StartsWith(id, Present(c)[0])
  {
    var parts := Present(c);
    if |parts| >= 2 then
      JoinAppend(parts[..1], parts[1..]);
      assert parts[..1] + parts[1..] == parts;
      Join(parts)
    else
      Join(parts)
  }

  /** The model part of an identity (`cardContextFromId(id).modelId`). */
  function ModelPart(id: Option<string>): Option<string> {
    ContextFromId(id).modelId
  }

  /** The identity of the card an id belongs to: absent for a missing id or one
      with fewer than three parts; otherwise the first three parts re-joined,
      which is a prefix of the id and decodes to those three parts. */
  function GetCardId(id: Option<string>): (r: Option<string>)
    ensures r.Some? <==> id.Some? && |Split(id.value)| >= 3
    ensures r.Some? ==> Split(r.value) == Split(id.value)[..3]
    ensures r.Some? ==> StartsWith(id.value, r.value)
  {
    if id.None? || |Split(id.value)| < 3 then None
    else
      var c := ContextFromId(id);
      var card := CardContext(c.repository, c.packageName, c.cardId, None);
      var parts := Split(id.value);
      assert Present(card) == parts[..3];
      SplitPieces(id.value);
      SplitJoin(parts[..3]);
      PrefixOfJoin(parts);
      Some(ContextToId(card))
  }

  lemma PrefixOfJoin(parts: seq<string>)
    requires |parts| >= 3
    ensures StartsWith(Join(parts), Join(parts[..3]))
  {
    if |parts| > 3 {
      JoinAppend(parts[..3], parts[3..]);
      assert parts[..3] + parts[3..] == parts;
    } else {
      assert parts[..3] == parts;
    }
  }

  /** `isCard(type, id)`: the resource is a card model, whose type is its own
      identity of at least three parts. */
  predicate IsCard(typ: Option<string>, id: Option<string>) {
    Truthy(id) && typ == id && |Split(id.value)| > 2
  }

  /** A resource is a card model exactly when its type equals its id and the id
      names a card. */
  lemma IsCardIffCardId(typ: Option<string>, id: Option<string>)
    ensures IsCard(typ, id) <==> typ == id && GetCardId(id).Some?
  {
  }

  /** Card identities are stable: the card of a card is the card itself. */
  lemma GetCardIdIdempotent(id: Option<string>)
    ensures GetCardId(GetCardId(id)) == GetCardId(id)
  {
    var r := GetCardId(id);
    if r.Some? {
      var parts := Split(id.value);
      assert Split(r.value) == parts[..3];
      var rr := GetCardId(r);
      assert Split(rr.value) == parts[..3];
      JoinSplit(r.value);
      JoinSplit(rr.value);
    }
  }

  /** Decoding the encoding of two to four parts gives them back, provided every
      part but the last is a segment and the last holds no delimiter. */
  lemma ContextRoundTrip(parts: seq<string>)
    requires 2 <= |parts| <= 4
    requires forall i :: 0 <= i < |parts| - 1 ==> Segment(parts[i])
    requires !HasDelim(parts[|parts| - 1])
    ensures ContextFromId(Some(ContextToId(FromParts(parts)))) == FromParts(parts)
  {
    assert Present(FromParts(parts)) == parts;
    SplitJoin(parts);
  }

  /** Encoding the decoding of an identity with two to four parts gives the
      identity back. */
  lemma IdRoundTrip(id: string)
    requires 2 <= |Split(id)| <= 4
    ensures ContextToId(ContextFromId(Some(id))) == id
  {
    assert Present(ContextFromId(Some(id))) == Split(id);
  }

  /** Without the trailing-colon condition the round trip fails. */
  lemma ContextRoundTripNeedsSegments()
    ensures ContextFromId(Some(ContextToId(FromParts(["r", "a:", "b"])))) != FromParts(["r", "a:", "b"])
  {
    var c := FromParts(["r", "a:", "b"]);
    assert Present(c) == ["r", "a:", "b"];
    assert ContextToId(c) == "r" + Delim + ("a:" + Delim + "b");
    assert ContextToId(c) == "r" + Delim + "a:::b";
    SplitAfterSegment("r", "a:::b");
    TrailingColonBreaksRoundTrip();
    assert Join(["a:", "b"]) == "a:::b";
    assert Split(ContextToId(c)) == ["r", "a", ":b"];
  }

  /** A card identity that can root the namespacing of its internal models:
      three parts, the last not ending in ':'. */
  predicate NamespaceRoot(root: string) {
    |Split(root)| == 3 && Segment(Split(root)[2])
  }

  /** `${root}::${name}`. */
  function Namespaced(root: string, name: string): string {
    root + Delim + name
  }

  /** A name that namespacing can prefix and strip again. */
  predicate Plain(name: string) {
    !HasDelim(name)
  }

  /** Namespacing appends the name as a fourth part. */
  lemma NamespacedSplit(root: string, name: string)
    requires NamespaceRoot(root) && Plain(name)
    ensures Split(Namespaced(root, name)) == Split(root) + [name]
  {
    var parts := Split(root);
    SplitPieces(root);
    JoinAppend(parts, [name]);
    SplitJoin(parts + [name]);
  }

  /** A namespaced name belongs to the root card and its model part is the name. */
  lemma NamespacedParts(root: string, name: string)
    requires NamespaceRoot(root) && Plain(name)
    ensures GetCardId(Some(Namespaced(root, name))) == Some(root)
    ensures ModelPart(Some(Namespaced(root, name))) == Some(name)
    ensures HasDelim(Namespaced(root, name))
  {
    NamespacedSplit(root, name);
    var s := Namespaced(root, name);
    var r := GetCardId(Some(s));
    assert Split(r.value) == Split(root);
    JoinSplit(r.value);
    JoinSplit(root);
    assert DelimAt(s, |root|);
  }

  /** A plain name is neither a card nor inside one. */
  lemma PlainParts(name: string)
    requires Plain(name)
    ensures Split(name) == [name]
    ensures GetCardId(Some(name)).None?
    ensures ModelPart(Some(name)).None?
  {
    SplitWithoutDelim(name);
  }

  /** The card id of a namespace root is the root itself. */
  lemma RootIsCard(root: string)
    requires NamespaceRoot(root)
    ensures GetCardId(Some(root)) == Some(root)
    ensures Truthy(Some(root))
    ensures IsCard(Some(root), Some(root))
  {
    JoinSplit(root);
    assert Split(root)[..3] == Split(root);
    var r := GetCardId(Some(root));
    JoinSplit(r.value);
  }
}

=== FILE: card_namespacing.dfy ===
/** Namespacing a card's internal models under the card's identity and
    stripping that namespace again. Adding prefixes `root::` (the card id) onto
    the type, id, attribute and relationship names of every internal model and
    onto the linkages that point at them; removing takes the model part of
    every name that lies inside a card. */
module CardNamespacing {
  import opened Base
  import opened Strings
  import opened Objects
  import opened Json
  import opened Resources
  import opened Lists
  import opened CardIdentity
  import opened CardValidation

  const Cards: Option<string> := Some("cards")

  // ---------------------------------------------------------------- adding

  /** A linkage under namespacing: `cards` linkages are untouched; any other
      type is prefixed unless it is a schema type, and the id is prefixed. */
  function AddRef(isSchemaType: string -> bool, root: string, x: Ref): (r: Ref)
    ensures x.typ == Cards ==> r == x
  {
    Ref(if IsSchemaType(isSchemaType, x.typ) || x.typ == Cards then x.typ else Some(Namespaced(root, Text(x.typ))),
        if x.typ != Cards then Some(Namespaced(root, Text(x.id))) else x.id)
  }

  /** A namespaced linkage that is not to `cards` points inside the card, at
      the model named by the original id. */
  lemma AddRefInsideCard(isSchemaType: string -> bool, root: string, x: Ref)
    requires x.typ != Cards && NamespaceRoot(root) && Plain(Text(x.id))
    ensures GetCardId(AddRef(isSchemaType, root, x).id) == Some(root)
    ensures ModelPart(AddRef(isSchemaType, root, x).id) == Some(Text(x.id))
  {
    NamespacedParts(root, Text(x.id));
  }

  function AddRel(isSchemaType: string -> bool, root: string): Relationship -> Relationship {
    rel => MapData(rel, x => AddRef(isSchemaType, root, x))
  }

  function AddAttrAction(root: string): string -> Action {
    k => MoveTo(Namespaced(root, k))
  }

  /** The relationship loop: a `cards` resource keeps its `model` relationship
      as it is; schema models and `cards` resources keep their names; every
      other name is prefixed. */
  function AddRelAction(root: string, schemaModel: bool, cards: bool): string -> Action {
    k => if cards && k == "model" then Skip
         else if schemaModel || cards then Keep
         else MoveTo(Namespaced(root, k))
  }

  /** One resource of `addCardNamespacing` under card `root`. Whether it is a
      schema model is decided on its original type; the attribute and
      relationship loops look at its rewritten type. */
  function AddResource(isSchemaType: string -> bool, root: string, r: Resource): (out: Resource)
    ensures out.meta == r.meta
    ensures r.typ == Cards || IsCard(r.typ, r.id) ==> out.typ == r.typ && out.id == r.id
    ensures r.typ != Cards && !IsCard(r.typ, r.id) ==>
      out.id == Some(Namespaced(root, Text(r.id)))
      && out.typ == (if IsSchemaType(isSchemaType, r.typ) then r.typ else Some(Namespaced(root, Text(r.typ))))
  {
    var schemaModel := IsSchemaType(isSchemaType, r.typ);
    var rewrite := r.typ != Cards && !IsCard(r.typ, r.id);
    var typ := if rewrite && !schemaModel then Some(Namespaced(root, Text(r.typ))) else r.typ;
    var id := if rewrite then Some(Namespaced(root, Text(r.id))) else r.id;
    var cards := typ == Cards;
    var attributes :=
      if !schemaModel && !cards then Rename(r.attributes, AddAttrAction(root), (v: Value) => v)
      else r.attributes;
    var relationships :=
      Rename(r.relationships, AddRelAction(root, schemaModel, cards), AddRel(isSchemaType, root));
    Resource(typ, id, attributes, relationships, r.meta)
  }

  /** `addCardNamespacing(schema, card)`: nothing when the document's id names
      no card, otherwise every resource namespaced under that card. */
  function AddNamespacing(isSchemaType: string -> bool, card: Document): (r: Option<Document>)
    ensures r.Some? <==> GetCardId(card.data.id).Some?
    ensures r.Some? ==> |r.value.included| == |card.included|
    ensures r.Some? ==> var root := GetCardId(card.data.id).value;
      r.value.data == AddResource(isSchemaType, root, card.data)
      && forall i :: 0 <= i < |card.included| ==> r.value.included[i] == AddResource(isSchemaType, root, card.included[i])
    ensures r.Some? && card.data.typ == Cards ==> r.value.data.typ == Cards && r.value.data.id == card.data.id
  {
    match GetCardId(card.data.id)
    case None => None
    case Some(root) =>
      var f := (x: Resource) => AddResource(isSchemaType, root, x);
      Some(Document(f(card.data), Map(card.included, f)))
  }

  // -------------------------------------------------------------- removing

  /** The model part of a name inside a card, or the name itself. */
  function Strip(s: Option<string>): Option<string> {
    if GetCardId(s).Some? then ModelPart(s) else s
  }

  /** A linkage without namespacing: `cards` linkages are untouched, other
      types and ids lose their card prefix. */
  function RemoveRef(x: Ref): (r: Ref)
    ensures x.typ == Cards ==> r == x
  {
    if x.typ == Cards then x else Ref(Strip(x.typ), Strip(x.id))
  }

  function RemoveRel(): Relationship -> Relationship {
    rel => MapData(rel, RemoveRef)
  }

  /** The attribute loop: names with a model part move to it, the rest stay. */
  function RemoveAttrAction(): string -> Action {
    k => if Truthy(ModelPart(Some(k))) then MoveTo(ModelPart(Some(k)).value) else Skip
  }

  /** The relationship loop: a `cards` resource keeps its `model` relationship;
      other names with a model part move to it; the rest are rewritten in place. */
  function RemoveRelAction(cards: bool): string -> Action {
    k => if k == "model" && cards then Skip
         else if Truthy(ModelPart(Some(k))) then MoveTo(ModelPart(Some(k)).value)
         else Keep
  }

  /** One resource of `removeCardNamespacing`. */
  function RemoveResource(r: Resource): (out: Resource)
    ensures out.meta == r.meta
    ensures r.typ == Cards || IsCard(r.typ, r.id) ==> out.typ == r.typ && out.id == r.id
    ensures r.typ != Cards && !IsCard(r.typ, r.id) ==> out.typ == Strip(r.typ) && out.id == Strip(r.id)
  {
    var rewrite := r.typ != Cards && !IsCard(r.typ, r.id);
    var typ := if rewrite then Strip(r.typ) else r.typ;
    var id := if rewrite then Strip(r.id) else r.id;
    var attributes := Rename(r.attributes, RemoveAttrAction(), (v: Value) => v);
    var relationships := Rename(r.relationships, RemoveRelAction(typ == Cards), RemoveRel());
    Resource(typ, id, attributes, relationships, r.meta)
  }

  /** `removeCardNamespacing(card)`: nothing when the document has no id. */
  function RemoveNamespacing(card: Document): (r: Option<Document>)
    ensures r.Some? <==> Truthy(card.data.id)
    ensures r.Some? ==> |r.value.included| == |card.included|
    ensures r.Some? ==>
      (r.value.data == RemoveResource(card.data)
       && forall i :: 0 <= i < |card.included| ==> r.value.included[i] == RemoveResource(card.included[i]))
    ensures r.Some? && card.data.typ == Cards ==> r.value.data.typ == Cards && r.value.data.id == card.data.id
  {
    if !Truthy(card.data.id) then None
    else Some(Document(RemoveResource(card.data), Map(card.included, RemoveResource)))
  }

  // --------------------------------------------------------------- members

  /** `out` holds the members of `o` in order, each name prefixed by `root` and
      each value rewritten by `g`. */
  predicate PrefixedFrom<V(==)>(root: string, o: Obj<V>, out: Obj<V>, g: V -> V) {
    |out| == |o| && forall i :: 0 <= i < |o| ==> out[i] == (Namespaced(root, o[i].0), g(o[i].1))
  }

  /** `out` holds the members of `o` in order under their own names, each value
      rewritten by `g` except a `model` member when `skipModel` holds. */
  predicate RewrittenFrom<V(==)>(o: Obj<V>, out: Obj<V>, skipModel: bool, g: V -> V) {
    |out| == |o| && forall i :: 0 <= i < |o| ==>
      out[i] == (o[i].0, if skipModel && o[i].0 == "model" then o[i].1 else g(o[i].1))
  }

  /** No member's name is another member's name prefixed by `root`, so the
      renaming loop never overwrites a member it has yet to visit. */
  predicate NoPrefixClash<V>(root: string, o: Obj<V>) {
    WellFormed(o) && forall i, j :: 0 <= i < |o| && 0 <= j < |o| ==> o[i].0 != Namespaced(root, o[j].0)
  }

  /** A loop that moves every member to its prefixed name leaves exactly the
      prefixed members, in the original order. */
  lemma PrefixAll<V>(root: string, o: Obj<V>, act: string -> Action, g: V -> V)
    requires NoPrefixClash(root, o)
    requires forall i :: 0 <= i < |o| ==> act(o[i].0) == MoveTo(Namespaced(root, o[i].0))
    ensures PrefixedFrom(root, o, Rename(o, act, g), g)
  {
    forall i, j | 0 <= i < j < |o|
      ensures act(o[i].0).target != act(o[j].0).target
    {
      if act(o[i].0).target == act(o[j].0).target {
        NamespacedInjective(root, o[i].0, o[j].0);
      }
    }
    RenameAllMoved(o, act, g);
  }

  /** A loop that keeps every member under its name leaves the members in
      place, with their values rewritten. */
  lemma RewriteAll<V>(o: Obj<V>, act: string -> Action, g: V -> V, skipModel: bool)
    requires WellFormed(o)
    requires forall i :: 0 <= i < |o| ==> act(o[i].0) == (if skipModel && o[i].0 == "model" then Skip else Keep)
    ensures RewrittenFrom(o, Rename(o, act, g), skipModel, g)
  {
    RenameInPlace(o, act, g);
  }

  /** What `addCardNamespacing` does to the members of one resource: an
      internal model or card model has every attribute and relationship name
      prefixed, its linkages namespaced; a schema model or `cards` resource
      keeps its attributes and its relationship names, and only its linkages
      are namespaced (a `cards` resource's `model` linkage not even those). */
  lemma AddResourceMembers(isSchemaType: string -> bool, root: string, r: Resource)
    requires NoPrefixClash(root, r.attributes) && NoPrefixClash(root, r.relationships)
    ensures var out := AddResource(isSchemaType, root, r);
      var kept := IsSchemaType(isSchemaType, r.typ) || out.typ == Cards;
      (!kept ==> PrefixedFrom(root, r.attributes, out.attributes, (v: Value) => v)
                 && PrefixedFrom(root, r.relationships, out.relationships, AddRel(isSchemaType, root)))
      && (kept ==> out.attributes == r.attributes
                   && RewrittenFrom(r.relationships, out.relationships, out.typ == Cards, AddRel(isSchemaType, root)))
  {
    var out := AddResource(isSchemaType, root, r);
    var schemaModel := IsSchemaType(isSchemaType, r.typ);
    var cards := out.typ == Cards;
    var relAct := AddRelAction(root, schemaModel, cards);
    assert out.relationships == Rename(r.relationships, relAct, AddRel(isSchemaType, root));
    if schemaModel || cards {
      RewriteAll(r.relationships, relAct, AddRel(isSchemaType, root), cards);
    } else {
      assert out.attributes == Rename(r.attributes, AddAttrAction(root), (v: Value) => v);
      PrefixAll(root, r.attributes, AddAttrAction(root), (v: Value) => v);
      PrefixAll(root, r.relationships, relAct, AddRel(isSchemaType, root));
    }
  }

  /** No member's name lies inside a card. */
  predicate Unprefixed<V>(o: Obj<V>) {
    forall i :: 0 <= i < |o| ==> !Truthy(ModelPart(Some(o[i].0)))
  }

  /** What `removeCardNamespacing` does to members whose names lie inside no
      card: attributes stay as they are; relationships keep their names and
      have their linkages stripped, except a `cards` resource's `model`. */
  lemma RemoveResourcePlainMembers(r: Resource)
    requires WellFormed(r.attributes) && WellFormed(r.relationships)
    requires Unprefixed(r.attributes) && Unprefixed(r.relationships)
    ensures var out := RemoveResource(r);
      out.attributes == r.attributes
      && RewrittenFrom(r.relationships, out.relationships, out.typ == Cards, RemoveRel())
  {
    var out := RemoveResource(r);
    var cards := out.typ == Cards;
    assert out.attributes == Rename(r.attributes, RemoveAttrAction(), (v: Value) => v);
    assert out.relationships == Rename(r.relationships, RemoveRelAction(cards), RemoveRel());
    UnprefixedAttributesStay(r.attributes);
    UnprefixedRelationshipsStay(r.relationships, cards);
  }

  lemma UnprefixedAttributesStay(o: Obj<Value>)
    requires WellFormed(o) && Unprefixed(o)
    ensures Rename(o, RemoveAttrAction(), (v: Value) => v) == o
  {
    assert forall i :: 0 <= i < |o| ==> RemoveAttrAction()(o[i].0) == Skip;
    RenameInPlace(o, RemoveAttrAction(), (v: Value) => v);
    assert Updated(o, RemoveAttrAction(), (v: Value) => v) == o;
  }

  lemma UnprefixedRelationshipsStay(o: Obj<Relationship>, cards: bool)
    requires WellFormed(o) && Unprefixed(o)
    ensures RewrittenFrom(o, Rename(o, RemoveRelAction(cards), RemoveRel()), cards, RemoveRel())
  {
    assert forall i :: 0 <= i < |o| ==>
      RemoveRelAction(cards)(o[i].0) == (if cards && o[i].0 == "model" then Skip else Keep);
    RewriteAll(o, RemoveRelAction(cards), RemoveRel(), cards);
  }

  /** What `removeCardNamespacing` does to members prefixed by a namespace
      root: every name loses its prefix, and the linkages are stripped. */
  lemma RemoveResourcePrefixedMembers(root: string, r: Resource, attrs: Obj<Value>, rels: Obj<Relationship>)
    requires NamespaceRoot(root) && NamedKeys(attrs) && NamedKeys(rels)
    requires PrefixedFrom(root, attrs, r.attributes, (v: Value) => v)
    requires PrefixedFrom(root, rels, r.relationships, (x: Relationship) => x)
    ensures var out := RemoveResource(r);
      out.attributes == attrs
      && RewrittenFrom(rels, out.relationships, false, RemoveRel())
  {
    var out := RemoveResource(r);
    var cards := out.typ == Cards;
    forall k | Name(k)
      ensures RemoveAttrAction()(Namespaced(root, k)) == MoveTo(k)
      ensures RemoveRelAction(cards)(Namespaced(root, k)) == MoveTo(k)
    {
      StripNamespaced(root, k);
    }
    StripAll(root, attrs, r.attributes, RemoveAttrAction(), (v: Value) => v);
    assert Moved(r.attributes, RemoveAttrAction(), (v: Value) => v) == attrs;
    StripAll(root, rels, r.relationships, RemoveRelAction(cards), RemoveRel());
  }

  /** Moving prefixed members back to their plain names. */
  lemma StripAll<V>(root: string, o: Obj<V>, p: Obj<V>, act: string -> Action, g: V -> V)
    requires NamespaceRoot(root) && NamedKeys(o)
    requires PrefixedFrom(root, o, p, (v: V) => v)
    requires forall k :: Name(k) ==> act(Namespaced(root, k)) == MoveTo(k)
    ensures forall i :: 0 <= i < |p| ==> act(p[i].0).MoveTo?
    ensures Rename(p, act, g) == Moved(p, act, g)
    ensures RewrittenFrom(o, Moved(p, act, g), false, g)
  {
    assert forall i :: 0 <= i < |p| ==> p[i].0 == Namespaced(root, o[i].0) && act(p[i].0) == MoveTo(o[i].0);
    forall i, j | 0 <= i < j < |p|
      ensures p[i].0 != p[j].0
    {
      if p[i].0 == p[j].0 {
        NamespacedInjective(root, o[i].0, o[j].0);
      }
    }
    forall i, j | 0 <= i < |p| && 0 <= j < |p|
      ensures act(p[i].0).target != p[j].0
    {
      NamespacedParts(root, o[j].0);
    }
    RenameAllMoved(p, act, g);
  }

  // ------------------------------------------------------------ round trip

  /** A name namespacing can prefix and strip again: not empty, no delimiter. */
  predicate Name(k: string) {
    k != "" && Plain(k)
  }

  predicate NamedKeys<V>(o: Obj<V>) {
    WellFormed(o) && forall i :: 0 <= i < |o| ==> Name(o[i].0)
  }

  /** A linkage that survives: to `cards`, or a plain type with a plain id. */
  predicate RefRestorable(x: Ref) {
    x.typ == Cards || (x.typ.Some? && Plain(x.typ.value) && x.id.Some? && Plain(x.id.value))
  }

  predicate LinkageRestorable(l: Linkage) {
    match l
    case ToOne(x) => RefRestorable(x)
    case ToMany(refs) => forall i :: 0 <= i < |refs| ==> RefRestorable(refs[i])
    case _ => true
  }

  /** The relationships both loops rewrite: all but the `model` relationship
      of a `cards` resource, which both leave exactly as it is. */
  predicate Rewritten(typ: Option<string>, k: string) {
    !(typ == Cards && k == "model")
  }

  /** A resource namespacing restores: plain, distinct member names, restorable
      linkages in every rewritten relationship, and one of four kinds: a `cards`
      resource; a schema model with a plain type and id; a card model that is
      not a schema type; or an internal model with a plain type and a
      different plain id. */
  predicate Restorable(isSchemaType: string -> bool, r: Resource) {
    NamedKeys(r.attributes) && NamedKeys(r.relationships)
    && (forall i :: 0 <= i < |r.relationships| && Rewritten(r.typ, r.relationships[i].0) ==>
          LinkageRestorable(r.relationships[i].1.data))
    && (r.typ == Cards
        || (IsCard(r.typ, r.id) && !IsSchemaType(isSchemaType, r.typ))
        || (r.typ.Some? && Plain(r.typ.value) && r.id.Some? && Plain(r.id.value)
            && (IsSchemaType(isSchemaType, r.typ) || r.id != r.typ)))
  }

  lemma RefRoundTrip(isSchemaType: string -> bool, root: string, x: Ref)
    requires NamespaceRoot(root) && RefRestorable(x)
    ensures RemoveRef(AddRef(isSchemaType, root, x)) == x
  {
    if x.typ != Cards {
      NamespacedParts(root, x.id.value);
      PlainParts(x.typ.value);
      if !IsSchemaType(isSchemaType, x.typ) {
        NamespacedParts(root, x.typ.value);
      }
    }
  }

  lemma LinkageRoundTrip(isSchemaType: string -> bool, root: string, l: Linkage)
    requires NamespaceRoot(root) && LinkageRestorable(l)
    ensures MapLinkage(MapLinkage(l, x => AddRef(isSchemaType, root, x)), RemoveRef) == l
  {
    match l
    case ToOne(x) => RefRoundTrip(isSchemaType, root, x);
    case ToMany(refs) =>
      var back := Map(Map(refs, x => AddRef(isSchemaType, root, x)), RemoveRef);
      forall i | 0 <= i < |refs|
        ensures back[i] == refs[i]
      {
        RefRoundTrip(isSchemaType, root, refs[i]);
      }
    case _ =>
  }

  lemma RelsRoundTrip(isSchemaType: string -> bool, root: string, rels: Obj<Relationship>)
    requires NamespaceRoot(root)
    requires forall i :: 0 <= i < |rels| ==> LinkageRestorable(rels[i].1.data)
    ensures forall i :: 0 <= i < |rels| ==> RemoveRel()(AddRel(isSchemaType, root)(rels[i].1)) == rels[i].1
  {
    forall i | 0 <= i < |rels|
      ensures RemoveRel()(AddRel(isSchemaType, root)(rels[i].1)) == rels[i].1
    {
      LinkageRoundTrip(isSchemaType, root, rels[i].1.data);
    }
  }

  lemma NamespacedInjective(root: string, a: string, b: string)
    requires Namespaced(root, a) == Namespaced(root, b)
    ensures a == b
  {
    assert a == Namespaced(root, a)[|root| + 2..];
    assert b == Namespaced(root, b)[|root| + 2..];
  }

  /** Prefixing every member name and stripping it again restores the object. */
  lemma NamesRoundTrip<V>(root: string, o: Obj<V>, a1: string -> Action, g1: V -> V, a2: string -> Action, g2: V -> V)
    requires NamespaceRoot(root) && NamedKeys(o)
    requires forall k :: Name(k) ==> a1(k) == MoveTo(Namespaced(root, k))
    requires forall k :: Name(k) ==> a2(Namespaced(root, k)) == MoveTo(k)
    requires forall i :: 0 <= i < |o| ==> g2(g1(o[i].1)) == o[i].1
    ensures Rename(Rename(o, a1, g1), a2, g2) == o
  {
    forall i, j | 0 <= i < j < |o|
      ensures a1(o[i].0).target != a1(o[j].0).target
    {
      if a1(o[i].0).target == a1(o[j].0).target {
        NamespacedInjective(root, o[i].0, o[j].0);
      }
    }
    forall i, j | 0 <= i < |o| && 0 <= j < |o|
      ensures a1(o[i].0).target != o[j].0
    {
      NamespacedParts(root, o[i].0);
    }
    MoveThereAndBack(o, a1, g1, a2, g2);
  }

  /** A namespace root has at least two delimiters, so it is longer than four
      characters. */
  lemma RootLength(root: string)
    requires NamespaceRoot(root)
    ensures |root| >= 4
  {
    var p := Split(root);
    JoinSplit(root);
    assert p[1..][1..] == p[2..];
    assert Join(p[1..]) == p[1] + Delim + Join(p[2..]);
  }

  lemma StripNamespaced(root: string, k: string)
    requires NamespaceRoot(root) && Name(k)
    ensures RemoveAttrAction()(Namespaced(root, k)) == MoveTo(k)
    ensures forall cards: bool :: RemoveRelAction(cards)(Namespaced(root, k)) == MoveTo(k)
  {
    NamespacedParts(root, k);
    RootLength(root);
    assert |Namespaced(root, k)| > |"model"|;
  }

  /** Names a plain name keeps under the removal loops. */
  lemma StripPlain(k: string)
    requires Plain(k)
    ensures RemoveAttrAction()(k) == Skip
    ensures forall cards: bool :: !RemoveRelAction(cards)(k).MoveTo?
    ensures RemoveRelAction(false)(k) == Keep
  {
    PlainParts(k);
  }

  /** Attributes with plain names are left alone by the removal loop. */
  lemma PlainAttributesStay(o: Obj<Value>)
    requires NamedKeys(o)
    ensures Rename(o, RemoveAttrAction(), (v: Value) => v) == o
  {
    forall i | 0 <= i < |o|
      ensures RemoveAttrAction()(o[i].0) == Skip
    {
      StripPlain(o[i].0);
    }
    RenameInPlace(o, RemoveAttrAction(), (v: Value) => v);
    assert Updated(o, RemoveAttrAction(), (v: Value) => v) == o;
  }

  /** Relationships with plain names that are rewritten in place come back. */
  lemma PlainRelationshipsRoundTrip(isSchemaType: string -> bool, root: string, o: Obj<Relationship>,
                                    addAct: string -> Action, cards: bool)
    requires NamespaceRoot(root) && NamedKeys(o)
    requires forall i :: 0 <= i < |o| && addAct(o[i].0).Keep? ==> LinkageRestorable(o[i].1.data)
    requires forall i :: 0 <= i < |o| ==> !addAct(o[i].0).MoveTo?
    requires forall i :: 0 <= i < |o| ==> addAct(o[i].0) == RemoveRelAction(cards)(o[i].0)
    ensures Rename(Rename(o, addAct, AddRel(isSchemaType, root)), RemoveRelAction(cards), RemoveRel()) == o
  {
    forall i | 0 <= i < |o| && addAct(o[i].0).Keep?
      ensures RemoveRel()(AddRel(isSchemaType, root)(o[i].1)) == o[i].1
    {
      LinkageRoundTrip(isSchemaType, root, o[i].1.data);
    }
    KeepThereAndBack(o, addAct, AddRel(isSchemaType, root), RemoveRelAction(cards), RemoveRel());
  }

  /** Prefixed attribute and relationship names come back. */
  lemma PrefixedMembersRoundTrip(isSchemaType: string -> bool, root: string, r: Resource, relAct: string -> Action)
    requires NamespaceRoot(root) && NamedKeys(r.attributes) && NamedKeys(r.relationships)
    requires forall i :: 0 <= i < |r.relationships| ==> LinkageRestorable(r.relationships[i].1.data)
    requires forall k :: Name(k) ==> relAct(k) == MoveTo(Namespaced(root, k))
    ensures Rename(Rename(r.attributes, AddAttrAction(root), (v: Value) => v), RemoveAttrAction(), (v: Value) => v)
         == r.attributes
    ensures Rename(Rename(r.relationships, relAct, AddRel(isSchemaType, root)), RemoveRelAction(false), RemoveRel())
         == r.relationships
  {
    forall k | Name(k)
      ensures RemoveAttrAction()(Namespaced(root, k)) == MoveTo(k)
      ensures RemoveRelAction(false)(Namespaced(root, k)) == MoveTo(k)
    {
      StripNamespaced(root, k);
    }
    RelsRoundTrip(isSchemaType, root, r.relationships);
    NamesRoundTrip(root, r.attributes, AddAttrAction(root), (v: Value) => v, RemoveAttrAction(), (v: Value) => v);
    NamesRoundTrip(root, r.relationships, relAct, AddRel(isSchemaType, root), RemoveRelAction(false), RemoveRel());
  }

  /** A `cards` resource comes back. */
  lemma CardsRoundTrip(isSchemaType: string -> bool, root: string, r: Resource)
    requires NamespaceRoot(root) && Restorable(isSchemaType, r) && r.typ == Cards
    ensures RemoveResource(AddResource(isSchemaType, root, r)) == r
  {
    var addAct := AddRelAction(root, IsSchemaType(isSchemaType, r.typ), true);
    var rels := Rename(r.relationships, addAct, AddRel(isSchemaType, root));
    var a := AddResource(isSchemaType, root, r);
    assert a == Resource(r.typ, r.id, r.attributes, rels, r.meta);
    assert RemoveResource(a) == Resource(r.typ, r.id, Rename(r.attributes, RemoveAttrAction(), (v: Value) => v),
                                         Rename(rels, RemoveRelAction(true), RemoveRel()), r.meta);
    KeptRelationshipsRoundTrip(isSchemaType, root, r.relationships, IsSchemaType(isSchemaType, r.typ), true);
    PlainAttributesStay(r.attributes);
  }

  /** The relationships of a `cards` resource or a schema model keep their
      names, are rewritten in place and come back. */
  lemma KeptRelationshipsRoundTrip(isSchemaType: string -> bool, root: string, o: Obj<Relationship>, schemaModel: bool, cards: bool)
    requires NamespaceRoot(root) && NamedKeys(o) && (schemaModel || cards)
    requires forall i :: 0 <= i < |o| && !(cards && o[i].0 == "model") ==> LinkageRestorable(o[i].1.data)
    ensures Rename(Rename(o, AddRelAction(root, schemaModel, cards), AddRel(isSchemaType, root)), RemoveRelAction(cards), RemoveRel()) == o
  {
    var addAct := AddRelAction(root, schemaModel, cards);
    forall i | 0 <= i < |o|
      ensures !addAct(o[i].0).MoveTo?
      ensures addAct(o[i].0) == RemoveRelAction(cards)(o[i].0)
    {
      StripPlain(o[i].0);
    }
    PlainRelationshipsRoundTrip(isSchemaType, root, o, addAct, cards);
  }

  /** A card model comes back: its type and id are left alone and its member
      names are prefixed. */
  lemma CardModelRoundTrip(isSchemaType: string -> bool, root: string, r: Resource)
    requires NamespaceRoot(root) && Restorable(isSchemaType, r)
    requires IsCard(r.typ, r.id) && !IsSchemaType(isSchemaType, r.typ)
    ensures RemoveResource(AddResource(isSchemaType, root, r)) == r
  {
    CardModelNotCards(r);
    forall i | 0 <= i < |r.relationships|
      ensures LinkageRestorable(r.relationships[i].1.data)
    {
      assert Rewritten(r.typ, r.relationships[i].0);
    }
    CardModelMembersRoundTrip(isSchemaType, root, r);
  }

  /** A card model's type names a card, so it is not `cards`. */
  lemma CardModelNotCards(r: Resource)
    requires IsCard(r.typ, r.id)
    ensures r.typ != Cards
  {
    assert Split("cards") == ["cards"];
  }

  lemma CardModelMembersRoundTrip(isSchemaType: string -> bool, root: string, r: Resource)
    requires NamespaceRoot(root) && NamedKeys(r.attributes) && NamedKeys(r.relationships)
    requires forall i :: 0 <= i < |r.relationships| ==> LinkageRestorable(r.relationships[i].1.data)
    requires IsCard(r.typ, r.id) && !IsSchemaType(isSchemaType, r.typ) && r.typ != Cards
    ensures RemoveResource(AddResource(isSchemaType, root, r)) == r
  {
    var a := AddResource(isSchemaType, root, r);
    AddCardModel(isSchemaType, root, r);
    RemoveCardModel(a);
    PrefixedMembersRoundTrip(isSchemaType, root, r, AddRelAction(root, false, false));
  }

  /** Adding the namespacing to a card model prefixes its member names only. */
  lemma AddCardModel(isSchemaType: string -> bool, root: string, r: Resource)
    requires IsCard(r.typ, r.id) && !IsSchemaType(isSchemaType, r.typ) && r.typ != Cards
    ensures AddResource(isSchemaType, root, r)
      == Resource(r.typ, r.id, Rename(r.attributes, AddAttrAction(root), (v: Value) => v),
                  Rename(r.relationships, AddRelAction(root, false, false), AddRel(isSchemaType, root)), r.meta)
  {
  }

  /** Removing the namespacing from a card model strips its member names only. */
  lemma RemoveCardModel(a: Resource)
    requires IsCard(a.typ, a.id) && a.typ != Cards
    ensures RemoveResource(a)
      == Resource(a.typ, a.id, Rename(a.attributes, RemoveAttrAction(), (v: Value) => v),
                  Rename(a.relationships, RemoveRelAction(false), RemoveRel()), a.meta)
  {
  }

  /** A schema model comes back: its type is kept, its id is prefixed, its
      member names are kept. */
  lemma SchemaModelRoundTrip(isSchemaType: string -> bool, root: string, r: Resource)
    requires NamespaceRoot(root) && Restorable(isSchemaType, r)
    requires r.typ != Cards && r.typ.Some? && Plain(r.typ.value) && r.id.Some? && Plain(r.id.value)
    requires IsSchemaType(isSchemaType, r.typ)
    ensures RemoveResource(AddResource(isSchemaType, root, r)) == r
  {
    var id := Some(Namespaced(root, r.id.value));
    var rels := Rename(r.relationships, AddRelAction(root, true, false), AddRel(isSchemaType, root));
    var a := AddResource(isSchemaType, root, r);
    assert a == Resource(r.typ, id, r.attributes, rels, r.meta) by {
      PlainParts(r.typ.value);
    }
    assert !IsCard(r.typ, id) && Strip(r.typ) == r.typ && Strip(id) == r.id by {
      NamespacedParts(root, r.id.value);
      PlainParts(r.typ.value);
    }
    assert RemoveResource(a) == Resource(r.typ, r.id, Rename(r.attributes, RemoveAttrAction(), (v: Value) => v),
                                         Rename(rels, RemoveRelAction(false), RemoveRel()), r.meta);
    KeptRelationshipsRoundTrip(isSchemaType, root, r.relationships, true, false);
    PlainAttributesStay(r.attributes);
  }

  /** The prefixed type and id of an internal model name no card and strip back. */
  lemma InternalNames(root: string, t: string, i: string)
    requires NamespaceRoot(root) && Plain(t) && Plain(i) && t != i
    ensures !IsCard(Some(Namespaced(root, t)), Some(Namespaced(root, i)))
    ensures Some(Namespaced(root, t)) != Cards
    ensures Strip(Some(Namespaced(root, t))) == Some(t)
    ensures Strip(Some(Namespaced(root, i))) == Some(i)
  {
    NamespacedParts(root, i);
    NamespacedParts(root, t);
    RootLength(root);
    if Namespaced(root, t) == Namespaced(root, i) {
      NamespacedInjective(root, t, i);
    }
    assert |Namespaced(root, t)| > |"cards"|;
  }

  /** An internal model comes back: its type, id and member names are prefixed. */
  lemma InternalModelRoundTrip(isSchemaType: string -> bool, root: string, r: Resource)
    requires NamespaceRoot(root) && Restorable(isSchemaType, r)
    requires r.typ != Cards && r.typ.Some? && Plain(r.typ.value) && r.id.Some? && Plain(r.id.value) && r.id != r.typ
    requires !IsSchemaType(isSchemaType, r.typ)
    ensures RemoveResource(AddResource(isSchemaType, root, r)) == r
  {
    var a := AddResource(isSchemaType, root, r);
    InternalNames(root, r.typ.value, r.id.value);
    assert a.typ == Some(Namespaced(root, r.typ.value)) && a.id == Some(Namespaced(root, r.id.value));
    PrefixedMembersRoundTrip(isSchemaType, root, r, AddRelAction(root, false, false));
  }

  /** Removing the namespace restores every resource namespacing can restore. */
  lemma ResourceRoundTrip(isSchemaType: string -> bool, root: string, r: Resource)
    requires NamespaceRoot(root) && Restorable(isSchemaType, r)
    ensures RemoveResource(AddResource(isSchemaType, root, r)) == r
  {
    if r.typ == Cards {
      CardsRoundTrip(isSchemaType, root, r);
    } else if IsCard(r.typ, r.id) && !IsSchemaType(isSchemaType, r.typ) {
      CardModelRoundTrip(isSchemaType, root, r);
    } else if IsSchemaType(isSchemaType, r.typ) {
      SchemaModelRoundTrip(isSchemaType, root, r);
    } else {
      InternalModelRoundTrip(isSchemaType, root, r);
    }
  }

  // ------------------------------------------------ what does not come back

  /** An internal model whose type equals its id is namespaced to a type and id
      that are again equal and name a card, so removal takes it for a card
      model and leaves it prefixed. */
  lemma SameTypeAndIdStaysPrefixed(isSchemaType: string -> bool, root: string, r: Resource)
    requires NamespaceRoot(root)
    requires r.typ.Some? && Plain(r.typ.value) && r.id == r.typ && r.typ != Cards
    requires !IsSchemaType(isSchemaType, r.typ)
    ensures RemoveResource(AddResource(isSchemaType, root, r)).typ == Some(Namespaced(root, r.typ.value))
    ensures RemoveResource(AddResource(isSchemaType, root, r)) != r
  {
    var t := r.typ.value;
    PlainParts(t);
    var a := AddResource(isSchemaType, root, r);
    assert a.typ == a.id == Some(Namespaced(root, t));
    NamespacedSplit(root, t);
    RootLength(root);
    assert IsCard(a.typ, a.id);
    assert |Namespaced(root, t)| > |t|;
  }

  /** An attribute named with the empty string moves to `root::` and stays
      there: its model part is empty, which the removal loop reads as none. */
  lemma EmptyNameStaysPrefixed(root: string, v: Value)
    requires NamespaceRoot(root)
    ensures Rename(Rename([("", v)], AddAttrAction(root), (x: Value) => x), RemoveAttrAction(), (x: Value) => x)
         == [(Namespaced(root, ""), v)]
  {
    var o := [("", v)];
    RootLength(root);
    assert NoPrefixClash(root, o) by {
      assert |Namespaced(root, "")| > 0;
    }
    PrefixAll(root, o, AddAttrAction(root), (x: Value) => x);
    var p := Rename(o, AddAttrAction(root), (x: Value) => x);
    assert p == [(Namespaced(root, ""), v)];
    NamespacedParts(root, "");
    assert RemoveAttrAction()(Namespaced(root, "")) == Skip;
    RenameInPlace(p, RemoveAttrAction(), (x: Value) => x);
    assert Updated(p, RemoveAttrAction(), (x: Value) => x) == p;
  }

  /** Everything namespacing restores: the document's id names a card that can
      root a namespace, and every resource is restorable. */
  predicate DocumentRestorable(isSchemaType: string -> bool, card: Document) {
    GetCardId(card.data.id).Some? && NamespaceRoot(GetCardId(card.data.id).value)
    && Restorable(isSchemaType, card.data)
    && forall i :: 0 <= i < |card.included| ==> Restorable(isSchemaType, card.included[i])
  }

  /** The namespaced document still has an id. */
  lemma NamespacedIdTruthy(isSchemaType: string -> bool, card: Document)
    requires GetCardId(card.data.id).Some? && NamespaceRoot(GetCardId(card.data.id).value)
    ensures Truthy(AddNamespacing(isSchemaType, card).value.data.id)
  {
    var root := GetCardId(card.data.id).value;
    var d := card.data;
    var a := AddResource(isSchemaType, root, d);
    assert AddNamespacing(isSchemaType, card).value.data == a;
    if d.typ != Cards && !IsCard(d.typ, d.id) {
      assert a.id == Some(Namespaced(root, Text(d.id)));
      RootLength(root);
    } else {
      assert a.id == d.id;
      assert Split("") == [""];
    }
  }

  /** `removeCardNamespacing` undoes `addCardNamespacing`. */
  lemma NamespacingRoundTrip(isSchemaType: string -> bool, card: Document)
    requires DocumentRestorable(isSchemaType, card)
    ensures AddNamespacing(isSchemaType, card).Some?
    ensures RemoveNamespacing(AddNamespacing(isSchemaType, card).value) == Some(card)
  {
    var root := GetCardId(card.data.id).value;
    var added := AddNamespacing(isSchemaType, card).value;
    NamespacedIdTruthy(isSchemaType, card);
    ResourceRoundTrip(isSchemaType, root, card.data);
    IncludedRoundTrip(isSchemaType, root, card.included);
    assert added.included == Map(card.included, (x: Resource) => AddResource(isSchemaType, root, x));
    assert RemoveNamespacing(added) == Some(Document(RemoveResource(added.data), Map(added.included, RemoveResource)));
  }

  /** A card the external validator accepts, under an id that can root a
      namespace, is restorable once its own members and its linkages other
      than `model` are, and so are its included resources; so
      `removeCardNamespacing` undoes `addCardNamespacing` on it. */
  lemma ValidCardRoundTrip(isSchemaType: string -> bool, card: Document)
    requires ExternalValid(card) && NamespaceRoot(card.data.id.value)
    requires NamedKeys(card.data.attributes) && NamedKeys(card.data.relationships)
    requires forall i :: 0 <= i < |card.data.relationships| && card.data.relationships[i].0 != "model" ==>
      LinkageRestorable(card.data.relationships[i].1.data)
    requires forall i :: 0 <= i < |card.included| ==> Restorable(isSchemaType, card.included[i])
    ensures DocumentRestorable(isSchemaType, card)
    ensures AddNamespacing(isSchemaType, card).Some?
    ensures RemoveNamespacing(AddNamespacing(isSchemaType, card).value) == Some(card)
  {
    RootIsCard(card.data.id.value);
    assert card.data.id == Some(card.data.id.value);
    assert Restorable(isSchemaType, card.data);
    NamespacingRoundTrip(isSchemaType, card);
  }

  /** Stripping the namespacing of every included resource gives back the
      resources as they were. */
  lemma IncludedRoundTrip(isSchemaType: string -> bool, root: string, rs: seq<Resource>)
    requires NamespaceRoot(root)
    requires forall i :: 0 <= i < |rs| ==> Restorable(isSchemaType, rs[i])
    ensures Map(Map(rs, (x: Resource) => AddResource(isSchemaType, root, x)), RemoveResource) == rs
  {
    var added := Map(rs, (x: Resource) => AddResource(isSchemaType, root, x));
    var back := Map(added, RemoveResource);
    forall i | 0 <= i < |rs|
      ensures back[i] == rs[i]
    {
      ResourceRoundTrip(isSchemaType, root, rs[i]);
    }
  }
}

=== FILE: card_validation.dfy ===
/** The two guards on card documents: the external format clients send and the
    internal format searchers and indexers hand back. Each rejection is a 400
    whose source pointer names the offending member. */
module CardValidation {
  import opened Base
  import opened Strings
  import opened Objects
  import opened Resources
  import opened CardIdentity
  import opened Lists

  /** `schema.isSchemaType(type)`; a missing type is never a schema type. */
  function IsSchemaType(isSchemaType: string -> bool, t: Option<string>): bool {
    t.Some? && isSchemaType(t.value)
  }

  function BadRequest(pointer: string): Error {
    Http(400, Some(pointer))
  }

  /** `s.includes(sub)` on a member that may be missing, which throws. */
  function IncludesOrFault(s: Option<string>, sub: string): Result<bool, Error> {
    if s.None? then Err(TypeFault) else Ok(Includes(s.value, sub))
  }

  /** The test both validators apply to a linkage or included resource of card
      `id`: not a card, and either a non-schema type outside the card or an id
      outside the card. The operands are evaluated left to right, so a missing
      type or id throws only when it is reached. */
  function Foreign(isSchemaType: string -> bool, id: string, t: Option<string>, i: Option<string>): (r: Result<bool, Error>)
    ensures r == Ok(false) <==>
      IsCard(t, i)
      || ((IsSchemaType(isSchemaType, t) || (t.Some? && Includes(t.value, id)))
          && i.Some? && Includes(i.value, id))
  {
    if IsCard(t, i) then Ok(false)
    else if !IsSchemaType(isSchemaType, t) && t.None? then Err(TypeFault)
    else if !IsSchemaType(isSchemaType, t) && !Includes(t.value, id) then Ok(true)
    else match IncludesOrFault(i, id)
      case Err(e) => Err(e)
      case Ok(b) => Ok(!b)
  }

  /** A field linkage of card `id` is foreign when its id does not include the
      card id; a missing id throws. */
  function ForeignField(id: string, ref: Ref): Result<bool, Error> {
    match IncludesOrFault(ref.id, id)
    case Err(e) => Err(e)
    case Ok(b) => Ok(!b)
  }

  /** An included resource is foreign by the same test, except that one without
      an id is let through. */
  function ForeignIncluded(isSchemaType: string -> bool, id: string, r: Resource): Result<bool, Error> {
    if IsCard(r.typ, r.id) || r.id.None? then Ok(false)
    else Foreign(isSchemaType, id, r.typ, r.id)
  }

  /** The fields linkage as a list: missing or null reads as empty; a to-one
      linkage has no `findIndex` and throws. */
  function FieldRefs(data: Resource): Result<seq<Ref>, Error> {
    match LinkageOf(data, "fields")
    case NoData => Ok([])
    case NullData => Ok([])
    case ToMany(refs) => Ok(refs)
    case ToOne(_) => Err(TypeFault)
  }

  function Index(prefix: string, i: nat): string {
    prefix + NatToString(i)
  }

  /** The checks on the relationships other than `fields`, in key order. */
  function CheckLinkages(isSchemaType: string -> bool, id: string, data: Resource, rels: seq<string>): (r: Result<(), Error>)
    ensures r.Ok? ==> forall k :: 0 <= k < |rels| && rels[k] != "fields" ==>
      LinkageFine(isSchemaType, id, LinkageOf(data, rels[k]))
    ensures (forall k :: 0 <= k < |rels| && rels[k] != "fields" ==>
      LinkageFine(isSchemaType, id, LinkageOf(data, rels[k]))) ==> r.Ok?
    decreases |rels|
  {
    if |rels| == 0 then Ok(())
    else
      var rel := rels[0];
      var rest := CheckLinkages(isSchemaType, id, data, rels[1..]);
      assert forall k :: 1 <= k < |rels| ==> rels[k] == rels[1..][k - 1];
      if rel == "fields" then rest
      else
        match LinkageOf(data, rel)
        case NoData => rest
        case NullData => rest
        case ToMany(refs) =>
          (match FindFirst(refs, (x: Ref) => Foreign(isSchemaType, id, x.typ, x.id))
           case Err(e) => Err(e)
           case Ok(Some(i)) => Err(BadRequest(Index("/data/relationships/" + rel + "/data/", i)))
           case Ok(None) => rest)
        case ToOne(x) =>
          match Foreign(isSchemaType, id, x.typ, x.id)
          case Err(e) => Err(e)
          case Ok(true) => Err(BadRequest("/data/relationships/" + rel + "/data"))
          case Ok(false) => rest
  }

  /** A relationship linkage passes: every reference it holds is not foreign. */
  predicate LinkageFine(isSchemaType: string -> bool, id: string, l: Linkage) {
    match l
    case NoData => true
    case NullData => true
    case ToOne(x) => Foreign(isSchemaType, id, x.typ, x.id) == Ok(false)
    case ToMany(refs) => forall j :: 0 <= j < |refs| ==> Foreign(isSchemaType, id, refs[j].typ, refs[j].id) == Ok(false)
  }

  /** `validateInternalCardFormat(schema, card)`. */
  function ValidateInternal(isSchemaType: string -> bool, card: Document): (r: Result<(), Error>)
    ensures !Truthy(card.data.id) ==> r == Err(BadRequest("/data/id"))
    ensures Truthy(card.data.id) && !Truthy(card.data.typ) ==> r == Err(BadRequest("/data/type"))
    ensures Truthy(card.data.id) && Truthy(card.data.typ) && card.data.id != card.data.typ ==>
      r == Err(BadRequest("/data/id"))
    ensures Truthy(card.data.id) && card.data.id == card.data.typ && LinkageOf(card.data, "fields").ToMany? ==>
      var refs := LinkageOf(card.data, "fields").refs;
      forall k :: 0 <= k < |refs| && refs[k].id.Some? && !Includes(refs[k].id.value, card.data.id.value)
        && (forall j :: 0 <= j < k ==> refs[j].id.Some? && Includes(refs[j].id.value, card.data.id.value))
        ==> r == Err(BadRequest(Index("/data/relationships/fields/data/", k)))
  {
    var data := card.data;
    if !Truthy(data.id) then Err(BadRequest("/data/id"))
    else if !Truthy(data.typ) then Err(BadRequest("/data/type"))
    else if data.id != data.typ then Err(BadRequest("/data/id"))
    else
      var id := data.id.value;
      var fields :- FieldRefs(data);
      var foreignField :- FindFirst(fields, FieldTest(id));
      if foreignField.Some? then
        Err(BadRequest(Index("/data/relationships/fields/data/", foreignField.value)))
      else
        var _ :- CheckLinkages(isSchemaType, id, data, Keys(data.relationships));
        var foreignIncluded :- FindFirst(card.included, IncludedTest(isSchemaType, id));
        if foreignIncluded.Some? then Err(BadRequest(Index("/included/", foreignIncluded.value)))
        else Ok(())
  }

  /** The field test as `findIndex` applies it. */
  function FieldTest(id: string): Ref -> Result<bool, Error> {
    (x: Ref) => ForeignField(id, x)
  }

  /** The included-resource test as `findIndex` applies it. */
  function IncludedTest(isSchemaType: string -> bool, id: string): Resource -> Result<bool, Error> {
    (x: Resource) => ForeignIncluded(isSchemaType, id, x)
  }

  /** The fields linkage is a list (or absent) whose every reference has an
      id inside card `id`. */
  predicate FieldsValid(data: Resource, id: string) {
    match LinkageOf(data, "fields")
    case ToOne(_) => false
    case ToMany(refs) => forall j :: 0 <= j < |refs| ==> refs[j].id.Some? && Includes(refs[j].id.value, id)
    case _ => true
  }

  /** Every relationship but `fields` passes. */
  predicate LinkagesValid(isSchemaType: string -> bool, id: string, data: Resource) {
    forall k :: 0 <= k < |data.relationships| && data.relationships[k].0 != "fields" ==>
      LinkageFine(isSchemaType, id, LinkageOf(data, data.relationships[k].0))
  }

  /** No included resource is foreign. */
  predicate IncludedValid(isSchemaType: string -> bool, id: string, included: seq<Resource>) {
    forall j :: 0 <= j < |included| ==> ForeignIncluded(isSchemaType, id, included[j]) == Ok(false)
  }

  /** What the internal validator accepts, stated without its evaluation order. */
  predicate InternalValid(isSchemaType: string -> bool, card: Document) {
    var data := card.data;
    Truthy(data.id) && data.id == data.typ
    && FieldsValid(data, data.id.value)
    && LinkagesValid(isSchemaType, data.id.value, data)
    && IncludedValid(isSchemaType, data.id.value, card.included)
  }

  /** The internal validator passes exactly the documents that are valid. */
  lemma ValidateInternalIffValid(isSchemaType: string -> bool, card: Document)
    ensures ValidateInternal(isSchemaType, card).Ok? <==> InternalValid(isSchemaType, card)
  {
    var data := card.data;
    if Truthy(data.id) && data.id == data.typ {
      var id := data.id.value;
      FieldsPass(data, id);
      LinkagesPass(isSchemaType, id, data);
      FindFirstNone(card.included, IncludedTest(isSchemaType, id));
    }
  }

  /** The fields check passes exactly when the fields linkage is valid. */
  lemma FieldsPass(data: Resource, id: string)
    ensures (FieldRefs(data).Ok? && FindFirst(FieldRefs(data).value, FieldTest(id)) == Ok(None))
      <==> FieldsValid(data, id)
  {
    var refs := FieldRefs(data);
    if refs.Ok? {
      FindFirstNone(refs.value, FieldTest(id));
      assert forall j :: 0 <= j < |refs.value| ==>
        (FieldTest(id)(refs.value[j]) == Ok(false) <==> refs.value[j].id.Some? && Includes(refs.value[j].id.value, id));
    }
  }

  /** The linkage checks, run over the relationship keys, pass exactly when
      every relationship but `fields` does. */
  lemma LinkagesPass(isSchemaType: string -> bool, id: string, data: Resource)
    ensures CheckLinkages(isSchemaType, id, data, Keys(data.relationships)).Ok? <==> LinkagesValid(isSchemaType, id, data)
  {
    var ks := Keys(data.relationships);
    assert forall k :: 0 <= k < |data.relationships| ==> ks[k] == data.relationships[k].0;
  }

  /** The JSON pointer of a card's model linkage. */
  const ModelPointer: string := "/data/relationships/model/data"

  /** `validateExternalCardFormat(card)`. */
  function ValidateExternal(card: Document): (r: Result<(), Error>)
    ensures !Truthy(card.data.id) ==> r == Err(BadRequest("/data/id"))
    ensures Truthy(card.data.id) && card.data.typ != Some("cards") ==> r == Err(BadRequest("/data/type"))
    ensures r.Err? ==> r.error.Http? && r.error.status == 400
    ensures Truthy(card.data.id) && card.data.typ == Some("cards") && !ExternalValid(card) ==>
      r == Err(BadRequest(ModelPointer))
    ensures r.Ok? <==> ExternalValid(card)
  {
    var data := card.data;
    if !Truthy(data.id) then Err(BadRequest("/data/id"))
    else if data.typ != Some("cards") then Err(BadRequest("/data/type"))
    else
      var model := LinkageOf(data, "model");
      if !model.Truthy() then Err(BadRequest(ModelPointer))
      else if !model.ToOne? || model.ref.typ != data.id || model.ref.id != data.id then
        Err(BadRequest(ModelPointer))
      else if !exists i | 0 <= i < |card.included| :: Key(card.included[i]) == ModelKey(data.id.value) then
        Err(BadRequest(ModelPointer))
      else Ok(())
  }

  /** The `${id}/${id}` key of card `id`'s model. */
  function ModelKey(id: string): string {
    id + "/" + id
  }

  /** What the external validator accepts: a `cards` document whose model
      relationship points at `{type: id, id: id}` and which includes that model. */
  predicate ExternalValid(card: Document) {
    Truthy(card.data.id) && card.data.typ == Some("cards")
    && LinkageOf(card.data, "model") == ToOne(Ref(card.data.id, card.data.id))
    && exists i :: 0 <= i < |card.included| && Key(card.included[i]) == ModelKey(card.data.id.value)
  }
}

=== FILE: lists.dfy ===
/** The list combinators the hub takes from JavaScript arrays and lodash:
    `findIndex` with a predicate that may throw, `uniqBy`, `filter` and `map`. */
module Lists {
  import opened Base

  /** `s.findIndex(p)` where evaluating `p` may throw: the index of the first
      element `p` accepts, `None` when there is none, or the error of the first
      element whose evaluation throws before any element is accepted. */
  function FindFirst<T>(s: seq<T>, p: T -> Result<bool, Error>): (r: Result<Option<nat>, Error>)
    ensures r.Ok? && r.value.Some? ==>
      r.value.value < |s| && p(s[r.value.value]) == Ok(true)
      && forall j :: 0 <= j < r.value.value ==> p(s[j]) == Ok(false)
    ensures r.Ok? && r.value.None? ==> forall j :: 0 <= j < |s| ==> p(s[j]) == Ok(false)
    ensures r.Err? ==> exists j :: (0 <= j < |s| && p(s[j]) == Err(r.error)
      && forall k :: 0 <= k < j ==> p(s[k]) == Ok(false))
    decreases |s|
  {
    if |s| == 0 then Ok(None)
    else
      match p(s[0])
      case Err(e) => Err(e)
      case Ok(true) => Ok(Some(0))
      case Ok(false) =>
        var rest := FindFirst(s[1..], p);
        match rest
        case Err(e) =>
          var j :| 0 <= j < |s| - 1 && p(s[1..][j]) == Err(e)
            && forall k :: 0 <= k < j ==> p(s[1..][k]) == Ok(false);
          assert p(s[j + 1]) == Err(e);
          assert forall k :: 0 <= k < j + 1 ==> p(s[k]) == Ok(false) by {
            forall k | 0 <= k < j + 1
              ensures p(s[k]) == Ok(false)
            {
              if k > 0 {
                assert s[k] == s[1..][k - 1];
              }
            }
          }
          Err(e)
        case Ok(None) =>
          assert forall j :: 1 <= j < |s| ==> s[j] == s[1..][j - 1];
          Ok(None)
        case Ok(Some(i)) =>
          assert forall j :: 1 <= j < i + 1 ==> s[j] == s[1..][j - 1];
          Ok(Some(i + 1))
  }

  /** `findIndex` finds nothing exactly when the test is false everywhere. */
  lemma FindFirstNone<T>(s: seq<T>, p: T -> Result<bool, Error>)
    ensures FindFirst(s, p) == Ok(None) <==> forall j :: 0 <= j < |s| ==> p(s[j]) == Ok(false)
  {
    var r := FindFirst(s, p);
    if r.Err? {
      var j :| 0 <= j < |s| && p(s[j]) == Err(r.error);
      assert p(s[j]) != Ok(false);
    } else if r.value.Some? {
      assert p(s[r.value.value]) != Ok(false);
    }
  }

  /** The keys of the elements of a list. */
  function KeySet<T>(s: seq<T>, key: T -> string): set<string> {
    set i | 0 <= i < |s| :: key(s[i])
  }

  /** lodash `uniqBy(s, key)` continued after the keys in `seen` were taken. */
  function UniqByFrom<T>(s: seq<T>, key: T -> string, seen: set<string>): seq<T>
    decreases |s|
  {
    if |s| == 0 then []
    else if key(s[0]) in seen then UniqByFrom(s[1..], key, seen)
    else [s[0]] + UniqByFrom(s[1..], key, seen + {key(s[0])})
  }

  /** The element at index `j` is the first of its key, ignoring keys in `seen`. */
  predicate FirstOfKey<T>(s: seq<T>, key: T -> string, seen: set<string>, j: int)
    requires 0 <= j < |s|
  {
    forall k :: 0 <= k < j ==> key(s[k]) != key(s[j]) || key(s[k]) in seen
  }

  ghost predicate KeptFirst<T>(s: seq<T>, key: T -> string, seen: set<string>, x: T) {
    exists j :: 0 <= j < |s| && s[j] == x && FirstOfKey(s, key, seen, j)
  }

  lemma {:induction false} UniqByFromSound<T>(s: seq<T>, key: T -> string, seen: set<string>)
    ensures forall i :: 0 <= i < |UniqByFrom(s, key, seen)| ==>
      UniqByFrom(s, key, seen)[i] in s && key(UniqByFrom(s, key, seen)[i]) !in seen
    decreases |s|
  {
    if |s| > 0 {
      if key(s[0]) in seen {
        UniqByFromSound(s[1..], key, seen);
      } else {
        UniqByFromSound(s[1..], key, seen + {key(s[0])});
      }
    }
  }

  lemma {:induction false} UniqByFromDistinct<T>(s: seq<T>, key: T -> string, seen: set<string>)
    ensures forall i, j :: 0 <= i < j < |UniqByFrom(s, key, seen)| ==>
      key(UniqByFrom(s, key, seen)[i]) != key(UniqByFrom(s, key, seen)[j])
    decreases |s|
  {
    if |s| > 0 {
      if key(s[0]) in seen {
        UniqByFromDistinct(s[1..], key, seen);
      } else {
        var rest := UniqByFrom(s[1..], key, seen + {key(s[0])});
        UniqByFromDistinct(s[1..], key, seen + {key(s[0])});
        UniqByFromSound(s[1..], key, seen + {key(s[0])});
        var r := [s[0]] + rest;
        forall i, j | 0 <= i < j < |r|
          ensures key(r[i]) != key(r[j])
        {
          assert r[j] == rest[j - 1];
          if i > 0 {
            assert r[i] == rest[i - 1];
          }
        }
      }
    }
  }

  lemma {:induction false} UniqByFromComplete<T>(s: seq<T>, key: T -> string, seen: set<string>)
    ensures forall x :: x in s ==> key(x) in seen || key(x) in KeySet(UniqByFrom(s, key, seen), key)
    decreases |s|
  {
    if |s| > 0 {
      var r := UniqByFrom(s, key, seen);
      if key(s[0]) in seen {
        UniqByFromComplete(s[1..], key, seen);
        assert forall x :: x in s ==> x == s[0] || x in s[1..];
      } else {
        var rest := UniqByFrom(s[1..], key, seen + {key(s[0])});
        UniqByFromComplete(s[1..], key, seen + {key(s[0])});
        assert r[0] == s[0];
        assert forall i :: 0 <= i < |rest| ==> rest[i] == r[i + 1];
        assert KeySet(rest, key) <= KeySet(r, key);
        assert forall x :: x in s ==> x == s[0] || x in s[1..];
      }
    }
  }

  lemma {:induction false} UniqByFromFirst<T>(s: seq<T>, key: T -> string, seen: set<string>)
    ensures forall i :: 0 <= i < |UniqByFrom(s, key, seen)| ==>
      KeptFirst(s, key, seen, UniqByFrom(s, key, seen)[i])
    decreases |s|
  {
    if |s| > 0 {
      var r := UniqByFrom(s, key, seen);
      if key(s[0]) in seen {
        UniqByFromFirst(s[1..], key, seen);
        assert r == UniqByFrom(s[1..], key, seen);
        forall i | 0 <= i < |r|
          ensures KeptFirst(s, key, seen, r[i])
        {
          assert KeptFirst(s[1..], key, seen, UniqByFrom(s[1..], key, seen)[i]);
          var j :| 0 <= j < |s[1..]| && s[1..][j] == r[i] && FirstOfKey(s[1..], key, seen, j);
          assert s[j + 1] == r[i];
          assert forall k :: 1 <= k < j + 1 ==> s[k] == s[1..][k - 1];
          assert FirstOfKey(s, key, seen, j + 1);
        }
      } else {
        var seen' := seen + {key(s[0])};
        var rest := UniqByFrom(s[1..], key, seen');
        UniqByFromFirst(s[1..], key, seen');
        UniqByFromSound(s[1..], key, seen');
        forall i | 0 <= i < |r|
          ensures KeptFirst(s, key, seen, r[i])
        {
          if i == 0 {
            assert FirstOfKey(s, key, seen, 0);
          } else {
            assert r[i] == rest[i - 1];
            assert KeptFirst(s[1..], key, seen', rest[i - 1]);
            var j :| 0 <= j < |s[1..]| && s[1..][j] == rest[i - 1] && FirstOfKey(s[1..], key, seen', j);
            assert s[j + 1] == r[i];
            forall k | 0 <= k < j + 1
              ensures key(s[k]) != key(s[j + 1]) || key(s[k]) in seen
            {
              if k > 0 {
                assert s[k] == s[1..][k - 1];
              }
            }
            assert FirstOfKey(s, key, seen, j + 1);
          }
        }
      }
    }
  }

  /** The index of the first element with key `k`, or `|s|` when there is none. */
  function FirstIndex<T>(s: seq<T>, key: T -> string, k: string): (n: nat)
    ensures n <= |s|
    ensures n < |s| ==> key(s[n]) == k
    ensures forall j :: 0 <= j < n ==> key(s[j]) != k
    decreases |s|
  {
    if |s| == 0 then 0
    else if key(s[0]) == k then 0
    else
      var n := FirstIndex(s[1..], key, k);
      assert forall j :: 1 <= j < n + 1 ==> s[j] == s[1..][j - 1];
      n + 1
  }

  /** The kept elements come in the order of their first occurrences. */
  lemma {:induction false} UniqByFromInOrder<T>(s: seq<T>, key: T -> string, seen: set<string>)
    ensures forall i, i' :: 0 <= i < i' < |UniqByFrom(s, key, seen)| ==>
      FirstIndex(s, key, key(UniqByFrom(s, key, seen)[i])) < FirstIndex(s, key, key(UniqByFrom(s, key, seen)[i']))
    decreases |s|
  {
    var r := UniqByFrom(s, key, seen);
    if |s| > 0 {
      var seen' := if key(s[0]) in seen then seen else seen + {key(s[0])};
      var rest := UniqByFrom(s[1..], key, seen');
      UniqByFromInOrder(s[1..], key, seen');
      UniqByFromSound(s[1..], key, seen');
      var d := if key(s[0]) in seen then 0 else 1;
      assert |r| == |rest| + d;
      assert forall i :: d <= i < |r| ==> r[i] == rest[i - d];
      forall i, i' | 0 <= i < i' < |r|
        ensures FirstIndex(s, key, key(r[i])) < FirstIndex(s, key, key(r[i']))
      {
        assert r[i'] == rest[i' - d];
        assert key(rest[i' - d]) != key(s[0]);
        assert FirstIndex(s, key, key(r[i'])) == 1 + FirstIndex(s[1..], key, key(r[i']));
        if i >= d {
          assert r[i] == rest[i - d];
          assert key(rest[i - d]) != key(s[0]);
          assert FirstIndex(s, key, key(r[i])) == 1 + FirstIndex(s[1..], key, key(r[i]));
          assert FirstIndex(s[1..], key, key(rest[i - d])) < FirstIndex(s[1..], key, key(rest[i' - d]));
        } else {
          assert r[i] == s[0];
        }
      }
    }
  }

  /** A kept element sits at the first index of its key. */
  lemma KeptAtFirstIndex<T>(s: seq<T>, key: T -> string, x: T)
    requires KeptFirst(s, key, {}, x)
    ensures FirstIndex(s, key, key(x)) < |s| && s[FirstIndex(s, key, key(x))] == x
  {
    var j :| 0 <= j < |s| && s[j] == x && FirstOfKey(s, key, {}, j);
    var n := FirstIndex(s, key, key(x));
    assert n <= j;
  }

  /** Starting from no seen keys, the kept elements have exactly the keys of the list. */
  lemma UniqByKeySet<T>(s: seq<T>, key: T -> string)
    ensures KeySet(UniqByFrom(s, key, {}), key) == KeySet(s, key)
  {
    var r := UniqByFrom(s, key, {});
    UniqByFromSound(s, key, {});
    UniqByFromComplete(s, key, {});
    forall x | x in KeySet(s, key)
      ensures x in KeySet(r, key)
    {
      var i :| 0 <= i < |s| && key(s[i]) == x;
      assert s[i] in s;
    }
    forall x | x in KeySet(r, key)
      ensures x in KeySet(s, key)
    {
      var i :| 0 <= i < |r| && key(r[i]) == x;
      var j :| 0 <= j < |s| && s[j] == r[i];
    }
  }

  /** Every kept element is the one at the first index of its key. */
  lemma UniqByAtFirstIndex<T>(s: seq<T>, key: T -> string)
    ensures forall i :: 0 <= i < |UniqByFrom(s, key, {})| ==>
      FirstIndex(s, key, key(UniqByFrom(s, key, {})[i])) < |s| && s[FirstIndex(s, key, key(UniqByFrom(s, key, {})[i]))] == UniqByFrom(s, key, {})[i]
  {
    var r := UniqByFrom(s, key, {});
    UniqByFromFirst(s, key, {});
    forall i | 0 <= i < |r|
      ensures FirstIndex(s, key, key(r[i])) < |s| && s[FirstIndex(s, key, key(r[i]))] == r[i]
    {
      KeptAtFirstIndex(s, key, r[i]);
    }
  }

  /** lodash `uniqBy(s, key)`: the first element of each key, in order. */
  function UniqBy<T>(s: seq<T>, key: T -> string): (r: seq<T>)
    ensures forall i :: 0 <= i < |r| ==> r[i] in s
    ensures forall i, j :: 0 <= i < j < |r| ==> key(r[i]) != key(r[j])
    ensures KeySet(r, key) == KeySet(s, key)
    ensures forall i :: 0 <= i < |r| ==> KeptFirst(s, key, {}, r[i])
    ensures forall i :: 0 <= i < |r| ==> s[FirstIndex(s, key, key(r[i]))] == r[i]
    ensures forall i, i' :: 0 <= i < i' < |r| ==> FirstIndex(s, key, key(r[i])) < FirstIndex(s, key, key(r[i']))
  {
    var r := UniqByFrom(s, key, {});
    UniqByFromInOrder(s, key, {});
    UniqByFromSound(s, key, {});
    UniqByFromDistinct(s, key, {});
    UniqByFromFirst(s, key, {});
    UniqByKeySet(s, key);
    UniqByAtFirstIndex(s, key);
    r
  }

  /** `s.map(f)`. */
  function Map<T, U>(s: seq<T>, f: T -> U): (r: seq<U>)
    ensures |r| == |s|
    ensures forall i :: 0 <= i < |s| ==> r[i] == f(s[i])
  {
    seq(|s|, i requires 0 <= i < |s| => f(s[i]))
  }

  /** `s.filter(p)`. */
  function Filter<T>(s: seq<T>, p: T -> bool): (r: seq<T>)
    ensures |r| <= |s|
    ensures forall i :: 0 <= i < |r| ==> p(r[i])
    decreases |s|
  {
    if |s| == 0 then []
    else if p(s[0]) then [s[0]] + Filter(s[1..], p)
    else Filter(s[1..], p)
  }

  /** Filtering a list whose every element passes leaves it unchanged. */
  lemma {:induction false} FilterAll<T>(s: seq<T>, p: T -> bool)
    requires forall i :: 0 <= i < |s| ==> p(s[i])
    ensures Filter(s, p) == s
    decreases |s|
  {
    if |s| > 0 {
      FilterAll(s[1..], p);
      assert s == [s[0]] + s[1..];
    }
  }

  /** Filtering a list whose every element fails leaves nothing. */
  lemma {:induction false} FilterNone<T>(s: seq<T>, p: T -> bool)
    requires forall i :: 0 <= i < |s| ==> !p(s[i])
    ensures Filter(s, p) == []
    decreases |s|
  {
    if |s| > 0 {
      FilterNone(s[1..], p);
    }
  }

  /** Filtering keeps exactly the accepted elements. */
  lemma {:induction false} FilterMembers<T>(s: seq<T>, p: T -> bool, x: T)
    ensures x in Filter(s, p) <==> x in s && p(x)
    decreases |s|
  {
    if |s| > 0 {
      FilterMembers(s[1..], p, x);
      assert s == [s[0]] + s[1..];
    }
  }

  /** Filtering keeps each accepted element as often as it occurs. */
  lemma {:induction false} FilterCount<T>(s: seq<T>, p: T -> bool, x: T)
    ensures multiset(Filter(s, p))[x] == if p(x) then multiset(s)[x] else 0
    decreases |s|
  {
    if |s| > 0 {
      FilterCount(s[1..], p, x);
      assert s == [s[0]] + s[1..];
    }
  }

  /** Filtering a concatenation filters each part in turn, so what is kept
      keeps its order. */
  lemma {:induction false} FilterAppend<T>(s: seq<T>, t: seq<T>, p: T -> bool)
    ensures Filter(s + t, p) == Filter(s, p) + Filter(t, p)
    decreases |s|
  {
    if |s| == 0 {
      assert s + t == t;
    } else {
      assert (s + t)[0] == s[0];
      assert (s + t)[1..] == s[1..] + t;
      FilterAppend(s[1..], t, p);
    }
  }

  /** Filtering by a test on the key keeps exactly the keys that pass it. */
  lemma {:induction false} FilterKeySet<T>(s: seq<T>, key: T -> string, p: T -> bool, q: string -> bool)
    requires forall x :: p(x) == q(key(x))
    ensures KeySet(Filter(s, p), key) == set k | k in KeySet(s, key) && q(k)
    decreases |s|
  {
    if |s| > 0 {
      FilterKeySet(s[1..], key, p, q);
      KeySetCons(s[0], s[1..], key);
      assert s == [s[0]] + s[1..];
      if p(s[0]) {
        KeySetCons(s[0], Filter(s[1..], p), key);
      }
    }
  }

  lemma KeySetCons<T>(x: T, s: seq<T>, key: T -> string)
    ensures KeySet([x] + s, key) == {key(x)} + KeySet(s, key)
  {
    var l := [x] + s;
    forall k | k in KeySet(l, key)
      ensures k in {key(x)} + KeySet(s, key)
    {
      var i :| 0 <= i < |l| && key(l[i]) == k;
      if i > 0 {
        assert l[i] == s[i - 1];
      }
    }
    forall k | k in KeySet(s, key)
      ensures k in KeySet(l, key)
    {
      var i :| 0 <= i < |s| && key(s[i]) == k;
      assert l[i + 1] == s[i];
    }
    assert key(l[0]) in KeySet(l, key);
  }
}

=== FILE: model.dfy ===
/** The model object user code (computed fields) sees: reading a field of a
    JSON:API document by the kind of field it is, and what reading a related
    field falls back to when there is nothing to load. */
module Models {
  import opened Base
  import opened Objects
  import opened Json

  /** `v[k]` on a value known not to be `undefined` or `null`: an object's own
      member, `undefined` otherwise. */
  function Member(v: Value, k: string): (r: Value)
    ensures v.Dict? && Has(v.entries, k) ==> r == Get(v.entries, k).value
    ensures !(v.Dict? && Has(v.entries, k)) ==> r == Undefined
  {
    if v.Dict? then Get(v.entries, k).GetOr(Undefined) else Undefined
  }

  /** `obj.hasOwnProperty(k)` on a truthy value. */
  predicate HasOwn(v: Value, k: string) {
    v.Dict? && Has(v.entries, k)
  }

  /** `isRelationshipObject(obj)`: a truthy value with its own `links` or
      `data` member (a value with only `meta` does not count). */
  predicate IsRelationshipObject(v: Value) {
    v.Truthy() && (HasOwn(v, "links") || HasOwn(v, "data"))
  }

  /** A field of a content type, by the parts `getField` consults. */
  datatype Field = Field(id: string, isRelationship: bool, fieldType: string)

  /** The field type of to-many relationships. */
  const HasMany: string := "@cardstack/core-types::has-many"

  /** A content type: its real and computed fields by name, and, for each
      field id that is computed, the value its `compute` resolves to on this
      model (user code, so a parameter here). */
  datatype ContentType = ContentType(fields: map<string, Field>, computed: string -> Option<Value>)

  /** The start of the message thrown for an unknown field. */
  const NoSuchField: string := "tried to access nonexistent field "

  /** What reading a field can give back, spelled out by where it came from. */
  function Wrapped(v: Value): (r: Value)
    ensures IsRelationshipObject(r) && Member(r, "data") == v
  {
    var entries := [("data", v)];
    assert Keys(entries) == ["data"];
    Dict(entries)
  }

  /** `model.getField(fieldName)` on the document `doc`: throws for a name the
      content type does not have; a computed field gives its computed value,
      wrapped as `{data: value}` when it is a relationship and the value is
      not already a relationship object; otherwise a relationship reads the
      document's `relationships`, `id` and `type` read the top level, and
      every other field reads `attributes`, a falsy `attributes` being
      returned as it is. */
  function GetField(ct: ContentType, doc: Obj<Value>, fieldName: string): (r: Result<Value, Error>)
    ensures r.Err? <==> fieldName !in ct.fields
    ensures r.Ok? ==> var f := ct.fields[fieldName];
      match ct.computed(f.id)
      case Some(v) =>
        && (f.isRelationship ==> IsRelationshipObject(r.value))
        && (f.isRelationship && !IsRelationshipObject(v) ==> Member(r.value, "data") == v)
        && (!(f.isRelationship && !IsRelationshipObject(v)) ==> r.value == v)
      case None =>
        && (f.isRelationship ==> r.value == Relationships(doc, f.id))
        && (!f.isRelationship && f.id in {"id", "type"} ==> r.value == Member(Dict(doc), f.id))
        && (!f.isRelationship && f.id !in {"id", "type"} ==> r.value == Attribute(doc, f.id))
  {
    if fieldName !in ct.fields then
      Err(Thrown(NoSuchField + fieldName))
    else
      var f := ct.fields[fieldName];
      match ct.computed(f.id)
      case Some(v) =>
        Ok(if f.isRelationship && !IsRelationshipObject(v) then Wrapped(v) else v)
      case None =>
        if f.isRelationship then Ok(Relationships(doc, f.id))
        else if f.id == "id" || f.id == "type" then Ok(Member(Dict(doc), f.id))
        else Ok(Attribute(doc, f.id))
  }

  /** `jsonapiDoc.relationships[id]` when the document has truthy
      relationships; nothing (`undefined`) when it has not. */
  function Relationships(doc: Obj<Value>, id: string): Value
  {
    var rels := Member(Dict(doc), "relationships");
    if rels.Truthy() then Member(rels, id) else Undefined
  }

  /** `jsonapiDoc.attributes && jsonapiDoc.attributes[id]`. */
  function Attribute(doc: Obj<Value>, id: string): Value
  {
    var attrs := Member(Dict(doc), "attributes");
    if attrs.Truthy() then Member(attrs, id) else attrs
  }

  /** Where `getRelated` finds the related models. */
  datatype Related =
    | ByLink(related: Value, isCollection: bool) // the models the link's query finds: all, or the first
    | ByRefs(refs: seq<Value>)                   // each reference loaded, the missing ones dropped
    | ByRef(ref: Value)                          // the one reference loaded
    | Nothing(value: Value)                      // nothing to load: `[]` or `null`

  /** `model.getRelated(fieldName)`: follows the relationship's
      `links.related` when it has one, else loads its `data`; with neither it
      gives `[]` for a has-many field and `null` for any other. Reading
      `related` off a `links` that is `null` or `undefined` is a TypeError. */
  function GetRelated(ct: ContentType, doc: Obj<Value>, fieldName: string): (r: Result<Related, Error>)
    ensures GetField(ct, doc, fieldName).Err? ==> r.Err? && r.error == GetField(ct, doc, fieldName).error
    ensures r.Err? && GetField(ct, doc, fieldName).Ok? ==> r.error == TypeFault
    ensures r.Ok? && r.value.Nothing? ==>
      r.value.value == if ct.fields[fieldName].fieldType == HasMany then Arr([]) else Null
    ensures r.Ok? ==> var rel := GetField(ct, doc, fieldName).value;
      (r.value.Nothing? <==> !(HasOwn(rel, "links") && Member(Member(rel, "links"), "related").Truthy())
                             && !(rel.Truthy() && Member(rel, "data").Truthy()))
  {
    var rel :- GetField(ct, doc, fieldName);
    var isCollection := ct.fields[fieldName].fieldType == HasMany;
    if rel.Truthy() && HasOwn(rel, "links") && (Member(rel, "links").Undefined? || Member(rel, "links").Null?) then
      Err(TypeFault)
    else if rel.Truthy() && HasOwn(rel, "links") && Member(Member(rel, "links"), "related").Truthy() then
      Ok(ByLink(Member(Member(rel, "links"), "related"), isCollection))
    else if rel.Truthy() && Member(rel, "data").Truthy() then
      var refs := Member(rel, "data");
      if refs.Arr? then Ok(ByRefs(refs.items)) else Ok(ByRef(refs))
    else if isCollection then
      Ok(Nothing(Arr([])))
    else
      Ok(Nothing(Null))
  }

  /** A computed relationship that returned a bare value (not a relationship
      object) is read back as linkage: an array loads each reference, any
      other truthy value loads that one reference, and a falsy one leaves
      nothing to load. */
  lemma ComputedRelationshipLoads(ct: ContentType, doc: Obj<Value>, fieldName: string, v: Value)
    requires fieldName in ct.fields
    requires ct.fields[fieldName].isRelationship
    requires ct.computed(ct.fields[fieldName].id) == Some(v)
    requires !IsRelationshipObject(v)
    ensures GetRelated(ct, doc, fieldName).Ok?
    ensures v.Arr? ==> GetRelated(ct, doc, fieldName).value == ByRefs(v.items)
    ensures v.Truthy() && !v.Arr? ==> GetRelated(ct, doc, fieldName).value == ByRef(v)
    ensures !v.Truthy() ==> GetRelated(ct, doc, fieldName).value.Nothing?
  {
    var rel := GetField(ct, doc, fieldName).value;
    assert rel == Wrapped(v);
    assert !HasOwn(rel, "links") by {
      assert rel.entries == [("data", v)];
      assert Keys(rel.entries) == ["data"];
    }
  }

  /** A stored relationship the document does not have reads as nothing to
      load: an empty list for has-many, `null` otherwise. */
  lemma MissingRelationshipIsEmpty(ct: ContentType, doc: Obj<Value>, fieldName: string)
    requires fieldName in ct.fields
    requires ct.fields[fieldName].isRelationship
    requires ct.computed(ct.fields[fieldName].id).None?
    requires !HasOwn(Member(Dict(doc), "relationships"), ct.fields[fieldName].id)
    ensures GetRelated(ct, doc, fieldName) ==
      Ok(Nothing(if ct.fields[fieldName].fieldType == HasMany then Arr([]) else Null))
  {
    var f := ct.fields[fieldName];
    assert GetField(ct, doc, fieldName) == Ok(Undefined);
  }
}

=== FILE: objects.dfy ===
/** JavaScript objects with string keys, as the list of their own
    enumerable entries in insertion order. `Object.keys` reports the same
    order except that it lists integer-like keys first, in ascending order;
    the model does not reorder them. The key-renaming loops of the card codec
    are modelled on top of this, entry by entry. */
module Objects {
  import opened Base

  type Obj<V> = seq<(string, V)>

  function Keys<V>(o: Obj<V>): (ks: seq<string>)
    ensures |ks| == |o|
    ensures forall i :: 0 <= i < |o| ==> ks[i] == o[i].0
  {
    seq(|o|, i requires 0 <= i < |o| => o[i].0)
  }

  predicate Has<V>(o: Obj<V>, k: string) {
    k in Keys(o)
  }

  /** No key occurs twice, as in every JavaScript object. */
  predicate WellFormed<V>(o: Obj<V>) {
    forall i, j :: 0 <= i < j < |o| ==> o[i].0 != o[j].0
  }

  /** `o[k]`. */
  function Get<V>(o: Obj<V>, k: string): (r: Option<V>)
    ensures r.Some? <==> Has(o, k)
  {
    if |o| == 0 then None
    else if o[0].0 == k then Some(o[0].1)
    else
      assert Keys(o) == [o[0].0] + Keys(o[1..]);
      Get(o[1..], k)
  }

  /** `o[k] = v`: overwrites an existing key in place, or appends a new key. */
  function Set<V>(o: Obj<V>, k: string, v: V): Obj<V> {
    if |o| == 0 then [(k, v)]
    else if o[0].0 == k then [(k, v)] + o[1..]
    else [o[0]] + Set(o[1..], k, v)
  }

  /** `delete o[k]`. */
  function Delete<V>(o: Obj<V>, k: string): Obj<V> {
    if |o| == 0 then []
    else if o[0].0 == k then Delete(o[1..], k)
    else [o[0]] + Delete(o[1..], k)
  }

  /** After `o[k] = v`, reading `k` gives `v` and every other key reads as before. */
  lemma {:induction false} SetThenGet<V>(o: Obj<V>, k: string, v: V, k': string)
    ensures Get(Set(o, k, v), k') == if k' == k then Some(v) else Get(o, k')
    decreases |o|
  {
    if |o| > 0 && o[0].0 != k {
      SetThenGet(o[1..], k, v, k');
    }
  }

  /** After `o[k] = v` every other key reads as before. */
  lemma SetKeepsOthers<V>(o: Obj<V>, k: string, v: V)
    ensures forall k' :: k' != k ==> Get(Set(o, k, v), k') == Get(o, k')
  {
    forall k' | k' != k
      ensures Get(Set(o, k, v), k') == Get(o, k')
    {
      SetThenGet(o, k, v, k');
    }
  }

  /** `o[k] = v` keeps the insertion order, appending `k` when it is new. */
  lemma {:induction false} SetKeys<V>(o: Obj<V>, k: string, v: V)
    ensures Keys(Set(o, k, v)) == if Has(o, k) then Keys(o) else Keys(o) + [k]
    decreases |o|
  {
    if |o| > 0 {
      KeysCons(o[0], o[1..]);
      assert o == [o[0]] + o[1..];
      if o[0].0 != k {
        SetKeys(o[1..], k, v);
        KeysCons(o[0], Set(o[1..], k, v));
      } else {
        KeysCons((k, v), o[1..]);
      }
    }
  }

  lemma KeysCons<V>(e: (string, V), rest: Obj<V>)
    ensures Keys([e] + rest) == [e.0] + Keys(rest)
  {
  }

  /** After `delete o[k]`, `k` is gone and every other key reads as before. */
  lemma {:induction false} DeleteThenGet<V>(o: Obj<V>, k: string, k': string)
    ensures Get(Delete(o, k), k') == if k' == k then None else Get(o, k')
    decreases |o|
  {
    if |o| > 0 {
      DeleteThenGet(o[1..], k, k');
    }
  }

  /** What one iteration of a key-renaming loop does with its key. */
  datatype Action =
    | Skip               // `continue`: the entry is left alone
    | Keep               // the value is rewritten under the same key
    | MoveTo(target: string) // `o[target] = o[k]; delete o[k]`, then the value is rewritten

  function Step<V>(o: Obj<V>, k: string, a: Action, g: V -> V): Obj<V> {
    match Get(o, k)
    case None => o
    case Some(v) =>
      match a
      case Skip => o
      case Keep => Set(o, k, g(v))
      case MoveTo(t) => Set(Delete(Set(o, t, v), k), t, g(v))
  }

  function RenameFrom<V>(o: Obj<V>, keys: seq<string>, act: string -> Action, g: V -> V): Obj<V>
    decreases |keys|
  {
    if |keys| == 0 then o
    else RenameFrom(Step(o, keys[0], act(keys[0]), g), keys[1..], act, g)
  }

  /** `for (let k of Object.keys(o)) { … }` where each iteration performs `act(k)`
      and rewrites the moved or kept value with `g`. */
  function Rename<V>(o: Obj<V>, act: string -> Action, g: V -> V): Obj<V> {
    RenameFrom(o, Keys(o), act, g)
  }

  /** The entries with each kept value rewritten, in the original order. */
  function Updated<V>(o: Obj<V>, act: string -> Action, g: V -> V): (r: Obj<V>)
    ensures Keys(r) == Keys(o)
  {
    seq(|o|, i requires 0 <= i < |o| => (o[i].0, if act(o[i].0).Keep? then g(o[i].1) else o[i].1))
  }

  /** The entries under their target keys with every value rewritten, in the
      original order. */
  function Moved<V>(o: Obj<V>, act: string -> Action, g: V -> V): Obj<V>
    requires forall i :: 0 <= i < |o| ==> act(o[i].0).MoveTo?
  {
    seq(|o|, i requires 0 <= i < |o| => (act(o[i].0).target, g(o[i].1)))
  }

  lemma {:induction false} GetAt<V>(o: Obj<V>, n: nat, k: string)
    requires n < |o| && o[n].0 == k
    requires forall j :: 0 <= j < n ==> o[j].0 != k
    ensures Get(o, k) == Some(o[n].1)
    decreases n
  {
    if n > 0 {
      GetAt(o[1..], n - 1, k);
    }
  }

  lemma {:induction false} SetAt<V>(o: Obj<V>, n: nat, k: string, v: V)
    requires n < |o| && o[n].0 == k
    requires forall j :: 0 <= j < n ==> o[j].0 != k
    ensures Set(o, k, v) == o[..n] + [(k, v)] + o[n + 1..]
    decreases n
  {
    if n > 0 {
      SetAt(o[1..], n - 1, k, v);
      assert o[1..][..n - 1] == o[1..n];
      assert o[1..][n..] == o[n + 1..];
      assert [o[0]] + o[1..n] == o[..n];
    }
  }

  lemma {:induction false} SetAbsent<V>(o: Obj<V>, k: string, v: V)
    requires forall j :: 0 <= j < |o| ==> o[j].0 != k
    ensures Set(o, k, v) == o + [(k, v)]
    decreases |o|
  {
    if |o| > 0 {
      SetAbsent(o[1..], k, v);
      assert [o[0]] + (o[1..] + [(k, v)]) == o + [(k, v)];
    }
  }

  lemma {:induction false} DeleteHead<V>(o: Obj<V>, k: string)
    requires |o| > 0 && o[0].0 == k
    requires forall j :: 1 <= j < |o| ==> o[j].0 != k
    ensures Delete(o, k) == o[1..]
  {
    DeleteAbsent(o[1..], k);
  }

  lemma {:induction false} DeleteAbsent<V>(o: Obj<V>, k: string)
    requires forall j :: 0 <= j < |o| ==> o[j].0 != k
    ensures Delete(o, k) == o
    decreases |o|
  {
    if |o| > 0 {
      DeleteAbsent(o[1..], k);
      assert [o[0]] + o[1..] == o;
    }
  }

  /** A renaming loop that moves no entry rewrites the kept values in place. */
  lemma RenameInPlace<V>(o: Obj<V>, act: string -> Action, g: V -> V)
    requires WellFormed(o)
    requires forall i :: 0 <= i < |o| ==> !act(o[i].0).MoveTo?
    ensures Rename(o, act, g) == Updated(o, act, g)
  {
    assert o == Updated(o[..0], act, g) + o[0..];
    InPlaceFrom(o, act, g, 0);
    assert Updated(o[..|o|], act, g) + o[|o|..] == Updated(o, act, g);
  }

  lemma {:induction false} InPlaceFrom<V>(o: Obj<V>, act: string -> Action, g: V -> V, n: nat)
    requires n <= |o|
    requires WellFormed(o)
    requires forall i :: 0 <= i < |o| ==> !act(o[i].0).MoveTo?
    ensures RenameFrom(Updated(o[..n], act, g) + o[n..], Keys(o)[n..], act, g)
         == Updated(o[..|o|], act, g) + o[|o|..]
    decreases |o| - n
  {
    if n < |o| {
      var ks := Keys(o)[n..];
      assert ks[0] == o[n].0;
      assert ks[1..] == Keys(o)[n + 1..];
      InPlaceStep(o, act, g, n);
      InPlaceFrom(o, act, g, n + 1);
    }
  }

  lemma InPlaceStep<V>(o: Obj<V>, act: string -> Action, g: V -> V, n: nat)
    requires n < |o|
    requires WellFormed(o)
    requires !act(o[n].0).MoveTo?
    ensures Step(Updated(o[..n], act, g) + o[n..], o[n].0, act(o[n].0), g)
         == Updated(o[..n + 1], act, g) + o[n + 1..]
  {
    var u := Updated(o[..n], act, g);
    var cur := u + o[n..];
    var k := o[n].0;
    var v := o[n].1;
    var rest := o[n + 1..];
    assert cur == u + [(k, v)] + rest by {
      assert o[n..] == [o[n]] + rest;
    }
    assert forall j :: 0 <= j < |u| ==> u[j].0 != k by {
      forall j | 0 <= j < |u|
        ensures u[j].0 != k
      {
        assert u[j].0 == Keys(u)[j] == Keys(o[..n])[j] == o[j].0;
      }
    }
    assert Get(cur, k) == Some(v) by {
      forall j | 0 <= j < n
        ensures cur[j].0 != k
      {
        assert cur[j] == u[j];
      }
      GetAt(cur, n, k);
    }
    UpdatedSnoc(o, act, g, n);
    if act(k).Keep? {
      SetMid(u, k, v, g(v), rest);
    }
  }

  /** Setting a key no earlier entry has replaces only the value of the
      entry that has it. */
  lemma SetMid<V>(u: Obj<V>, k: string, v: V, w: V, rest: Obj<V>)
    requires forall j :: 0 <= j < |u| ==> u[j].0 != k
    ensures Set(u + [(k, v)] + rest, k, w) == u + [(k, w)] + rest
  {
    var c := u + [(k, v)] + rest;
    assert c[|u|] == (k, v);
    forall j | 0 <= j < |u|
      ensures c[j].0 != k
    {
      assert c[j] == u[j];
    }
    SetAt(c, |u|, k, w);
    assert c[..|u|] == u;
    assert c[|u| + 1..] == rest;
  }

  lemma UpdatedSnoc<V>(o: Obj<V>, act: string -> Action, g: V -> V, n: nat)
    requires n < |o|
    ensures Updated(o[..n + 1], act, g)
         == Updated(o[..n], act, g) + [(o[n].0, if act(o[n].0).Keep? then g(o[n].1) else o[n].1)]
  {
  }

  /** A renaming loop that moves every entry to a fresh, distinct key yields
      the moved entries in the original order, whatever `g` does. */
  lemma RenameAllMoved<V>(o: Obj<V>, act: string -> Action, g: V -> V)
    requires WellFormed(o)
    requires forall i :: 0 <= i < |o| ==> act(o[i].0).MoveTo?
    requires forall i, j :: 0 <= i < j < |o| ==> act(o[i].0).target != act(o[j].0).target
    requires forall i, j :: 0 <= i < |o| && 0 <= j < |o| ==> act(o[i].0).target != o[j].0
    ensures Rename(o, act, g) == Moved(o, act, g)
  {
    assert o == o[0..] + Moved(o[..0], act, g);
    AllMovedFrom(o, act, g, 0);
    assert o[|o|..] + Moved(o[..|o|], act, g) == Moved(o, act, g);
  }

  lemma {:induction false} AllMovedFrom<V>(o: Obj<V>, act: string -> Action, g: V -> V, n: nat)
    requires n <= |o|
    requires WellFormed(o)
    requires forall i :: 0 <= i < |o| ==> act(o[i].0).MoveTo?
    requires forall i, j :: 0 <= i < j < |o| ==> act(o[i].0).target != act(o[j].0).target
    requires forall i, j :: 0 <= i < |o| && 0 <= j < |o| ==> act(o[i].0).target != o[j].0
    ensures RenameFrom(o[n..] + Moved(o[..n], act, g), Keys(o)[n..], act, g)
         == o[|o|..] + Moved(o[..|o|], act, g)
    decreases |o| - n
  {
    if n < |o| {
      var ks := Keys(o)[n..];
      assert ks[0] == o[n].0;
      assert ks[1..] == Keys(o)[n + 1..];
      MovedStep(o, act, g, n);
      AllMovedFrom(o, act, g, n + 1);
    }
  }

  lemma MovedStep<V>(o: Obj<V>, act: string -> Action, g: V -> V, n: nat)
    requires n < |o|
    requires WellFormed(o)
    requires forall i :: 0 <= i < |o| ==> act(o[i].0).MoveTo?
    requires forall i, j :: 0 <= i < j < |o| ==> act(o[i].0).target != act(o[j].0).target
    requires forall i, j :: 0 <= i < |o| && 0 <= j < |o| ==> act(o[i].0).target != o[j].0
    ensures Step(o[n..] + Moved(o[..n], act, g), o[n].0, act(o[n].0), g)
         == o[n + 1..] + Moved(o[..n + 1], act, g)
  {
    var m := Moved(o[..n], act, g);
    var cur := o[n..] + m;
    var k := o[n].0;
    var v := o[n].1;
    var t := act(k).target;
    GetAt(cur, 0, k);
    FreshTarget(o, act, g, n);
    SetAbsent(cur, t, v);
    var c1 := cur + [(t, v)];
    HeadOnly(o, act, g, n);
    DeleteHead(c1, k);
    var p := o[n + 1..] + m;
    assert c1[1..] == p + [(t, v)];
    assert forall j :: 0 <= j < |p| ==> p[j].0 != t by {
      forall j | 0 <= j < |p|
        ensures p[j].0 != t
      {
        assert p[j] == cur[j + 1];
      }
    }
    SetLast(p, t, v, g(v));
    assert Moved(o[..n + 1], act, g) == m + [(t, g(v))];
  }

  /** Setting the key of the last entry, when no earlier entry has it,
      replaces only that entry's value. */
  lemma SetLast<V>(p: Obj<V>, t: string, v: V, w: V)
    requires forall j :: 0 <= j < |p| ==> p[j].0 != t
    ensures Set(p + [(t, v)], t, w) == p + [(t, w)]
  {
    var c := p + [(t, v)];
    SetAt(c, |p|, t, w);
    assert c[..|p|] == p;
    assert c[|p| + 1..] == [];
  }

  lemma FreshTarget<V>(o: Obj<V>, act: string -> Action, g: V -> V, n: nat)
    requires n < |o|
    requires forall i :: 0 <= i < |o| ==> act(o[i].0).MoveTo?
    requires forall i, j :: 0 <= i < j < |o| ==> act(o[i].0).target != act(o[j].0).target
    requires forall i, j :: 0 <= i < |o| && 0 <= j < |o| ==> act(o[i].0).target != o[j].0
    ensures forall j :: 0 <= j < |o[n..] + Moved(o[..n], act, g)| ==>
      (o[n..] + Moved(o[..n], act, g))[j].0 != act(o[n].0).target
  {
    var m := Moved(o[..n], act, g);
    var cur := o[n..] + m;
    var t := act(o[n].0).target;
    forall j | 0 <= j < |cur|
      ensures cur[j].0 != t
    {
      if j < |o| - n {
        assert cur[j] == o[n + j];
      } else {
        assert cur[j] == m[j - (|o| - n)];
        assert m[j - (|o| - n)].0 == act(o[j - (|o| - n)].0).target;
      }
    }
  }

  lemma HeadOnly<V>(o: Obj<V>, act: string -> Action, g: V -> V, n: nat)
    requires n < |o|
    requires WellFormed(o)
    requires forall i :: 0 <= i < |o| ==> act(o[i].0).MoveTo?
    requires forall i, j :: 0 <= i < |o| && 0 <= j < |o| ==> act(o[i].0).target != o[j].0
    ensures forall j :: 1 <= j < |o[n..] + Moved(o[..n], act, g) + [(act(o[n].0).target, o[n].1)]| ==>
      (o[n..] + Moved(o[..n], act, g) + [(act(o[n].0).target, o[n].1)])[j].0 != o[n].0
  {
    var m := Moved(o[..n], act, g);
    var c1 := o[n..] + m + [(act(o[n].0).target, o[n].1)];
    var k := o[n].0;
    forall j | 1 <= j < |c1|
      ensures c1[j].0 != k
    {
      if j < |o| - n {
        assert c1[j] == o[n + j];
      } else if j < |o| - n + |m| {
        assert c1[j] == m[j - (|o| - n)];
        assert m[j - (|o| - n)].0 == act(o[j - (|o| - n)].0).target;
      }
    }
  }

  /** Moving every entry to fresh, distinct keys and then moving each back to
      its original key, undoing the value rewrite, restores the object. */
  lemma MoveThereAndBack<V>(o: Obj<V>, a1: string -> Action, g1: V -> V, a2: string -> Action, g2: V -> V)
    requires WellFormed(o)
    requires forall i :: 0 <= i < |o| ==> a1(o[i].0).MoveTo?
    requires forall i, j :: 0 <= i < j < |o| ==> a1(o[i].0).target != a1(o[j].0).target
    requires forall i, j :: 0 <= i < |o| && 0 <= j < |o| ==> a1(o[i].0).target != o[j].0
    requires forall i :: 0 <= i < |o| ==> a2(a1(o[i].0).target) == MoveTo(o[i].0)
    requires forall i :: 0 <= i < |o| ==> g2(g1(o[i].1)) == o[i].1
    ensures Rename(Rename(o, a1, g1), a2, g2) == o
  {
    RenameAllMoved(o, a1, g1);
    var m := Moved(o, a1, g1);
    assert forall i :: 0 <= i < |m| ==> m[i] == (a1(o[i].0).target, g1(o[i].1));
    RenameAllMoved(m, a2, g2);
    var back := Moved(m, a2, g2);
    assert forall i :: 0 <= i < |o| ==> back[i] == o[i];
  }

  /** Rewriting entries in place twice, where the second pass undoes the first,
      restores the object. */
  lemma KeepThereAndBack<V>(o: Obj<V>, a1: string -> Action, g1: V -> V, a2: string -> Action, g2: V -> V)
    requires WellFormed(o)
    requires forall i :: 0 <= i < |o| ==> !a1(o[i].0).MoveTo? && !a2(o[i].0).MoveTo?
    requires forall i :: 0 <= i < |o| ==> a1(o[i].0).Keep? ==> a2(o[i].0).Keep? && g2(g1(o[i].1)) == o[i].1
    requires forall i :: 0 <= i < |o| ==> a1(o[i].0).Skip? ==> a2(o[i].0).Skip?
    ensures Rename(Rename(o, a1, g1), a2, g2) == o
  {
    RenameInPlace(o, a1, g1);
    var u := Updated(o, a1, g1);
    assert forall i :: 0 <= i < |u| ==> u[i].0 == o[i].0;
    RenameInPlace(u, a2, g2);
    var back := Updated(u, a2, g2);
    assert forall i :: 0 <= i < |o| ==> back[i] == o[i];
  }

  /** Every value rewritten under its own key. */
  function MapValues<V>(o: Obj<V>, g: V -> V): (r: Obj<V>)
    ensures Keys(r) == Keys(o)
    ensures |r| == |o| && forall i :: 0 <= i < |o| ==> r[i].1 == g(o[i].1)
  {
    seq(|o|, i requires 0 <= i < |o| => (o[i].0, g(o[i].1)))
  }

  lemma {:induction false} GetMapValues<V>(o: Obj<V>, g: V -> V, k: string)
    ensures Get(MapValues(o, g), k) == match Get(o, k) case None => None case Some(v) => Some(g(v))
    decreases |o|
  {
    if |o| > 0 {
      GetMapValues(o[1..], g, k);
      assert MapValues(o, g)[1..] == MapValues(o[1..], g);
    }
  }
}

=== FILE: operations.dfy ===
/** The operations object an updater receives for one data source: saves and
    deletes forwarded to the sources update, and a replace-all generation
    marker (the nonce) that tags every saved document until the stale ones
    are swept. */
module Operations {
  import opened Base
  import opened Json
  import SU = SourcesUpdates

  /** `Number.MAX_SAFE_INTEGER`. */
  const MaxSafeInteger: int := 9007199254740991

  /** The private state of one operations object. */
  datatype Ops = Ops(sourceId: Option<string>, nonce: Option<int>)

  /** `Operations.create(sourcesUpdate, sourceId)`: no nonce yet. */
  function Create(sourceId: Option<string>): (o: Ops)
    ensures o.nonce.None? && o.sourceId == sourceId
  {
    Ops(sourceId, None)
  }

  /** `save(type, id, doc)`: forwarded with this object's source and current
      nonce; `searchDoc` stands for the search projection of the document. */
  function Save(o: Ops, su: SU.SourcesUpdate, typ: Option<string>, id: Option<string>, doc: Value, searchDoc: Value)
    : (r: Result<SU.SourcesUpdate, Error>)
    ensures r.Ok? && searchDoc.Truthy() ==>
      |r.value.log| > |su.log| && r.value.log[|su.log|] == SU.SaveDocument(SU.DocContext(typ, id, o.sourceId, o.nonce, Some(doc)))
    ensures r.Ok? ==> (su.log <= r.value.log
      && forall j :: |su.log| <= j < |r.value.log| ==> Tagged(r.value.log[j], o.sourceId, o.nonce))
  {
    SU.Add(su, typ, id, doc, o.sourceId, o.nonce, searchDoc)
  }

  /** `delete(type, id)`: forwarded by type and id only. */
  function Delete(o: Ops, su: SU.SourcesUpdate, typ: Option<string>, id: Option<string>)
    : (r: Result<SU.SourcesUpdate, Error>)
    ensures r.Ok? ==> (|r.value.log| > |su.log|
      && r.value.log[|su.log|] == SU.DeleteDocument(SU.DocContext(typ, id, None, None, None)))
    ensures r.Ok? ==> (su.log <= r.value.log
      && forall j :: |su.log| <= j < |r.value.log| ==> Tagged(r.value.log[j], o.sourceId, o.nonce))
  {
    SU.Delete(su, typ, id)
  }

  /** `beginReplaceAll()`: a fresh nonce `floor(MAX_SAFE_INTEGER * random)`,
      where `random` is what `Math.random()` returned. */
  function BeginReplaceAll(o: Ops, random: real): (r: Ops)
    requires 0.0 <= random < 1.0
    ensures r.sourceId == o.sourceId
    ensures r.nonce.Some? && 0 <= r.nonce.value < MaxSafeInteger
  {
    var x := MaxSafeInteger as real * random;
    assert x < MaxSafeInteger as real;
    Ops(o.sourceId, Some(x.Floor))
  }

  /** The message thrown by a sweep without a nonce. */
  const NoReplaceAll: string := "tried to finishReplaceAll when there was no beginReplaceAll"

  /** `finishReplaceAll()`: refused unless the nonce is truthy (so also when
      the minted nonce is 0); otherwise the sources update sweeps this
      source's documents of other generations. The nonce is kept. */
  function FinishReplaceAll(o: Ops, su: SU.SourcesUpdate): (r: Result<SU.SourcesUpdate, Error>)
    ensures r.Err? <==> o.nonce.None? || o.nonce == Some(0)
    ensures r.Err? ==> r.error.Thrown?
    ensures r.Ok? ==> r.value.log == su.log + [SU.DeleteOlderGenerations(o.sourceId, o.nonce), SU.EmitDeleteAll(o.sourceId, o.nonce)]
  {
    if o.nonce.None? || o.nonce == Some(0) then Err(Thrown(NoReplaceAll))
    else Ok(SU.DeleteAllWithoutNonce(su, o.sourceId, o.nonce))
  }

  /** A nonce of 0 can be minted (when `Math.random()` returns 0), and then
      the sweep is refused although a replace-all was begun. */
  lemma ZeroNonceRefused(o: Ops, su: SU.SourcesUpdate)
    ensures BeginReplaceAll(o, 0.0).nonce == Some(0)
    ensures FinishReplaceAll(BeginReplaceAll(o, 0.0), su).Err?
  {
    assert (MaxSafeInteger as real * 0.0).Floor == 0;
  }

  // --------------------------------------------------- sequences of calls

  /** A call an updater makes on its operations object. */
  datatype Command =
    | SaveCmd(typ: Option<string>, id: Option<string>, doc: Value, searchDoc: Value)
    | DeleteCmd(typ: Option<string>, id: Option<string>)
    | BeginCmd(random: real)
    | FinishCmd

  predicate RandomInRange(c: Command) {
    c.BeginCmd? ==> 0.0 <= c.random < 1.0
  }

  /** The effect of one call. */
  function Step(o: Ops, su: SU.SourcesUpdate, c: Command): Result<(Ops, SU.SourcesUpdate), Error>
    requires RandomInRange(c)
  {
    match c
    case SaveCmd(t, i, d, sd) =>
      var su1 :- Save(o, su, t, i, d, sd);
      Ok((o, su1))
    case DeleteCmd(t, i) =>
      var su1 :- Delete(o, su, t, i);
      Ok((o, su1))
    case BeginCmd(x) => Ok((BeginReplaceAll(o, x), su))
    case FinishCmd =>
      var su1 :- FinishReplaceAll(o, su);
      Ok((o, su1))
  }

  /** Calls in order, stopping at the first that throws. */
  function Run(o: Ops, su: SU.SourcesUpdate, cs: seq<Command>): Result<(Ops, SU.SourcesUpdate), Error>
    requires forall i :: 0 <= i < |cs| ==> RandomInRange(cs[i])
    decreases |cs|
  {
    if |cs| == 0 then Ok((o, su))
    else
      var (o1, su1) :- Step(o, su, cs[0]);
      Run(o1, su1, cs[1..])
  }

  /** A save record carries the given source and generation; any other
      record carries no generation at all. */
  predicate Tagged(c: SU.Call, sourceId: Option<string>, nonce: Option<int>) {
    (c.SaveDocument? ==> c.context.sourceId == sourceId && c.context.generation == nonce)
    && (c.DeleteDocument? ==> c.context.sourceId.None? && c.context.generation.None?)
    && (c.DeleteOlderGenerations? ==> c.sourceId == sourceId && c.nonce == nonce)
  }

  /** Without a new `beginReplaceAll`, the nonce stays as it is (a sweep does
      not reset it), and every save and sweep the calls log carries this
      object's source and that nonce, while deletes carry neither. */
  lemma {:induction false} NonceTagsSaves(o: Ops, su: SU.SourcesUpdate, cs: seq<Command>)
    requires forall i :: 0 <= i < |cs| ==> RandomInRange(cs[i]) && !cs[i].BeginCmd?
    ensures var r := Run(o, su, cs);
      r.Ok? ==>
        (r.value.0 == o
        && su.log <= r.value.1.log
        && forall j :: |su.log| <= j < |r.value.1.log| ==> Tagged(r.value.1.log[j], o.sourceId, o.nonce))
    decreases |cs|
  {
    if |cs| > 0 {
      var s := Step(o, su, cs[0]);
      if s.Ok? {
        var su1 := s.value.1;
        assert s.value.0 == o;
        assert su.log <= su1.log;
        assert forall j :: |su.log| <= j < |su1.log| ==> Tagged(su1.log[j], o.sourceId, o.nonce);
        NonceTagsSaves(o, su1, cs[1..]);
        var r := Run(o, su, cs);
        if r.Ok? {
          assert r == Run(o, su1, cs[1..]);
          forall j | |su.log| <= j < |r.value.1.log|
            ensures Tagged(r.value.1.log[j], o.sourceId, o.nonce)
          {
            if j < |su1.log| {
              assert r.value.1.log[j] == su1.log[j];
            }
          }
        }
      }
    }
  }

  /** A fresh operations object saves with no generation until a
      replace-all begins; after `beginReplaceAll` every save, up to the next
      one, carries the minted nonce. */
  lemma ReplaceAllTagsSaves(sourceId: Option<string>, su: SU.SourcesUpdate, random: real, cs: seq<Command>)
    requires 0.0 <= random < 1.0
    requires forall i :: 0 <= i < |cs| ==> RandomInRange(cs[i]) && !cs[i].BeginCmd?
    ensures var r := Run(Create(sourceId), su, cs);
      r.Ok? ==> forall j :: |su.log| <= j < |r.value.1.log| ==> Tagged(r.value.1.log[j], sourceId, None)
    ensures var o := BeginReplaceAll(Create(sourceId), random);
      var r := Run(o, su, cs);
      r.Ok? ==> forall j :: |su.log| <= j < |r.value.1.log| ==> Tagged(r.value.1.log[j], sourceId, o.nonce)
  {
    NonceTagsSaves(Create(sourceId), su, cs);
    NonceTagsSaves(BeginReplaceAll(Create(sourceId), random), su, cs);
  }

  /** A sweep without a begun replace-all is refused and logs nothing. */
  lemma FinishWithoutBeginRefused(sourceId: Option<string>, su: SU.SourcesUpdate, cs: seq<Command>)
    requires forall i :: 0 <= i < |cs| ==> RandomInRange(cs[i]) && !cs[i].BeginCmd?
    ensures var r := Run(Create(sourceId), su, cs + [FinishCmd]);
      r.Err? || Run(Create(sourceId), su, cs).Err?
  {
    RunAppend(Create(sourceId), su, cs, FinishCmd);
    NonceTagsSaves(Create(sourceId), su, cs);
  }

  lemma {:induction false} RunAppend(o: Ops, su: SU.SourcesUpdate, cs: seq<Command>, c: Command)
    requires forall i :: 0 <= i < |cs| ==> RandomInRange(cs[i])
    requires RandomInRange(c)
    ensures Run(o, su, cs + [c]) ==
      match Run(o, su, cs)
      case Err(e) => Err(e)
      case Ok((o1, su1)) => Step(o1, su1, c)
    decreases |cs|
  {
    if |cs| == 0 {
      assert [c][1..] == [];
    } else {
      assert (cs + [c])[1..] == cs[1..] + [c];
      var s := Step(o, su, cs[0]);
      if s.Ok? {
        RunAppend(s.value.0, s.value.1, cs[1..], c);
      }
    }
  }
}

=== FILE: pending_change.dfy ===
/** The single-use change a writer prepares before the hub commits it: it holds
    the original and final documents, a finalizer and an aborter, and fires at
    most one of the two callbacks over its whole life. */
module PendingChanges {
  import opened Base
  import opened Objects
  import opened Json
  import opened Resources

  /** A callback supplied by a writer plugin, known only by its identity. */
  datatype Callback = Callback(name: string)

  /** The arguments of `searchers.createDocumentContext` for one side of a change. */
  datatype DocumentContext = DocumentContext(
    typ: Option<string>,
    id: Option<string>,
    sourceId: Option<string>,
    upstream: Option<Resource>)

  /** The instance state: the fixed slots the constructor assigns, the
      `isBulk` flag `finalize` records, and the option properties copied on. */
  datatype PendingChange = PendingChange(
    originalDocument: Option<Resource>,
    finalDocument: Option<Resource>,
    originalContext: Option<DocumentContext>,
    finalContext: Option<DocumentContext>,
    finalizer: Option<Callback>,
    aborter: Option<Callback>,
    isBulk: Option<bool>,
    copied: Obj<Value>)

  /** Names every instance answers with a non-null value whatever its state:
      the `serverProvidedValues` map, the class's own methods and the methods
      inherited from `Object.prototype`, including its legacy accessor
      helpers and the `__proto__` accessor, which answers the prototype. */
  const AlwaysPresent: set<string> := {
    "serverProvidedValues", "finalize", "abort", "constructor", "hasOwnProperty",
    "isPrototypeOf", "propertyIsEnumerable", "toString", "toLocaleString", "valueOf",
    "__proto__", "__defineGetter__", "__defineSetter__", "__lookupGetter__", "__lookupSetter__" }

  /** `this[k] != null` on the instance. */
  predicate Occupied(pc: PendingChange, k: string) {
    k in AlwaysPresent
    || (k == "originalDocument" && pc.originalDocument.Some?)
    || (k == "finalDocument" && pc.finalDocument.Some?)
    || (k == "_finalizer" && pc.finalizer.Some?)
    || (k == "_aborter" && pc.aborter.Some?)
    || (k == "originalDocumentContext" && pc.originalContext.Some?)
    || (k == "finalDocumentContext" && pc.finalContext.Some?)
    || (Get(pc.copied, k).Some? && !Get(pc.copied, k).value.Undefined? && !Get(pc.copied, k).value.Null?)
  }

  /** The context for one side of the change: only for a side that is present. */
  function ContextFor(doc: Option<Resource>, sourceId: Option<string>): (c: Option<DocumentContext>)
    ensures c.Some? <==> doc.Some?
    ensures c.Some? ==> (c.value.typ == doc.value.typ && c.value.id == doc.value.id
      && c.value.sourceId == sourceId && c.value.upstream == doc)
  {
    match doc
    case None => None
    case Some(d) => Some(DocumentContext(d.typ, d.id, sourceId, doc))
  }

  /** The option loop: each key of `opts`, in order, is copied onto the
      instance unless the instance already holds a non-null value under it. */
  function CopyOpts(pc: PendingChange, opts: Obj<Value>): (r: PendingChange)
    ensures r.(copied := pc.copied) == pc
    decreases |opts|
  {
    if |opts| == 0 then pc
    else
      var next := if Occupied(pc, opts[0].0) then pc else pc.(copied := Set(pc.copied, opts[0].0, opts[0].1));
      CopyOpts(next, opts[1..])
  }

  /** After the option loop, a key reads the option's value exactly when the
      option was given and the instance held nothing under that key; every
      other copied property reads as before. */
  lemma {:induction false} CopyOptsGet(pc: PendingChange, opts: Obj<Value>, k: string)
    requires WellFormed(opts)
    ensures Get(CopyOpts(pc, opts).copied, k) ==
      if Has(opts, k) && !Occupied(pc, k) then Get(opts, k) else Get(pc.copied, k)
    decreases |opts|
  {
    if |opts| > 0 {
      var k0 := opts[0].0;
      var next := if Occupied(pc, k0) then pc else pc.(copied := Set(pc.copied, k0, opts[0].1));
      assert WellFormed(opts[1..]);
      CopyOptsGet(next, opts[1..], k);
      OptsHead(opts, k);
      if k0 != k && !Occupied(pc, k0) {
        OccupiedAfterSet(pc, k0, opts[0].1, k);
        SetThenGet(pc.copied, k0, opts[0].1, k);
      } else if !Occupied(pc, k0) {
        SetThenGet(pc.copied, k0, opts[0].1, k);
      }
    }
  }

  /** How a well-formed object reads a key against its first entry. */
  lemma OptsHead(opts: Obj<Value>, k: string)
    requires WellFormed(opts) && |opts| > 0
    ensures k == opts[0].0 ==> !Has(opts[1..], k) && Get(opts, k) == Some(opts[0].1) && Has(opts, k)
    ensures k != opts[0].0 ==> Get(opts, k) == Get(opts[1..], k) && (Has(opts, k) <==> Has(opts[1..], k))
  {
    assert Keys(opts) == [opts[0].0] + Keys(opts[1..]);
  }

  /** Setting a copied property leaves every other name as occupied as it was. */
  lemma OccupiedAfterSet(pc: PendingChange, k0: string, v: Value, k: string)
    requires k0 != k
    ensures Occupied(pc.(copied := Set(pc.copied, k0, v)), k) == Occupied(pc, k)
  {
    SetThenGet(pc.copied, k0, v, k);
  }

  /** The message thrown without searchers or schema. */
  const MissingArguments: string := "PendingChange requires 'searchers' and 'schema' arguments."

  /** `new PendingChange({...})`: throws without searchers or schema; builds a
      document context for each side that is present; then copies the options. */
  function Construct(
    originalDocument: Option<Resource>, finalDocument: Option<Resource>,
    finalizer: Option<Callback>, aborter: Option<Callback>,
    hasSearchers: bool, hasSchema: bool, sourceId: Option<string>, opts: Obj<Value>): (r: Result<PendingChange, Error>)
    ensures r.Err? <==> !hasSearchers || !hasSchema
    ensures r.Ok? ==>
      r.value.originalDocument == originalDocument && r.value.finalDocument == finalDocument
      && r.value.originalContext == ContextFor(originalDocument, sourceId)
      && r.value.finalContext == ContextFor(finalDocument, sourceId)
      && r.value.finalizer == finalizer && r.value.aborter == aborter
      && r.value.isBulk.None?
  {
    if !hasSearchers || !hasSchema then
      Err(Thrown(MissingArguments))
    else
      var pc := PendingChange(originalDocument, finalDocument,
        ContextFor(originalDocument, sourceId), ContextFor(finalDocument, sourceId),
        finalizer, aborter, None, []);
      Ok(CopyOpts(pc, opts))
  }

  /** A freshly constructed change holds exactly the options whose keys were
      free on the bare instance. */
  lemma ConstructCopies(
    originalDocument: Option<Resource>, finalDocument: Option<Resource>,
    finalizer: Option<Callback>, aborter: Option<Callback>,
    sourceId: Option<string>, opts: Obj<Value>, k: string)
    requires WellFormed(opts)
    ensures var r := Construct(originalDocument, finalDocument, finalizer, aborter, true, true, sourceId, opts);
      var bare := PendingChange(originalDocument, finalDocument,
        ContextFor(originalDocument, sourceId), ContextFor(finalDocument, sourceId),
        finalizer, aborter, None, []);
      Get(r.value.copied, k) == if Has(opts, k) && !Occupied(bare, k) then Get(opts, k) else None
  {
    var bare := PendingChange(originalDocument, finalDocument,
      ContextFor(originalDocument, sourceId), ContextFor(finalDocument, sourceId),
      finalizer, aborter, None, []);
    CopyOptsGet(bare, opts, k);
  }

  /** `finalize(isBulk)`: both callbacks are cleared, the flag is recorded, and
      the finalizer that was held (if any) fires. */
  function Finalize(pc: PendingChange, isBulk: Option<bool>): (r: (PendingChange, Option<Callback>))
    ensures r.0.finalizer.None? && r.0.aborter.None?
    ensures r.0.isBulk == isBulk
    ensures r.0.(finalizer := pc.finalizer, aborter := pc.aborter, isBulk := pc.isBulk) == pc
    ensures r.1 == pc.finalizer
  {
    (pc.(finalizer := None, aborter := None, isBulk := isBulk), pc.finalizer)
  }

  /** `abort()`: both callbacks are cleared and the aborter that was held (if
      any) fires. */
  function Abort(pc: PendingChange): (r: (PendingChange, Option<Callback>))
    ensures r.0.finalizer.None? && r.0.aborter.None?
    ensures r.0.(finalizer := pc.finalizer, aborter := pc.aborter) == pc
    ensures r.1 == pc.aborter
  {
    (pc.(finalizer := None, aborter := None), pc.aborter)
  }

  datatype Call = FinalizeCall(isBulk: Option<bool>) | AbortCall

  function Fired(c: Option<Callback>): seq<Callback> {
    if c.Some? then [c.value] else []
  }

  function Apply(pc: PendingChange, c: Call): (PendingChange, Option<Callback>) {
    match c
    case FinalizeCall(b) => Finalize(pc, b)
    case AbortCall => Abort(pc)
  }

  /** A sequence of calls on one change: the final state and the callbacks
      that fired, in order. */
  function Run(pc: PendingChange, calls: seq<Call>): (PendingChange, seq<Callback>)
    decreases |calls|
  {
    if |calls| == 0 then (pc, [])
    else
      var step := Apply(pc, calls[0]);
      var rest := Run(step.0, calls[1..]);
      (rest.0, Fired(step.1) + rest.1)
  }

  /** Once both callbacks are cleared nothing fires again. */
  lemma {:induction false} ClearedFiresNothing(pc: PendingChange, calls: seq<Call>)
    requires pc.finalizer.None? && pc.aborter.None?
    ensures Run(pc, calls).1 == []
    ensures Run(pc, calls).0.finalizer.None? && Run(pc, calls).0.aborter.None?
    decreases |calls|
  {
    if |calls| > 0 {
      ClearedFiresNothing(Apply(pc, calls[0]).0, calls[1..]);
    }
  }

  /** Over any sequence of calls only the first call can fire a callback: the
      finalizer if it is `finalize`, the aborter if it is `abort`. So the two
      callbacks together run at most once. */
  lemma FiresAtMostOnce(pc: PendingChange, calls: seq<Call>)
    ensures |Run(pc, calls).1| <= 1
    ensures |calls| == 0 ==> Run(pc, calls).1 == []
    ensures |calls| > 0 && calls[0].FinalizeCall? ==> Run(pc, calls).1 == Fired(pc.finalizer)
    ensures |calls| > 0 && calls[0].AbortCall? ==> Run(pc, calls).1 == Fired(pc.aborter)
  {
    if |calls| > 0 {
      ClearedFiresNothing(Apply(pc, calls[0]).0, calls[1..]);
    }
  }

  /** In particular, finalizing and then aborting (the write paths' `finally`)
      never fires the aborter. */
  lemma FinalizeThenAbort(pc: PendingChange, isBulk: Option<bool>)
    ensures Run(pc, [FinalizeCall(isBulk), AbortCall]).1 == Fired(pc.finalizer)
  {
    FiresAtMostOnce(pc, [FinalizeCall(isBulk), AbortCall]);
  }
}

=== FILE: resources.dfy ===
/** JSON values and the JSON:API-like documents the hub moves around. */
module Json {
  import opened Objects

  /** A JavaScript value as a JSON document carries it; numbers are integers. */
  datatype Value =
    | Undefined
    | Null
    | Bool(b: bool)
    | Num(n: int)
    | Str(s: string)
    | Arr(items: seq<Value>)
    | Dict(entries: Obj<Value>)
  {
    /** JavaScript truthiness. */
    predicate Truthy() {
      match this
      case Undefined => false
      case Null => false
      case Bool(b) => b
      case Num(n) => n != 0
      case Str(s) => s != ""
      case Arr(_) => true
      case Dict(_) => true
    }
  }
}

module Resources {
  import opened Base
  import opened Objects
  import opened Json
  import opened Lists

  /** A resource linkage `{type, id}`. */
  datatype Ref = Ref(typ: Option<string>, id: Option<string>)

  /** The `data` member of a relationship object. */
  datatype Linkage =
    | NoData               // the member is absent
    | NullData             // `data: null`
    | ToOne(ref: Ref)
    | ToMany(refs: seq<Ref>)
  {
    predicate Truthy() { ToOne? || ToMany? }
  }

  /** The `links` member of a relationship object (only `related` is used). */
  datatype Links = NoLinks | Links(related: Option<string>)

  datatype Relationship = Relationship(data: Linkage, links: Links)

  /** A resource object; an absent `attributes` or `relationships` member is
      the empty object. An absent `meta` is kept apart from an empty one,
      because reading a member of it throws. */
  datatype Resource = Resource(
    typ: Option<string>,
    id: Option<string>,
    attributes: Obj<Value>,
    relationships: Obj<Relationship>,
    meta: Option<Obj<Value>>)

  /** `{data, included}`; an absent `included` is the empty list. */
  datatype Document = Document(data: Resource, included: seq<Resource>)

  /** The `${type}/${id}` string resources are compared by. */
  function Key(r: Resource): string {
    Text(r.typ) + "/" + Text(r.id)
  }

  function RefKey(r: Ref): string {
    Text(r.typ) + "/" + Text(r.id)
  }

  /** Rewrites the references of a truthy linkage; a missing or null linkage is
      left alone. */
  function MapLinkage(l: Linkage, f: Ref -> Ref): Linkage {
    match l
    case ToOne(x) => ToOne(f(x))
    case ToMany(refs) => ToMany(Map(refs, f))
    case _ => l
  }

  function MapData(rel: Relationship, f: Ref -> Ref): Relationship {
    rel.(data := MapLinkage(rel.data, f))
  }

  /** `lodash.get(resource, 'relationships.<name>.data')`. */
  function LinkageOf(r: Resource, name: string): Linkage {
    match Get(r.relationships, name)
    case None => NoData
    case Some(rel) => rel.data
  }

  /** `meta` as `lodash.get(resource, 'meta.<name>')` reads it: an absent
      `meta` has no members. */
  function MetaOf(r: Resource): Obj<Value> {
    if r.meta.Some? then r.meta.value else []
  }

  /** Every object inside the resource has distinct keys. */
  predicate WellFormedResource(r: Resource) {
    WellFormed(r.attributes) && WellFormed(r.relationships) && WellFormed(MetaOf(r))
  }

  predicate WellFormedDocument(d: Document) {
    WellFormedResource(d.data) && forall i :: 0 <= i < |d.included| ==> WellFormedResource(d.included[i])
  }
}

=== FILE: routers.dfy ===
/** The router map: how route paths and their query strings are joined, and
    how the routers of content types are walked, from the application card's
    type down, into one flat list of routes ordered most specific first. */
module Routers {
  import opened Base
  import opened Json
  import opened Strings
  import opened Lists
  import opened Sorting

  /** How many routers deep the walk may go before it gives up. */
  const MaxRouteDepth: nat := 50

  /** The message thrown past the depth bound. */
  const TooDeep: string := "Recursed through more than 50 routers when building routing map."

  /** The message thrown for a route without a path. */
  function MissingPath(typ: string): string {
    "The router for content type '" + typ + "' has a route that is missing a path."
  }

  /** The message thrown for a route whose path does not start with `/`. */
  function RelativePath(typ: string, path: string): string {
    "The path of the route for content type '" + typ + "' at path '" + path + "' does not begin with '/'."
  }

  // --------------------------------------------------------------- paths

  /** The part of `s` before its first `?`. */
  function PathPart(s: string): (r: string)
    ensures '?' !in r
  {
    SplitOn(s, '?')[0]
  }

  /** The part of `s` between its first and second `?`, empty without one. */
  function Query(s: string): (r: string)
    ensures '?' !in r
  {
    var parts := SplitOn(s, '?');
    if |parts| > 1 then parts[1] else ""
  }

  /** A route path as it is appended: the root path `/` adds nothing. */
  function Segment(p: string): string {
    if p == "/" then "" else p
  }

  /** Two query strings joined by `&`; an empty right side adds nothing and a
      leading `&` is dropped. */
  function JoinQueries(q1: string, q2: string): (q: string)
    ensures q1 == "" ==> q == q2
    ensures q2 == "" ==> q == if |q1| > 0 && q1[0] == '&' then q1[1..] else q1
    ensures q1 != "" && q1[0] != '&' && q2 != "" ==> q == q1 + "&" + q2
    ensures '?' !in q1 && '?' !in q2 ==> '?' !in q
  {
    var q := q1 + (if q2 != "" then "&" + q2 else "");
    if |q| > 0 && q[0] == '&' then q[1..] else q
  }

  /** `joinPath(part1, part2)`: the paths are concatenated and the query
      strings joined; a `?` is written only before a non-empty query. */
  function JoinPath(part1: string, part2: string): (r: string)
    ensures PathPart(r) == PathPart(part1) + Segment(PathPart(part2))
    ensures Query(r) == JoinQueries(Query(part1), Query(part2))
    ensures '?' in r <==> Query(r) != ""
  {
    var path := PathPart(part1) + Segment(PathPart(part2));
    var query := JoinQueries(Query(part1), Query(part2));
    SplitOnFree(path, '?');
    if query != "" then
      SplitOnOnce(path, query, '?');
      path + "?" + query
    else
      path
  }

  lemma {:induction false} SplitOnFree(s: string, c: char)
    requires c !in s
    ensures SplitOn(s, c) == [s]
    decreases |s|
  {
    if |s| > 0 {
      assert c !in s[1..];
      SplitOnFree(s[1..], c);
      assert [s[0]] + s[1..] == s;
    }
  }

  lemma {:induction false} SplitOnOnce(x: string, y: string, c: char)
    requires c !in x && c !in y
    ensures SplitOn(x + [c] + y, c) == [x, y]
    decreases |x|
  {
    var s := x + [c] + y;
    if |x| == 0 {
      assert s[1..] == y;
      SplitOnFree(y, c);
    } else {
      assert s[1..] == x[1..] + [c] + y;
      assert c !in x[1..];
      SplitOnOnce(x[1..], y, c);
      assert [x[0]] + x[1..] == x;
    }
  }

  /** Joining paths that carry no query is plain concatenation, the root
      path `/` on the right adding nothing. */
  lemma JoinPlainPaths(a: string, b: string)
    requires '?' !in a && '?' !in b
    ensures JoinPath(a, b) == a + Segment(b)
  {
    SplitOnFree(a, '?');
    SplitOnFree(b, '?');
    SplitOnFree(JoinPath(a, b), '?');
  }

  // ------------------------------------------------------ the route stack

  /** One level of a route stack: the path of the route taken, its query, and
      the content type whose router holds that route. */
  datatype Frame = Frame(path: string, query: Value, contentType: Option<string>)

  /** `buildPathFromRouteStack(stack)`: the stack holds the nearest route
      first and the root route last, and the paths are joined from the root
      down. */
  function BuildPath(stack: seq<Frame>): (r: string)
    ensures PathPart(r) == Mounted(stack)
    decreases |stack|
  {
    if |stack| == 0 then
      SplitOnFree("", '?');
      ""
    else
      JoinPath(BuildPath(stack[1..]), stack[0].path)
  }

  /** The path where a stack mounts its routes: the path parts of its routes
      from the root down, each root path `/` adding nothing. */
  function Mounted(stack: seq<Frame>): string
    decreases |stack|
  {
    if |stack| == 0 then "" else Mounted(stack[1..]) + Segment(PathPart(stack[0].path))
  }

  predicate PlainStack(stack: seq<Frame>) {
    forall i :: 0 <= i < |stack| ==> '?' !in stack[i].path
  }

  /** Without query strings a built path is exactly the mount path, with no
      `?` anywhere. */
  lemma {:induction false} BuildPlainPath(stack: seq<Frame>)
    requires PlainStack(stack)
    ensures BuildPath(stack) == Mounted(stack)
    ensures '?' !in BuildPath(stack)
    decreases |stack|
  {
    if |stack| > 0 {
      assert PlainStack(stack[1..]) by {
        forall i | 0 <= i < |stack[1..]|
          ensures '?' !in stack[1..][i].path
        {
          assert stack[1..][i] == stack[i + 1];
        }
      }
      BuildPlainPath(stack[1..]);
      JoinPlainPaths(BuildPath(stack[1..]), stack[0].path);
      SplitOnFree(stack[0].path, '?');
      assert '?' !in Segment(stack[0].path);
    }
  }

  // --------------------------------------------------------- the walk

  /** A route of a content type's router, as far as the walk looks at it: its
      `path`, the type named by its `query.filter.type.exact`, whether the
      routing package counts it canonical, and the query and extra parameters
      carried into the map. */
  datatype Route = Route(
    path: Option<string>,
    exactType: Option<string>,
    canonical: bool,
    query: Value,
    additionalParams: Value)

  /** An entry of the router map. */
  datatype Entry = Entry(
    contentType: Option<string>,
    path: string,
    routePathSegment: string,
    query: Value,
    additionalParams: Value,
    routeStack: seq<Frame>)

  /** What the walk asks of the schema: the router of a type (absent when the
      type or its router is), all content type names in schema order, and
      the default router that stands in for the application card's. */
  datatype Schema = Schema(
    routerOf: Option<string> -> Option<seq<Route>>,
    types: seq<string>,
    defaultRouter: seq<Route>)

  /** A route path is present, not empty, and starts with `/`. */
  predicate ValidPath(p: Option<string>) {
    Truthy(p) && p.value[0] == '/'
  }

  predicate AllValid(router: seq<Route>) {
    forall k :: 0 <= k < |router| ==> ValidPath(router[k].path)
  }

  /** The router the walk uses for a type: its own, else the default one at
      the top of the walk, else none. */
  function RouterFor(s: Schema, typ: Option<string>, stack: seq<Frame>): (r: Option<seq<Route>>)
    ensures s.routerOf(typ).Some? ==> r == s.routerOf(typ)
    ensures s.routerOf(typ).None? ==> (r.Some? <==> |stack| == 0)
  {
    match s.routerOf(typ)
    case Some(router) => Some(router)
    case None => if |stack| == 0 then Some(s.defaultRouter) else None
  }

  /** The route names a card type placeholder such as `:type`. */
  predicate AnyType(t: Option<string>) {
    Truthy(t) && t.value[0] == ':'
  }

  /** The content types of a stack, nearest first. */
  function Parents(stack: seq<Frame>): (r: seq<Option<string>>)
    ensures |r| == |stack|
    ensures forall i :: 0 <= i < |stack| ==> r[i] == stack[i].contentType
  {
    seq(|stack|, i requires 0 <= i < |stack| => stack[i].contentType)
  }

  /** The types a placeholder route may descend into below `stack`. */
  function Unvisited(stack: seq<Frame>): string -> bool {
    t => Some(t) !in Parents(stack)
  }

  /** `stack` is the bottom of `rs`: `rs` was reached from it. */
  predicate Extends(rs: seq<Frame>, stack: seq<Frame>) {
    |stack| <= |rs| && rs[|rs| - |stack|..] == stack
  }

  /** Every entry was reached from `stack` and sits within the depth bound. */
  predicate Below(es: seq<Entry>, stack: seq<Frame>) {
    forall k :: 0 <= k < |es| ==> Extends(es[k].routeStack, stack) && |es[k].routeStack| <= MaxRouteDepth
  }

  lemma BelowParent(es: seq<Entry>, f: Frame, stack: seq<Frame>)
    requires Below(es, [f] + stack)
    ensures Below(es, stack)
  {
    forall k | 0 <= k < |es|
      ensures Extends(es[k].routeStack, stack)
    {
      var rs := es[k].routeStack;
      assert rs[|rs| - |stack| - 1..] == [f] + stack;
      assert rs[|rs| - |stack|..] == rs[|rs| - |stack| - 1..][1..];
    }
  }

  /** The map entry of one route of the router of `typ` reached through `stack`. */
  function EntryOf(typ: Option<string>, stack: seq<Frame>, route: Route): (e: Entry)
    ensures e.routeStack == stack && e.contentType == typ && e.path != ""
  {
    var p := JoinPath(BuildPath(stack), Text(route.path));
    Entry(typ, if p == "" then "/" else p, Text(route.path), route.query, route.additionalParams, stack)
  }

  /** The entries of a router's own routes, leaving out those whose path led
      to routes further down. */
  function OwnEntries(typ: Option<string>, stack: seq<Frame>, router: seq<Route>, plucked: seq<string>)
    : (r: seq<Entry>)
    ensures |stack| <= MaxRouteDepth ==> Below(r, stack)
  {
    var kept := Filter(router, (route: Route) => Text(route.path) !in plucked);
    seq(|kept|, i requires 0 <= i < |kept| => EntryOf(typ, stack, kept[i]))
  }

  /** `_discoverRouters(schema, type, stack)`: the routes of `typ`'s router and,
      below each canonical one, the routes of the router of the type it
      leads to. Throws past the depth bound and on a route path that is
      missing or does not start with `/`; at the top the map is deduplicated
      by path and ordered most specific first. */
  function Discover(s: Schema, typ: Option<string>, stack: seq<Frame>): (r: Result<seq<Entry>, Error>)
    ensures |stack| > MaxRouteDepth ==> r.Err?
    ensures |stack| <= MaxRouteDepth && RouterFor(s, typ, stack).None? ==> r == Ok([])
    ensures r.Ok? ==> RouterFor(s, typ, stack).Some? ==> AllValid(RouterFor(s, typ, stack).value)
    ensures r.Ok? ==> Below(r.value, stack)
    ensures r.Ok? && |stack| == 0 ==> DistinctPaths(r.value) && RootLast(r.value)
    decreases MaxRouteDepth + 1 - |stack|, 2, 0
  {
    if |stack| > MaxRouteDepth then
      Err(Thrown(TooDeep))
    else
      match RouterFor(s, typ, stack)
      case None => Ok([])
      case Some(router) =>
        var w :- Walk(s, typ, stack, router, 0, [], []);
        var all := OwnEntries(typ, stack, router, w.1) + w.0;
        if |stack| == 0 then
          var r := Arrange(all);
          assert Below(r, stack) by {
            forall k | 0 <= k < |r|
              ensures Extends(r[k].routeStack, stack) && |r[k].routeStack| <= MaxRouteDepth
            {
              var n :| 0 <= n < |all| && all[n] == r[k];
            }
          }
          Ok(r)
        else
          Ok(all)
  }

  /** The loop over a router's routes from index `i`, collecting the routes
      found further down (`found`) and the paths that led to them (`plucked`). */
  function Walk(s: Schema, typ: Option<string>, stack: seq<Frame>, router: seq<Route>, i: nat,
                found: seq<Entry>, plucked: seq<string>)
    : (r: Result<(seq<Entry>, seq<string>), Error>)
    requires |stack| <= MaxRouteDepth && i <= |router|
    ensures r.Ok? ==> forall k :: i <= k < |router| ==> ValidPath(router[k].path)
    ensures r.Ok? && Below(found, stack) ==> Below(r.value.0, stack)
    decreases MaxRouteDepth + 1 - |stack|, 1, |router| - i
  {
    if i == |router| then Ok((found, plucked))
    else
      var route := router[i];
      if !Truthy(route.path) then
        Err(Thrown(MissingPath(Text(typ))))
      else if route.path.value[0] != '/' then
        Err(Thrown(RelativePath(Text(typ), route.path.value)))
      else if !route.canonical then
        Walk(s, typ, stack, router, i + 1, found, plucked)
      else
        var child := Frame(route.path.value, route.query, typ);
        if AnyType(route.exactType) then
          var d :- Sweep(s, stack, child, 0, []);
          BelowParent(d, child, stack);
          Walk(s, typ, stack, router, i + 1, found + d, plucked)
        else
          var d :- Discover(s, route.exactType, [child] + stack);
          BelowParent(d, child, stack);
          Walk(s, typ, stack, router, i + 1, found + d, if |d| > 0 then plucked + [route.path.value] else plucked)
  }

  /** The loop over all content types from index `j` for a placeholder route
      `child`, skipping every type already on the stack. */
  function Sweep(s: Schema, stack: seq<Frame>, child: Frame, j: nat, found: seq<Entry>)
    : (r: Result<seq<Entry>, Error>)
    requires |stack| <= MaxRouteDepth && j <= |s.types|
    ensures r.Ok? && Below(found, [child] + stack) ==> Below(r.value, [child] + stack)
    decreases MaxRouteDepth + 1 - |stack|, 0, |s.types| - j
  {
    if j == |s.types| then Ok(found)
    else if Some(s.types[j]) in Parents([child] + stack) then
      Sweep(s, stack, child, j + 1, found)
    else
      var d :- Discover(s, Some(s.types[j]), [child] + stack);
      Sweep(s, stack, child, j + 1, found + d)
  }

  /** Walking each of `ts` in turn below `stack`, stopping at the first throw. */
  function DiscoverEach(s: Schema, ts: seq<string>, stack: seq<Frame>): Result<seq<Entry>, Error>
    decreases |ts|
  {
    if |ts| == 0 then Ok([])
    else
      var d :- Discover(s, Some(ts[0]), stack);
      var rest :- DiscoverEach(s, ts[1..], stack);
      Ok(d + rest)
  }

  /** Filtering the types from index `j` looks at type `j` first. */
  lemma FilterFrom(ts: seq<string>, j: nat, p: string -> bool)
    requires j < |ts|
    ensures Filter(ts[j..], p) == if p(ts[j]) then [ts[j]] + Filter(ts[j + 1..], p) else Filter(ts[j + 1..], p)
  {
    assert ts[j..][0] == ts[j];
    assert ts[j..][1..] == ts[j + 1..];
  }

  /** One turn of the sweep over a type that is not on the stack. */
  lemma SweepVisits(s: Schema, stack: seq<Frame>, child: Frame, j: nat, found: seq<Entry>)
    requires |stack| <= MaxRouteDepth && j < |s.types|
    requires Some(s.types[j]) !in Parents([child] + stack)
    ensures Sweep(s, stack, child, j, found) ==
      var d := Discover(s, Some(s.types[j]), [child] + stack);
      if d.Ok? then Sweep(s, stack, child, j + 1, found + d.value) else Err(d.error)
  {
  }

  /** The sweep's result by its reference definition: the unvisited types
      from index `j` walked in turn, after what was already found. */
  function Expected(s: Schema, stack: seq<Frame>, child: Frame, j: nat, found: seq<Entry>): Result<seq<Entry>, Error>
    requires j <= |s.types|
  {
    Appended(found, DiscoverEach(s, Filter(s.types[j..], Unvisited([child] + stack)), [child] + stack))
  }

  /** `r`'s entries after `found`, or `r`'s error. */
  function Appended(found: seq<Entry>, r: Result<seq<Entry>, Error>): Result<seq<Entry>, Error> {
    if r.Ok? then Ok(found + r.value) else r
  }

  /** The entries of `d` then of `rest`, or the first error. */
  function Joined(d: Result<seq<Entry>, Error>, rest: Result<seq<Entry>, Error>): Result<seq<Entry>, Error> {
    if d.Err? then Err(d.error) else if rest.Err? then Err(rest.error) else Ok(d.value + rest.value)
  }

  lemma AppendedJoined(found: seq<Entry>, d: Result<seq<Entry>, Error>, rest: Result<seq<Entry>, Error>)
    ensures Appended(found, Joined(d, rest)) == if d.Ok? then Appended(found + d.value, rest) else Err(d.error)
  {
    if d.Ok? && rest.Ok? {
      assert found + d.value + rest.value == found + (d.value + rest.value);
    }
  }

  /** The reference definition skips a type on the stack. */
  lemma ExpectedSkips(s: Schema, stack: seq<Frame>, child: Frame, j: nat, found: seq<Entry>)
    requires j < |s.types| && !Unvisited([child] + stack)(s.types[j])
    ensures Expected(s, stack, child, j, found) == Expected(s, stack, child, j + 1, found)
  {
    FilterFrom(s.types, j, Unvisited([child] + stack));
  }

  /** One turn of walking a list of types. */
  lemma DiscoverEachCons(s: Schema, ts: seq<string>, stack: seq<Frame>)
    requires |ts| > 0
    ensures DiscoverEach(s, ts, stack) == Joined(Discover(s, Some(ts[0]), stack), DiscoverEach(s, ts[1..], stack))
  {
  }

  /** The reference definition walks a type not on the stack first. */
  lemma ExpectedVisits(s: Schema, stack: seq<Frame>, child: Frame, j: nat, found: seq<Entry>)
    requires j < |s.types| && Unvisited([child] + stack)(s.types[j])
    ensures Expected(s, stack, child, j, found) ==
      var d := Discover(s, Some(s.types[j]), [child] + stack);
      if d.Ok? then Expected(s, stack, child, j + 1, found + d.value) else Err(d.error)
  {
    var cs := [child] + stack;
    var p := Unvisited(cs);
    var ts := Filter(s.types[j..], p);
    assert ts[0] == s.types[j] && ts[1..] == Filter(s.types[j + 1..], p) by {
      FilterFrom(s.types, j, p);
    }
    DiscoverEachCons(s, ts, cs);
    AppendedJoined(found, Discover(s, Some(s.types[j]), cs), DiscoverEach(s, ts[1..], cs));
  }

  /** A placeholder route descends into exactly the content types that are
      not on the stack yet, in schema order: never into one of its own
      ancestors' types. */
  lemma {:induction false} SweepSkipsStack(s: Schema, stack: seq<Frame>, child: Frame, j: nat, found: seq<Entry>)
    requires |stack| <= MaxRouteDepth && j <= |s.types|
    ensures Sweep(s, stack, child, j, found) == Expected(s, stack, child, j, found)
    decreases |s.types| - j
  {
    if j == |s.types| {
      assert s.types[j..] == [];
      assert found + [] == found;
    } else if Some(s.types[j]) in Parents([child] + stack) {
      ExpectedSkips(s, stack, child, j, found);
      SweepSkipsStack(s, stack, child, j + 1, found);
    } else {
      SweepVisits(s, stack, child, j, found);
      ExpectedVisits(s, stack, child, j, found);
      var d := Discover(s, Some(s.types[j]), [child] + stack);
      if d.Ok? {
        SweepSkipsStack(s, stack, child, j + 1, found + d.value);
      }
    }
  }

  // ------------------------------------------------ ordering at the top

  function PathOf(e: Entry): string {
    e.path
  }

  /** The sort keys: the root path last, then more `/`, `?` and `&` pieces
      first, then deeper route stacks first. */
  function Specificity(e: Entry): seq<int> {
    [if e.path == "/" then 1 else 0,
     -(PieceCount(e.path, '/') as int),
     -(PieceCount(e.path, '?') as int),
     -(PieceCount(e.path, '&') as int),
     -(|e.routeStack| as int)]
  }

  predicate DistinctPaths(es: seq<Entry>) {
    forall i, j :: 0 <= i < j < |es| ==> es[i].path != es[j].path
  }

  /** A route for the root path `/`, if any, comes last. */
  predicate RootLast(es: seq<Entry>) {
    forall i :: 0 <= i < |es| && es[i].path == "/" ==> i == |es| - 1
  }

  /** The top-level arrangement: the first route of each path, sorted by
      specificity. The same paths stay, each once, the root path last, and a
      path with more `/` pieces before one with fewer. The route kept for a
      path is the first one discovered for it. */
  function Arrange(m: seq<Entry>): (r: seq<Entry>)
    ensures forall k :: 0 <= k < |r| ==> r[k] in m
    ensures forall k :: 0 <= k < |r| ==>
      FirstIndex(m, PathOf, r[k].path) < |m| && m[FirstIndex(m, PathOf, r[k].path)] == r[k]
    ensures Sorted(r, Specificity)
    ensures KeySet(r, PathOf) == KeySet(m, PathOf)
    ensures DistinctPaths(r)
    ensures RootLast(r)
    ensures forall i, j :: 0 <= i < j < |r| && r[j].path != "/" ==>
      PieceCount(r[i].path, '/') >= PieceCount(r[j].path, '/')
  {
    var u := UniqBy(m, PathOf);
    var r := SortByKey(u, Specificity);
    SameKeys(u, r);
    DistinctAfterSort(u, r);
    SortedRootLast(r);
    SortedBySlashes(r);
    FirstRoutes(m, u, r);
    r
  }

  /** Reordering the first route of each path keeps each one the first of its path. */
  lemma FirstRoutes(m: seq<Entry>, u: seq<Entry>, r: seq<Entry>)
    requires u == UniqBy(m, PathOf) && multiset(r) == multiset(u)
    ensures forall k :: 0 <= k < |r| ==>
      FirstIndex(m, PathOf, r[k].path) < |m| && m[FirstIndex(m, PathOf, r[k].path)] == r[k]
  {
    forall k | 0 <= k < |r|
      ensures FirstIndex(m, PathOf, r[k].path) < |m| && m[FirstIndex(m, PathOf, r[k].path)] == r[k]
    {
      assert r[k] in multiset(u);
      var i :| 0 <= i < |u| && u[i] == r[k];
      assert PathOf(u[i]) == r[k].path;
    }
  }

  lemma SortedRootLast(r: seq<Entry>)
    requires Sorted(r, Specificity) && DistinctPaths(r)
    ensures RootLast(r)
  {
    forall i | 0 <= i < |r| - 1
      ensures r[i].path != "/"
    {
      assert LexLe(Specificity(r[i]), Specificity(r[i + 1]));
    }
  }

  lemma SortedBySlashes(r: seq<Entry>)
    requires Sorted(r, Specificity)
    ensures forall i, j :: 0 <= i < j < |r| && r[j].path != "/" ==>
      PieceCount(r[i].path, '/') >= PieceCount(r[j].path, '/')
  {
    forall i, j | 0 <= i < j < |r| && r[j].path != "/"
      ensures PieceCount(r[i].path, '/') >= PieceCount(r[j].path, '/')
    {
      var a := Specificity(r[i]);
      var b := Specificity(r[j]);
      assert LexLe(a, b);
      assert a[0] == 0 && b[0] == 0;
      assert LexLe(a[1..], b[1..]);
    }
  }

  /** A permutation keeps the set of paths. */
  lemma SameKeys(u: seq<Entry>, r: seq<Entry>)
    requires multiset(r) == multiset(u)
    ensures KeySet(r, PathOf) == KeySet(u, PathOf)
    ensures forall k :: 0 <= k < |r| ==> r[k] in u
  {
    forall k | 0 <= k < |r|
      ensures r[k] in u
    {
      assert r[k] in multiset(r);
    }
    forall x | x in KeySet(u, PathOf)
      ensures x in KeySet(r, PathOf)
    {
      var i :| 0 <= i < |u| && PathOf(u[i]) == x;
      assert u[i] in multiset(u);
      var j :| 0 <= j < |r| && r[j] == u[i];
    }
  }

  /** A permutation of routes with distinct paths has distinct paths. */
  lemma DistinctAfterSort(u: seq<Entry>, r: seq<Entry>)
    requires multiset(r) == multiset(u)
    requires forall i, j :: 0 <= i < j < |u| ==> PathOf(u[i]) != PathOf(u[j])
    ensures DistinctPaths(r)
  {
    forall i, j | 0 <= i < j < |r|
      ensures r[i].path != r[j].path
    {
      assert r[i] in multiset(u) && r[j] in multiset(u);
      if r[i] == r[j] {
        assert r == r[..j] + r[j..];
        assert r[i] in r[..j] && r[j] in r[j..];
        assert multiset(r)[r[i]] == multiset(r[..j])[r[i]] + multiset(r[j..])[r[i]];
        AtMostOnce(u, r[i]);
      } else {
        var a :| 0 <= a < |u| && u[a] == r[i];
        var b :| 0 <= b < |u| && u[b] == r[j];
      }
    }
  }

  lemma {:induction false} AtMostOnce(u: seq<Entry>, x: Entry)
    requires forall i, j :: 0 <= i < j < |u| ==> PathOf(u[i]) != PathOf(u[j])
    ensures multiset(u)[x] <= 1
    decreases |u|
  {
    if |u| > 0 {
      assert u == [u[0]] + u[1..];
      AtMostOnce(u[1..], x);
      if u[0] == x {
        assert x !in u[1..];
      }
    }
  }
}

=== FILE: schema_delete.dfy ===
/** Deleting the internal resources of a card: internal models first, then the
    card's schema, content types before the fields they refer to. */
module SchemaDelete {
  import opened Base
  import opened Strings
  import opened Objects
  import opened Json
  import opened Resources
  import opened CardIdentity
  import opened Lists
  import opened Sorting

  const ContentTypes: Option<string> := Some("content-types")
  const Fields: Option<string> := Some("fields")

  /** The type the delete order reads: computed fields count as fields. */
  function Normalize(t: Option<string>): (r: Option<string>)
    ensures r == Fields <==> t == Fields || t == Some("computed-fields")
    ensures r == ContentTypes <==> t == ContentTypes
  {
    if t == Some("computed-fields") then Fields else t
  }

  // ------------------------------------------------------- the comparator

  /** `sortSchemaForDelete(a, b)`: content types before fields, and no
      preference between any other two resources. */
  function CompareForDelete(a: Resource, b: Resource): (r: int)
    ensures r == -1 <==> Normalize(a.typ) == ContentTypes && Normalize(b.typ) == Fields
    ensures r == 1 <==> Normalize(a.typ) == Fields && Normalize(b.typ) == ContentTypes
    ensures r == 0 || r == -1 || r == 1
  {
    var ta := Normalize(a.typ);
    var tb := Normalize(b.typ);
    if ta == ContentTypes && tb == Fields then -1
    else if ta == Fields && tb == ContentTypes then 1
    else 0
  }

  function Typed(t: string): Resource {
    Resource(Some(t), Some(t), [], [], Some([]))
  }

  /** The comparator is not consistent: a content type and a field are each
      equal to a third resource but not to each other, so the language leaves
      the order of a sort with it to the implementation. */
  lemma CompareIsInconsistent()
    ensures CompareForDelete(Typed("content-types"), Typed("grants")) == 0
    ensures CompareForDelete(Typed("grants"), Typed("fields")) == 0
    ensures CompareForDelete(Typed("content-types"), Typed("fields")) == -1
  {
  }

  /** A stable insertion sort that trusts the comparator leaves a field ahead
      of a content type when another schema resource sits between them. */
  lemma SortAsWrittenKeepsFieldFirst()
    ensures var s := [Typed("fields"), Typed("grants"), Typed("content-types")];
      SortByComparator(s, CompareForDelete) == s
  {
    var s := [Typed("fields"), Typed("grants"), Typed("content-types")];
    assert SortByComparator(s[2..], CompareForDelete) == s[2..];
    assert SortByComparator(s[1..], CompareForDelete) == s[1..];
  }

  // ----------------------------------------------- the intended delete order

  /** The position of a resource in the delete order: content types, then
      every other schema resource, then fields. */
  function DeleteRank(r: Resource): int {
    var t := Normalize(r.typ);
    if t == ContentTypes then 0 else if t == Fields then 2 else 1
  }

  function RankKey(r: Resource): seq<int> {
    [DeleteRank(r)]
  }

  /** No field comes before a content type. */
  predicate ContentTypesFirst(s: seq<Resource>) {
    forall i, j :: 0 <= i < j < |s| ==>
      !(Normalize(s[i].typ) == Fields && Normalize(s[j].typ) == ContentTypes)
  }

  /** The schema resources in delete order: a permutation in which every
      content type precedes every field. */
  function SortForDelete(s: seq<Resource>): (r: seq<Resource>)
    ensures multiset(r) == multiset(s)
    ensures ContentTypesFirst(r)
  {
    var r := SortByKey(s, RankKey);
    assert forall i, j :: 0 <= i < j < |r| ==> LexLe(RankKey(r[i]), RankKey(r[j]));
    r
  }

  /** Wherever the source's comparator states a preference, the delete order
      follows it. */
  lemma SortForDeleteAgreesWithComparator(s: seq<Resource>)
    ensures var r := SortForDelete(s);
      forall i, j :: 0 <= i < j < |r| ==> CompareForDelete(r[i], r[j]) <= 0
  {
  }

  // ------------------------------------------------- the delete procedure

  /** One call the procedure makes, in order. A delete's `version` is what
      reading its argument `resource.meta.version` gives: an `Err` means the
      read threw, so the call is never made. */
  datatype DeleteStep =
    | DeleteResource(version: Result<Option<Value>, Error>, typ: Option<string>, id: Option<string>) // `this.delete(session, version, type, id, schema)`
    | ResaveField(resource: Resource)                                                                 // `this.update(...)` of a field with its related types cleared
    | DropContentTypes(ids: seq<Option<string>>)                                                      // `schema.applyChanges` removing the card content types

  /** The delete of one resource: `resource.meta.version` is a TypeError on a
      resource without `meta`, and otherwise the version it holds, if any. */
  function DeleteOf(r: Resource): (step: DeleteStep)
    ensures step.DeleteResource? && step.typ == r.typ && step.id == r.id
    ensures step.version.Err? <==> r.meta.None?
    ensures step.version.Err? ==> step.version.error == TypeFault
  {
    match r.meta
    case None => DeleteResource(Err(TypeFault), r.typ, r.id)
    case Some(m) => DeleteResource(Ok(Get(m, "version")), r.typ, r.id)
  }

  /** A step whose arguments cannot be read: it throws instead of running. */
  predicate Faults(step: DeleteStep) {
    step.DeleteResource? && step.version.Err?
  }

  /** The calls actually made: the procedure runs its calls in order and stops
      with the error at the first one whose arguments throw. */
  function Performed(steps: seq<DeleteStep>): (r: (seq<DeleteStep>, Option<Error>))
    ensures |r.0| <= |steps| && r.0 == steps[..|r.0|]
    ensures forall i :: 0 <= i < |r.0| ==> !Faults(r.0[i])
    ensures r.1.None? <==> forall i :: 0 <= i < |steps| ==> !Faults(steps[i])
    ensures r.1.None? ==> r.0 == steps
    ensures r.1.Some? ==> |r.0| < |steps| && Faults(steps[|r.0|]) && r.1 == Some(steps[|r.0|].version.error)
    decreases |steps|
  {
    if |steps| == 0 then ([], None)
    else if Faults(steps[0]) then ([], Some(steps[0].version.error))
    else
      var rest := Performed(steps[1..]);
      assert forall i :: 1 <= i < |steps| ==> steps[i] == steps[1..][i - 1];
      ([steps[0]] + rest.0, rest.1)
  }

  function DeletesOf(rs: seq<Resource>): (steps: seq<DeleteStep>)
    ensures |steps| == |rs|
    ensures forall i :: 0 <= i < |rs| ==> steps[i] == DeleteOf(rs[i])
  {
    seq(|rs|, i requires 0 <= i < |rs| => DeleteOf(rs[i]))
  }

  /** `get(i, 'relationships.related-types.data.length') || 0`. */
  function RelatedTypesCount(r: Resource): nat {
    match LinkageOf(r, "related-types")
    case ToMany(refs) => |refs|
    case _ => 0
  }

  /** `set(resource, 'relationships.related-types.data', [])`. */
  function ClearRelatedTypes(r: Resource): (out: Resource)
    ensures out.typ == r.typ && out.id == r.id && out.meta == r.meta
    ensures RelatedTypesCount(out) == 0
  {
    var rel := match Get(r.relationships, "related-types")
      case Some(existing) => existing.(data := ToMany([]))
      case None => Relationship(ToMany([]), NoLinks);
    SetThenGet(r.relationships, "related-types", rel, "related-types");
    r.(relationships := Set(r.relationships, "related-types", rel))
  }

  /** `s[s.findIndex(i => key(i) === k)] = v`: the first element with the key
      is replaced; when there is none the list is unchanged. */
  function ReplaceFirst(s: seq<Resource>, k: string, v: Resource): (r: seq<Resource>)
    ensures |r| == |s|
    ensures forall i :: 0 <= i < |s| ==>
      r[i] == (if Key(s[i]) == k && NoKeyBefore(s, k, i) then v else s[i])
    ensures forall i :: 0 <= i < |s| ==> r[i] == s[i] || r[i] == v
    decreases |s|
  {
    if |s| == 0 then []
    else if Key(s[0]) == k then [v] + s[1..]
    else
      var rest := ReplaceFirst(s[1..], k, v);
      assert forall i :: 1 <= i < |s| ==> (NoKeyBefore(s, k, i) <==> NoKeyBefore(s[1..], k, i - 1));
      [s[0]] + rest
  }

  /** No element before index `i` has the key `k`. */
  predicate NoKeyBefore(s: seq<Resource>, k: string, i: int)
    requires 0 <= i <= |s|
  {
    forall j :: 0 <= j < i ==> Key(s[j]) != k
  }

  /** The loop over fields with related types: each is cleared and re-saved,
      and what the save hands back replaces it in the list to delete. */
  function Resave(list: seq<Resource>, fields: seq<Resource>, saved: Resource -> Resource): (r: (seq<DeleteStep>, seq<Resource>))
    ensures |r.0| == |fields|
    ensures forall i :: 0 <= i < |fields| ==> r.0[i] == ResaveField(ClearRelatedTypes(fields[i]))
    ensures |r.1| == |list|
    ensures forall i :: 0 <= i < |r.1| ==>
      r.1[i] == list[i] || exists j :: 0 <= j < |fields| && r.1[i] == saved(ClearRelatedTypes(fields[j]))
    decreases |fields|
  {
    if |fields| == 0 then ([], list)
    else
      var cleared := ClearRelatedTypes(fields[0]);
      var next := ReplaceFirst(list, Key(fields[0]), saved(cleared));
      var rest := Resave(next, fields[1..], saved);
      ResavedFrom(list, next, fields, fields[1..], saved, rest.1);
      ([ResaveField(cleared)] + rest.0, rest.1)
  }

  /** One turn of the re-save loop: an entry of the final list is the
      original, the first field's re-save, or a later field's re-save. */
  lemma ResavedFrom(list: seq<Resource>, next: seq<Resource>, fields: seq<Resource>, tail: seq<Resource>,
                    saved: Resource -> Resource, out: seq<Resource>)
    requires |fields| > 0 && tail == fields[1..]
    requires |next| == |list| && forall i :: 0 <= i < |list| ==> next[i] == list[i] || next[i] == saved(ClearRelatedTypes(fields[0]))
    requires |out| == |next|
    requires forall i :: 0 <= i < |out| ==>
      out[i] == next[i] || exists j :: 0 <= j < |tail| && out[i] == saved(ClearRelatedTypes(tail[j]))
    ensures forall i :: 0 <= i < |out| ==>
      out[i] == list[i] || exists j :: 0 <= j < |fields| && out[i] == saved(ClearRelatedTypes(fields[j]))
  {
    forall i | 0 <= i < |out|
      ensures out[i] == list[i] || exists j :: 0 <= j < |fields| && out[i] == saved(ClearRelatedTypes(fields[j]))
    {
      if out[i] != next[i] {
        var j :| 0 <= j < |tail| && out[i] == saved(ClearRelatedTypes(tail[j]));
        assert tail[j] == fields[j + 1];
      } else if next[i] != list[i] {
        assert out[i] == saved(ClearRelatedTypes(fields[0]));
      }
    }
  }

  /** A resource whose type lies inside a card: an internal model or a card model. */
  predicate InCard(r: Resource) {
    Truthy(GetCardId(r.typ))
  }

  predicate CardModel(r: Resource) {
    IsCard(r.typ, r.id)
  }

  predicate NotInCard(r: Resource) {
    !InCard(r)
  }

  predicate NotCardModel(r: Resource) {
    !CardModel(r)
  }

  predicate HasRelatedTypes(r: Resource) {
    r.typ == Fields && RelatedTypesCount(r) > 0
  }

  function CardIds(cards: seq<Resource>): (ids: seq<Option<string>>)
    ensures |ids| == |cards|
    ensures forall i :: 0 <= i < |cards| ==> ids[i] == cards[i].id
  {
    seq(|cards|, i requires 0 <= i < |cards| => cards[i].id)
  }

  /** The four lists the procedure works through. */
  datatype Plan = Plan(
    internal: seq<Resource>,       // internal models that are not card models
    resaves: seq<DeleteStep>,      // the re-saves of fields with related types
    cards: seq<Resource>,          // card models, whose content types are removed
    schema: seq<Resource>)         // schema resources, after the re-saves

  function PlanOf(deleted: seq<Resource>, saved: Resource -> Resource): Plan {
    var models := Filter(deleted, InCard);
    var schemaToDelete := Filter(deleted, NotInCard);
    var fields := Filter(schemaToDelete, HasRelatedTypes);
    var resaved := Resave(schemaToDelete, fields, saved);
    Plan(Filter(models, NotCardModel), resaved.0, Filter(models, CardModel), resaved.1)
  }

  /** The calls of a plan whose schema resources are deleted in the order
      `sorted`. */
  function StepsOf(p: Plan, sorted: seq<Resource>): seq<DeleteStep> {
    DeletesOf(p.internal) + p.resaves
    + (if |p.cards| > 0 then [DropContentTypes(CardIds(p.cards))] else [])
    + DeletesOf(sorted)
  }

  /** `_deleteInternalCardResources(session, schema, deletedResources)` as the
      calls it makes: deletes of the non-card internal models; re-saves of the
      fields with related types; removal of the card content types when a card
      model is among the resources; deletes of the schema resources in the
      order `sort(sortSchemaForDelete)` gives them. `saved` stands for what the
      update of a re-saved field returns. */
  function DeleteInternalResources(deleted: seq<Resource>, saved: Resource -> Resource): seq<DeleteStep> {
    if |deleted| == 0 then []
    else
      var p := PlanOf(deleted, saved);
      StepsOf(p, SortByComparator(p.schema, CompareForDelete))
  }

  /** The same procedure with the schema resources deleted in the intended
      order, every content type before every field. */
  function DeleteInternalIntended(deleted: seq<Resource>, saved: Resource -> Resource): seq<DeleteStep> {
    if |deleted| == 0 then []
    else
      var p := PlanOf(deleted, saved);
      StepsOf(p, SortForDelete(p.schema))
  }

  /** Which stage of the procedure a call belongs to. */
  function Stage(step: DeleteStep): int {
    match step
    case DeleteResource(_, t, _) => if Truthy(GetCardId(t)) then 1 else 4
    case ResaveField(_) => 2
    case DropContentTypes(_) => 3
  }

  /** A card model's type always lies inside a card. */
  lemma CardModelInCard(r: Resource)
    requires CardModel(r)
    ensures InCard(r)
  {
    var parts := Split(r.id.value);
    var c := GetCardId(r.typ).value;
    assert Split(c) == parts[..3];
    assert c != "" by {
      assert Split("") == [""];
    }
  }

  /** What each list of the plan holds. */
  predicate PlanShaped(p: Plan) {
    (forall i :: 0 <= i < |p.internal| ==> InCard(p.internal[i]) && !CardModel(p.internal[i]))
    && (forall i :: 0 <= i < |p.resaves| ==> p.resaves[i].ResaveField?)
    && OutsideCards(p.schema)
  }

  /** No resource of the list lies inside a card. */
  predicate OutsideCards(s: seq<Resource>) {
    forall i :: 0 <= i < |s| ==> !InCard(s[i])
  }

  /** Reordering a list keeps it outside every card. */
  lemma OutsideCardsReordered(s: seq<Resource>, t: seq<Resource>)
    requires multiset(t) == multiset(s)
    requires OutsideCards(s)
    ensures OutsideCards(t)
  {
    forall i | 0 <= i < |t|
      ensures !InCard(t[i])
    {
      assert t[i] in multiset(t);
      var k :| 0 <= k < |s| && s[k] == t[i];
    }
  }

  lemma PlanIsShaped(deleted: seq<Resource>, saved: Resource -> Resource)
    requires forall r :: saved(r).typ == r.typ
    ensures PlanShaped(PlanOf(deleted, saved))
  {
    var models := Filter(deleted, InCard);
    var schemaToDelete := Filter(deleted, NotInCard);
    var fields := Filter(schemaToDelete, HasRelatedTypes);
    var internal := Filter(models, NotCardModel);
    forall i | 0 <= i < |internal|
      ensures InCard(internal[i])
    {
      FilterMembers(models, NotCardModel, internal[i]);
    }
    forall i | 0 <= i < |fields|
      ensures !InCard(fields[i])
    {
      FilterMembers(schemaToDelete, HasRelatedTypes, fields[i]);
    }
    ResavedOutsideCards(schemaToDelete, fields, saved);
  }

  /** Re-saving fields outside every card leaves the list outside every card. */
  lemma ResavedOutsideCards(list: seq<Resource>, fields: seq<Resource>, saved: Resource -> Resource)
    requires forall r :: saved(r).typ == r.typ
    requires forall i :: 0 <= i < |list| ==> !InCard(list[i])
    requires forall j :: 0 <= j < |fields| ==> !InCard(fields[j])
    ensures forall k :: 0 <= k < |Resave(list, fields, saved).1| ==> !InCard(Resave(list, fields, saved).1[k])
  {
    var r := Resave(list, fields, saved).1;
    forall k | 0 <= k < |r|
      ensures !InCard(r[k])
    {
      if r[k] != list[k] {
        var j :| 0 <= j < |fields| && r[k] == saved(ClearRelatedTypes(fields[j]));
      }
    }
  }

  /** Where an index of `a + b + c + d` falls. */
  lemma StageAt(a: seq<DeleteStep>, b: seq<DeleteStep>, c: seq<DeleteStep>, d: seq<DeleteStep>, i: int)
    requires 0 <= i < |a| + |b| + |c| + |d|
    ensures var s := a + b + c + d;
      (i < |a| ==> s[i] == a[i])
      && (|a| <= i < |a| + |b| ==> s[i] == b[i - |a|])
      && (|a| + |b| <= i < |a| + |b| + |c| ==> s[i] == c[i - |a| - |b|])
      && (|a| + |b| + |c| <= i ==> s[i] == d[i - |a| - |b| - |c|])
  {
  }

  /** Four runs of calls, each of one stage, in stage order. */
  predicate Staged(a: seq<DeleteStep>, b: seq<DeleteStep>, c: seq<DeleteStep>, d: seq<DeleteStep>) {
    (forall i :: 0 <= i < |a| ==> Stage(a[i]) == 1)
    && (forall i :: 0 <= i < |b| ==> Stage(b[i]) == 2)
    && (forall i :: 0 <= i < |c| ==> Stage(c[i]) == 3)
    && (forall i :: 0 <= i < |d| ==> Stage(d[i]) == 4)
  }

  lemma StagedOrdered(a: seq<DeleteStep>, b: seq<DeleteStep>, c: seq<DeleteStep>, d: seq<DeleteStep>)
    requires Staged(a, b, c, d)
    ensures var s := a + b + c + d;
      (forall i, j :: 0 <= i < j < |s| ==> Stage(s[i]) <= Stage(s[j]))
      && (forall i :: 0 <= i < |s| && Stage(s[i]) == 4 ==> s[i] == d[i - |a| - |b| - |c|])
      && (forall i :: 0 <= i < |s| ==> s[i] in a || s[i] in b || s[i] in c || s[i] in d)
  {
    var s := a + b + c + d;
    forall i, j | 0 <= i < j < |s|
      ensures Stage(s[i]) <= Stage(s[j])
    {
      StageAt(a, b, c, d, i);
      StageAt(a, b, c, d, j);
    }
    forall i | 0 <= i < |s|
      ensures (Stage(s[i]) == 4 ==> s[i] == d[i - |a| - |b| - |c|])
      ensures s[i] in a || s[i] in b || s[i] in c || s[i] in d
    {
      StageAt(a, b, c, d, i);
    }
  }

  /** The parts of the call list, each holding calls of one stage. */
  lemma StepsStaged(p: Plan, sorted: seq<Resource>)
    requires PlanShaped(p) && OutsideCards(sorted)
    ensures var steps := StepsOf(p, sorted);
      var a := DeletesOf(p.internal);
      var b := p.resaves;
      var c := if |p.cards| > 0 then [DropContentTypes(CardIds(p.cards))] else [];
      var d := DeletesOf(sorted);
      steps == a + b + c + d && Staged(a, b, c, d)
  {
    InternalDeletes(p.internal);
    SchemaDeletes(sorted);
  }

  /** The calls run stage by stage, whatever the order of the schema deletes. */
  lemma StepsOrdered(p: Plan, sorted: seq<Resource>)
    requires PlanShaped(p) && OutsideCards(sorted)
    ensures var steps := StepsOf(p, sorted);
      forall i, j :: 0 <= i < j < |steps| ==> Stage(steps[i]) <= Stage(steps[j])
  {
    StepsStaged(p, sorted);
    StagedOrdered(DeletesOf(p.internal), p.resaves,
      if |p.cards| > 0 then [DropContentTypes(CardIds(p.cards))] else [],
      DeletesOf(sorted));
  }

  /** When the schema order puts content types first, no last-stage field
      delete comes before a content-type delete. */
  lemma StepsSchemaOrder(p: Plan, sorted: seq<Resource>)
    requires PlanShaped(p) && OutsideCards(sorted) && ContentTypesFirst(sorted)
    ensures var steps := StepsOf(p, sorted);
      forall i, j :: 0 <= i < j < |steps| && Stage(steps[i]) == 4 && Stage(steps[j]) == 4 ==>
        !(Normalize(steps[i].typ) == Fields && Normalize(steps[j].typ) == ContentTypes)
  {
    var d := DeletesOf(sorted);
    StepsStaged(p, sorted);
    forall i, j | 0 <= i < j < |d|
      ensures !(Normalize(d[i].typ) == Fields && Normalize(d[j].typ) == ContentTypes)
    {
      assert d[i].typ == sorted[i].typ && d[j].typ == sorted[j].typ;
    }
    StagedLastInOrder(DeletesOf(p.internal), p.resaves,
      if |p.cards| > 0 then [DropContentTypes(CardIds(p.cards))] else [], d);
  }

  /** The last-stage calls of staged runs keep the order of the last run. */
  lemma StagedLastInOrder(a: seq<DeleteStep>, b: seq<DeleteStep>, c: seq<DeleteStep>, d: seq<DeleteStep>)
    requires Staged(a, b, c, d)
    requires forall i, j :: 0 <= i < j < |d| ==> !(Normalize(d[i].typ) == Fields && Normalize(d[j].typ) == ContentTypes)
    ensures var s := a + b + c + d;
      forall i, j :: 0 <= i < j < |s| && Stage(s[i]) == 4 && Stage(s[j]) == 4 ==>
        !(Normalize(s[i].typ) == Fields && Normalize(s[j].typ) == ContentTypes)
  {
    var s := a + b + c + d;
    forall i, j | 0 <= i < j < |s| && Stage(s[i]) == 4 && Stage(s[j]) == 4
      ensures !(Normalize(s[i].typ) == Fields && Normalize(s[j].typ) == ContentTypes)
    {
      StageAt(a, b, c, d, i);
      StageAt(a, b, c, d, j);
    }
  }

  /** No delete call removes a card model itself. */
  lemma StepsKeepCards(p: Plan, sorted: seq<Resource>)
    requires PlanShaped(p) && OutsideCards(sorted)
    ensures var steps := StepsOf(p, sorted);
      forall i :: 0 <= i < |steps| && steps[i].DeleteResource? ==> !IsCard(steps[i].typ, steps[i].id)
  {
    var a := DeletesOf(p.internal);
    var b := p.resaves;
    var c := if |p.cards| > 0 then [DropContentTypes(CardIds(p.cards))] else [];
    var d := DeletesOf(sorted);
    StepsStaged(p, sorted);
    InternalDeletes(p.internal);
    SchemaDeletes(sorted);
    StagedOrdered(a, b, c, d);
    var steps := a + b + c + d;
    forall i | 0 <= i < |steps| && steps[i].DeleteResource?
      ensures !IsCard(steps[i].typ, steps[i].id)
    {
      assert steps[i] in a || steps[i] in d;
    }
  }

  /** The deletes of the internal models are all first-stage deletes of
      resources that are not card models. */
  lemma InternalDeletes(internal: seq<Resource>)
    requires forall i :: 0 <= i < |internal| ==> InCard(internal[i]) && !CardModel(internal[i])
    ensures var a := DeletesOf(internal);
      forall x :: x in a ==> Stage(x) == 1 && x.DeleteResource? && !IsCard(x.typ, x.id)
  {
    var a := DeletesOf(internal);
    forall x | x in a
      ensures Stage(x) == 1 && x.DeleteResource? && !IsCard(x.typ, x.id)
    {
      var i :| 0 <= i < |a| && a[i] == x;
      assert x == DeleteOf(internal[i]);
    }
  }

  /** The deletes of schema resources outside every card are all last-stage
      deletes of resources that are not card models. */
  lemma SchemaDeletes(sorted: seq<Resource>)
    requires OutsideCards(sorted)
    ensures var d := DeletesOf(sorted);
      forall x :: x in d ==> Stage(x) == 4 && x.DeleteResource? && !IsCard(x.typ, x.id)
  {
    var d := DeletesOf(sorted);
    forall x | x in d
      ensures Stage(x) == 4 && x.DeleteResource? && !IsCard(x.typ, x.id)
    {
      var i :| 0 <= i < |d| && d[i] == x;
      assert x == DeleteOf(sorted[i]);
      assert !InCard(sorted[i]);
      if IsCard(x.typ, x.id) {
        CardModelInCard(sorted[i]);
      }
    }
  }

  /** The procedure as written runs its stages in order and never deletes a
      card model itself. */
  lemma DeleteInternalOrder(deleted: seq<Resource>, saved: Resource -> Resource)
    requires forall r :: saved(r).typ == r.typ
    ensures var steps := DeleteInternalResources(deleted, saved);
      (forall i, j :: 0 <= i < j < |steps| ==> Stage(steps[i]) <= Stage(steps[j]))
      && (forall i :: 0 <= i < |steps| && steps[i].DeleteResource? ==> !IsCard(steps[i].typ, steps[i].id))
  {
    if |deleted| > 0 {
      var p := PlanOf(deleted, saved);
      var sorted := SortByComparator(p.schema, CompareForDelete);
      PlanIsShaped(deleted, saved);
      OutsideCardsReordered(p.schema, sorted);
      StepsOrdered(p, sorted);
      StepsKeepCards(p, sorted);
    }
  }

  /** The procedure as written can delete a field before a content type: a
      field, another schema resource and a content type, all outside every card
      and none with related types, reach the schema deletes in their input
      order. */
  lemma DeleteAsWrittenFieldFirst(f: Resource, g: Resource, c: Resource, saved: Resource -> Resource)
    requires Normalize(f.typ) == Fields && Normalize(c.typ) == ContentTypes
    requires Normalize(g.typ) != Fields && Normalize(g.typ) != ContentTypes
    requires !InCard(f) && !InCard(g) && !InCard(c)
    requires !HasRelatedTypes(f) && !HasRelatedTypes(g) && !HasRelatedTypes(c)
    ensures var steps := DeleteInternalResources([f, g, c], saved);
      steps == [DeleteOf(f), DeleteOf(g), DeleteOf(c)]
      && Stage(steps[0]) == 4 && Stage(steps[2]) == 4
      && Normalize(steps[0].typ) == Fields && Normalize(steps[2].typ) == ContentTypes
  {
    FieldFirstSteps(f, g, c, saved);
  }

  lemma FieldFirstSteps(f: Resource, g: Resource, c: Resource, saved: Resource -> Resource)
    requires Normalize(f.typ) == Fields && Normalize(c.typ) == ContentTypes
    requires Normalize(g.typ) != Fields && Normalize(g.typ) != ContentTypes
    requires !InCard(f) && !InCard(g) && !InCard(c)
    requires !HasRelatedTypes(f) && !HasRelatedTypes(g) && !HasRelatedTypes(c)
    ensures DeleteInternalResources([f, g, c], saved) == DeletesOf([f, g, c])
  {
    ThreeOutside(f, g, c);
    PlainSchemaPlan([f, g, c], saved);
    SortKeepsFieldFirst(f, g, c);
  }

  /** The comparator sees every neighbouring pair of a field, another schema
      resource and a content type as equal, so the sort keeps their order. */
  lemma SortKeepsFieldFirst(f: Resource, g: Resource, c: Resource)
    requires Normalize(f.typ) == Fields && Normalize(c.typ) == ContentTypes
    requires Normalize(g.typ) != Fields && Normalize(g.typ) != ContentTypes
    ensures SortByComparator([f, g, c], CompareForDelete) == [f, g, c]
  {
    var s := [f, g, c];
    assert SortByComparator(s[2..], CompareForDelete) == s[2..];
    assert SortByComparator(s[1..], CompareForDelete) == s[1..];
  }

  lemma ThreeOutside(a: Resource, b: Resource, c: Resource)
    requires !InCard(a) && !InCard(b) && !InCard(c)
    requires !HasRelatedTypes(a) && !HasRelatedTypes(b) && !HasRelatedTypes(c)
    ensures OutsideCards([a, b, c]) && NoneRelated([a, b, c])
  {
    var s := [a, b, c];
    forall i | 0 <= i < 3
      ensures !InCard(s[i]) && !HasRelatedTypes(s[i])
    {
      assert s[i] == (if i == 0 then a else if i == 1 then b else c);
    }
  }

  /** No resource of the list is a field with related types. */
  predicate NoneRelated(s: seq<Resource>) {
    forall i :: 0 <= i < |s| ==> !HasRelatedTypes(s[i])
  }

  /** Schema resources outside every card, none of them a field with related
      types, are the plan's schema list unchanged. */
  lemma PlainSchemaPlan(deleted: seq<Resource>, saved: Resource -> Resource)
    requires OutsideCards(deleted) && NoneRelated(deleted)
    ensures PlanOf(deleted, saved) == Plan([], [], [], deleted)
  {
    FilterAll(deleted, NotInCard);
    FilterNone(deleted, InCard);
    FilterNone(deleted, HasRelatedTypes);
  }

  /** The corrected procedure runs its stages in order, deletes every content
      type before every field, and never deletes a card model itself. */
  lemma DeleteIntendedOrder(deleted: seq<Resource>, saved: Resource -> Resource)
    requires forall r :: saved(r).typ == r.typ
    ensures var steps := DeleteInternalIntended(deleted, saved);
      (forall i, j :: 0 <= i < j < |steps| ==> Stage(steps[i]) <= Stage(steps[j]))
      && (forall i, j :: 0 <= i < j < |steps| && Stage(steps[i]) == 4 && Stage(steps[j]) == 4 ==>
            !(Normalize(steps[i].typ) == Fields && Normalize(steps[j].typ) == ContentTypes))
      && (forall i :: 0 <= i < |steps| && steps[i].DeleteResource? ==> !IsCard(steps[i].typ, steps[i].id))
  {
    if |deleted| > 0 {
      var p := PlanOf(deleted, saved);
      var sorted := SortForDelete(p.schema);
      PlanIsShaped(deleted, saved);
      OutsideCardsReordered(p.schema, sorted);
      StepsOrdered(p, sorted);
      StepsSchemaOrder(p, sorted);
      StepsKeepCards(p, sorted);
    }
  }

  /** The corrected procedure makes the same calls as the one as written and
      differs from it only in the order of the schema deletes. */
  lemma DeleteIntendedReorders(deleted: seq<Resource>, saved: Resource -> Resource)
    requires forall r :: saved(r).typ == r.typ
    ensures var w := DeleteInternalResources(deleted, saved);
      var c := DeleteInternalIntended(deleted, saved);
      |w| == |c|
      && (forall i :: 0 <= i < |w| && Stage(w[i]) < 4 ==> c[i] == w[i])
      && (forall x :: x in w <==> x in c)
  {
    if |deleted| > 0 {
      var p := PlanOf(deleted, saved);
      var x := SortByComparator(p.schema, CompareForDelete);
      var y := SortForDelete(p.schema);
      PlanIsShaped(deleted, saved);
      OutsideCardsReordered(p.schema, x);
      StepsStaged(p, x);
      StepsReordered(p, x, y);
    }
  }

  /** Two schema orders that are permutations of each other give call lists
      that agree before the schema deletes and hold the same calls. */
  lemma StepsReordered(p: Plan, x: seq<Resource>, y: seq<Resource>)
    requires multiset(x) == multiset(y)
    ensures var s := StepsOf(p, x);
      var t := StepsOf(p, y);
      |s| == |t|
      && (forall i :: 0 <= i < |s| - |x| ==> s[i] == t[i])
      && (forall z :: z in s <==> z in t)
  {
    var a := DeletesOf(p.internal) + p.resaves
      + (if |p.cards| > 0 then [DropContentTypes(CardIds(p.cards))] else []);
    assert StepsOf(p, x) == a + DeletesOf(x);
    assert StepsOf(p, y) == a + DeletesOf(y);
    assert |x| == |multiset(x)| == |y|;
    DeletesSameMembers(x, y);
  }

  lemma DeletesSameMembers(x: seq<Resource>, y: seq<Resource>)
    requires multiset(x) == multiset(y)
    ensures forall z :: z in DeletesOf(x) ==> z in DeletesOf(y)
    ensures forall z :: z in DeletesOf(y) ==> z in DeletesOf(x)
  {
    forall z | z in DeletesOf(x)
      ensures z in DeletesOf(y)
    {
      var i :| 0 <= i < |x| && DeletesOf(x)[i] == z;
      assert x[i] in multiset(y);
      var k :| 0 <= k < |y| && y[k] == x[i];
      assert DeletesOf(y)[k] == z;
    }
    forall z | z in DeletesOf(y)
      ensures z in DeletesOf(x)
    {
      var i :| 0 <= i < |y| && DeletesOf(y)[i] == z;
      assert y[i] in multiset(x);
      var k :| 0 <= k < |x| && x[k] == y[i];
      assert DeletesOf(x)[k] == z;
    }
  }

  /** Some resource of the list has no `meta`. */
  predicate MissingMeta(s: seq<Resource>) {
    exists i :: 0 <= i < |s| && s[i].meta.None?
  }

  /** The procedure as written throws a TypeError exactly when an internal
      model or a schema resource it deletes has no `meta`, and then makes no
      call from that delete on; otherwise it makes every call of its plan. */
  lemma DeleteInternalFaults(deleted: seq<Resource>, saved: Resource -> Resource)
    ensures var run := Performed(DeleteInternalResources(deleted, saved));
      var p := PlanOf(deleted, saved);
      (run.1.Some? <==> |deleted| > 0 && (MissingMeta(p.internal) || MissingMeta(p.schema)))
      && (run.1.Some? ==> run.1 == Some(TypeFault))
      && (run.1.None? ==> run.0 == DeleteInternalResources(deleted, saved))
  {
    if |deleted| > 0 {
      var p := PlanOf(deleted, saved);
      var sorted := SortByComparator(p.schema, CompareForDelete);
      assert DeleteInternalResources(deleted, saved) == StepsOf(p, sorted);
      PlanResaves(deleted, saved);
      StepsFault(p, sorted);
      MissingMetaReordered(p.schema, sorted);
    }
  }

  /** A call list faults exactly where a deleted resource has no `meta`, and
      each such fault is a TypeError. */
  lemma StepsFault(p: Plan, sorted: seq<Resource>)
    requires forall i :: 0 <= i < |p.resaves| ==> p.resaves[i].ResaveField?
    ensures var steps := StepsOf(p, sorted);
      ((exists i :: 0 <= i < |steps| && Faults(steps[i])) <==> MissingMeta(p.internal) || MissingMeta(sorted))
      && (forall i :: 0 <= i < |steps| && Faults(steps[i]) ==> steps[i].version.error == TypeFault)
  {
    var a := DeletesOf(p.internal);
    var b := p.resaves;
    var c := if |p.cards| > 0 then [DropContentTypes(CardIds(p.cards))] else [];
    var d := DeletesOf(sorted);
    var steps := a + b + c + d;
    assert steps == StepsOf(p, sorted);
    forall i | 0 <= i < |steps|
      ensures Faults(steps[i]) <==>
        (i < |a| && p.internal[i].meta.None?) || (|a| + |b| + |c| <= i && sorted[i - |a| - |b| - |c|].meta.None?)
      ensures Faults(steps[i]) ==> steps[i].version.error == TypeFault
    {
      if i < |a| {
        assert steps[i] == DeleteOf(p.internal[i]);
      } else if i < |a| + |b| {
        assert steps[i] == b[i - |a|];
      } else if i < |a| + |b| + |c| {
        assert steps[i] == c[i - |a| - |b|];
      } else {
        assert steps[i] == DeleteOf(sorted[i - |a| - |b| - |c|]);
      }
    }
    if MissingMeta(p.internal) {
      var k :| 0 <= k < |p.internal| && p.internal[k].meta.None?;
      assert Faults(steps[k]);
    }
    if MissingMeta(sorted) {
      var k :| 0 <= k < |sorted| && sorted[k].meta.None?;
      assert Faults(steps[|a| + |b| + |c| + k]);
    }
  }

  /** Reordering a list keeps whether a resource in it lacks `meta`. */
  lemma MissingMetaReordered(s: seq<Resource>, t: seq<Resource>)
    requires multiset(t) == multiset(s)
    ensures MissingMeta(t) <==> MissingMeta(s)
  {
    if MissingMeta(s) {
      var i :| 0 <= i < |s| && s[i].meta.None?;
      assert s[i] in multiset(t);
      var k :| 0 <= k < |t| && t[k] == s[i];
    }
    if MissingMeta(t) {
      var i :| 0 <= i < |t| && t[i].meta.None?;
      assert t[i] in multiset(s);
      var k :| 0 <= k < |s| && s[k] == t[i];
    }
  }

  /** Nothing is done for an empty list, and the content types of the card
      models are removed exactly when a card model is among the resources. */
  lemma DeleteInternalDropsContentTypes(deleted: seq<Resource>, saved: Resource -> Resource)
    ensures |deleted| == 0 ==> DeleteInternalResources(deleted, saved) == []
    ensures var steps := DeleteInternalResources(deleted, saved);
      (exists i :: 0 <= i < |steps| && steps[i].DropContentTypes?)
        <==> (exists k :: 0 <= k < |deleted| && CardModel(deleted[k]))
  {
    if |deleted| > 0 {
      var p := PlanOf(deleted, saved);
      var sorted := SortByComparator(p.schema, CompareForDelete);
      assert DeleteInternalResources(deleted, saved) == StepsOf(p, sorted);
      PlanResaves(deleted, saved);
      StepsDropIffCards(p, sorted);
      PlanCardsIffCardModel(deleted, saved);
    }
  }

  /** The plan's re-save list holds only re-saves. */
  lemma PlanResaves(deleted: seq<Resource>, saved: Resource -> Resource)
    ensures forall i :: 0 <= i < |PlanOf(deleted, saved).resaves| ==> PlanOf(deleted, saved).resaves[i].ResaveField?
  {
  }

  /** The call list removes content types exactly when the plan has card models. */
  lemma StepsDropIffCards(p: Plan, sorted: seq<Resource>)
    requires forall i :: 0 <= i < |p.resaves| ==> p.resaves[i].ResaveField?
    ensures var steps := StepsOf(p, sorted);
      (exists i :: 0 <= i < |steps| && steps[i].DropContentTypes?) <==> |p.cards| > 0
  {
    var a := DeletesOf(p.internal);
    var b := p.resaves;
    var c := if |p.cards| > 0 then [DropContentTypes(CardIds(p.cards))] else [];
    var d := DeletesOf(sorted);
    var steps := a + b + c + d;
    assert steps == StepsOf(p, sorted);
    if |p.cards| > 0 {
      assert steps[|a| + |b|] == c[0];
    }
    if exists i :: 0 <= i < |steps| && steps[i].DropContentTypes? {
      var i :| 0 <= i < |steps| && steps[i].DropContentTypes?;
      StageAt(a, b, c, d, i);
    }
  }

  /** The plan has card models exactly when a card model is being deleted. */
  lemma PlanCardsIffCardModel(deleted: seq<Resource>, saved: Resource -> Resource)
    ensures |PlanOf(deleted, saved).cards| > 0 <==> exists k :: 0 <= k < |deleted| && CardModel(deleted[k])
  {
    var models := Filter(deleted, InCard);
    var cards := PlanOf(deleted, saved).cards;
    assert cards == Filter(models, CardModel);
    if exists k :: 0 <= k < |deleted| && CardModel(deleted[k]) {
      var k :| 0 <= k < |deleted| && CardModel(deleted[k]);
      CardModelInCard(deleted[k]);
      FilterMembers(deleted, InCard, deleted[k]);
      FilterMembers(models, CardModel, deleted[k]);
    }
    if |cards| > 0 {
      FilterMembers(models, CardModel, cards[0]);
      FilterMembers(deleted, InCard, cards[0]);
    }
  }
}

=== FILE: schemas.dfy ===
/** The parts of a loaded schema that the write and indexing paths consult:
    content types, the data source each belongs to, and that source's plugins. */
module Schemas {
  import opened Base

  /** A writer or indexer plugin, known only by its identity. */
  datatype Plugin = Plugin(name: string)

  /** A data source: its id and the plugins it provides (absent ones are `None`). */
  datatype DataSource = DataSource(id: Option<string>, writer: Option<Plugin>, indexer: Option<Plugin>)

  datatype ContentType = ContentType(dataSource: Option<DataSource>)

  /** `schema.getType(type)`: the content type of a type name, if the schema has one. */
  type TypeLookup = Option<string> -> Option<ContentType>

  /** `get(schema.getType(type), 'dataSource.id')`: the id of the data source
      behind a type, absent when any link of the chain is missing. */
  function SourceIdOf(getType: TypeLookup, t: Option<string>): (r: Option<string>)
    ensures r.Some? <==>
      getType(t).Some? && getType(t).value.dataSource.Some? && getType(t).value.dataSource.value.id.Some?
    ensures r.Some? ==> r == getType(t).value.dataSource.value.id
  {
    match getType(t)
    case None => None
    case Some(ct) =>
      match ct.dataSource
      case None => None
      case Some(ds) => ds.id
  }
}

=== FILE: sorting.dfy ===
/** Stable sorting as lodash `sortBy` and `Array.prototype.sort` do it, on
    functional sequences: by a key of integers compared lexicographically, and
    by a comparator that may not be consistent. */
module Sorting {

  /** Lexicographic order on integer tuples (a proper prefix comes first). */
  predicate LexLe(a: seq<int>, b: seq<int>)
    decreases |a|
  {
    if |a| == 0 then true
    else if |b| == 0 then false
    else if a[0] != b[0] then a[0] < b[0]
    else LexLe(a[1..], b[1..])
  }

  lemma {:induction false} LexTotal(a: seq<int>, b: seq<int>)
    ensures LexLe(a, b) || LexLe(b, a)
    decreases |a|
  {
    if |a| > 0 && |b| > 0 && a[0] == b[0] {
      LexTotal(a[1..], b[1..]);
    }
  }

  lemma {:induction false} LexTrans(a: seq<int>, b: seq<int>, c: seq<int>)
    requires LexLe(a, b) && LexLe(b, c)
    ensures LexLe(a, c)
    decreases |a|
  {
    if |a| > 0 && |b| > 0 && |c| > 0 && a[0] == b[0] && b[0] == c[0] {
      LexTrans(a[1..], b[1..], c[1..]);
    }
  }

  /** Every element's key is at most every later element's key. */
  predicate Sorted<T>(s: seq<T>, key: T -> seq<int>) {
    forall i, j :: 0 <= i < j < |s| ==> LexLe(key(s[i]), key(s[j]))
  }

  /** Inserting `x` before the first element whose key is not smaller keeps
      earlier-inserted equal elements after it. */
  function Insert<T>(x: T, s: seq<T>, key: T -> seq<int>): seq<T>
    decreases |s|
  {
    if |s| == 0 || LexLe(key(x), key(s[0])) then [x] + s
    else [s[0]] + Insert(x, s[1..], key)
  }

  lemma {:induction false} InsertPermutes<T>(x: T, s: seq<T>, key: T -> seq<int>)
    ensures multiset(Insert(x, s, key)) == multiset(s) + multiset{x}
    decreases |s|
  {
    if |s| > 0 && !LexLe(key(x), key(s[0])) {
      InsertPermutes(x, s[1..], key);
      assert s == [s[0]] + s[1..];
    }
  }

  lemma {:induction false} InsertSorted<T>(x: T, s: seq<T>, key: T -> seq<int>)
    requires Sorted(s, key)
    ensures Sorted(Insert(x, s, key), key)
    decreases |s|
  {
    var r := Insert(x, s, key);
    if |s| == 0 {
    } else if LexLe(key(x), key(s[0])) {
      forall i, j | 0 <= i < j < |r|
        ensures LexLe(key(r[i]), key(r[j]))
      {
        if i == 0 {
          if j > 1 {
            LexTrans(key(x), key(s[0]), key(s[j - 1]));
          }
        }
      }
    } else {
      LexTotal(key(x), key(s[0]));
      var rest := Insert(x, s[1..], key);
      InsertSorted(x, s[1..], key);
      InsertPermutes(x, s[1..], key);
      forall j | 0 <= j < |rest|
        ensures LexLe(key(s[0]), key(rest[j]))
      {
        assert rest[j] in multiset(rest);
        if rest[j] != x {
          assert rest[j] in multiset(s[1..]);
          var k :| 0 <= k < |s[1..]| && s[1..][k] == rest[j];
          assert s[k + 1] == rest[j];
        }
      }
      forall i, j | 0 <= i < j < |r|
        ensures LexLe(key(r[i]), key(r[j]))
      {
        assert r[j] == rest[j - 1];
        if i > 0 {
          assert r[i] == rest[i - 1];
        }
      }
    }
  }

  /** lodash `sortBy` with a tuple of integer keys: the result is ordered by
      key and is a permutation of the input. (Equal keys keep their input
      order by construction; that stability is not part of the contract.) */
  function SortByKey<T>(s: seq<T>, key: T -> seq<int>): (r: seq<T>)
    ensures Sorted(r, key)
    ensures multiset(r) == multiset(s)
    decreases |s|
  {
    if |s| == 0 then []
    else
      var rest := SortByKey(s[1..], key);
      InsertSorted(s[0], rest, key);
      InsertPermutes(s[0], rest, key);
      assert s == [s[0]] + s[1..];
      Insert(s[0], rest, key)
  }

  /** A sort that trusts a comparator: insertion before the first element the
      comparator does not put first. With an inconsistent comparator its result
      depends on the algorithm, as the language leaves it. */
  function InsertCmp<T>(x: T, s: seq<T>, cmp: (T, T) -> int): (r: seq<T>)
    ensures multiset(r) == multiset(s) + multiset{x}
    decreases |s|
  {
    if |s| == 0 || cmp(x, s[0]) <= 0 then [x] + s
    else
      assert s == [s[0]] + s[1..];
      [s[0]] + InsertCmp(x, s[1..], cmp)
  }

  /** Whatever the comparator, the sort only reorders its input. */
  function SortByComparator<T>(s: seq<T>, cmp: (T, T) -> int): (r: seq<T>)
    ensures multiset(r) == multiset(s)
    decreases |s|
  {
    if |s| == 0 then []
    else
      assert s == [s[0]] + s[1..];
      InsertCmp(s[0], SortByComparator(s[1..], cmp), cmp)
  }
}

=== FILE: sources_update.dfy ===
/** One indexing pass: the schema it builds from the data sources' models,
    the updaters that run and in which order, and the documents and events it
    sends to the search client. The client, the batch and the event emitter
    are modelled by the ordered log of calls made on them. */
module SourcesUpdates {
  import opened Base
  import opened Objects
  import opened Json
  import opened Resources
  import opened Schemas
  import opened Lists

  /** The schema obtained by applying the given models to the seed schema. */
  datatype BuiltSchema = BuiltSchema(models: seq<Resource>)

  /** `this._schema`: not yet built, built and held, or given away. */
  datatype SchemaState = Unset | Held(schema: BuiltSchema) | Finalized

  /** An updater an indexer began, with the data source that owns it and
      whether it has a `destroy` method. */
  datatype Updater = Updater(source: DataSource, destroyable: bool)

  /** The arguments of `searchers.createDocumentContext`. */
  datatype DocContext = DocContext(
    typ: Option<string>, id: Option<string>, sourceId: Option<string>,
    generation: Option<int>, upstream: Option<Value>)

  /** A call on the search client, its batch or the event emitter. */
  datatype Call =
    | AccomodateSchema(schema: BuiltSchema)
    | BeginBatch(schema: BuiltSchema)
    | LoadMeta(id: Option<string>)
    | UpdateContent(key: string, meta: Value)       // the updater's own `updateContent(meta, hints, ops)`
    | SaveMeta(id: Option<string>, params: Value)
    | SaveDocument(context: DocContext)
    | DeleteDocument(context: DocContext)
    | BatchDone
    | DeleteOlderGenerations(sourceId: Option<string>, nonce: Option<int>)
    | EmitAdd(typ: Option<string>, id: Option<string>, doc: Value)
    | EmitDelete(typ: Option<string>, id: Option<string>)
    | EmitDeleteAll(sourceId: Option<string>, nonce: Option<int>)

  datatype SourcesUpdate = SourcesUpdate(
    schemaModels: seq<seq<Resource>>,  // the model lists the data sources contributed
    updaters: Obj<Updater>,            // keyed by data source id
    schema: SchemaState,
    batchBegun: bool,                  // whether `update` has opened `this._batch`
    log: seq<Call>)

  /** The message `addDataSource` throws once the schema exists. */
  const LateIndexer: string := "Bug in hub indexing. Something tried to add an indexer after we had already established the schema"

  /** The message `schema()` throws once the schema was given away. */
  const SchemaTaken: string := "Bug: the schema has already been taken away from this sources update"

  /** `new SourcesUpdate(...)`. */
  const Fresh: SourcesUpdate := SourcesUpdate([], [], Unset, false, [])

  /** lodash `flatten`: one level of nesting removed. */
  function Flatten(ss: seq<seq<Resource>>): seq<Resource>
    decreases |ss|
  {
    if |ss| == 0 then [] else ss[0] + Flatten(ss[1..])
  }

  /** What is held is always the seed schema with every collected model applied. */
  predicate Consistent(su: SourcesUpdate) {
    su.schema.Held? ==> su.schema.schema == BuiltSchema(Flatten(su.schemaModels))
  }

  // ---------------------------------------------------- schema lifecycle

  /** `addDataSource(dataSource)`: refused once a schema was built (or given
      away); a data source without an indexer contributes nothing; otherwise
      its updater is registered under its id and its models are collected.
      `models` is what the new updater's `schema()` gives and `destroyable`
      whether the updater `beginUpdate()` returned has a `destroy` method. */
  function AddDataSource(su: SourcesUpdate, ds: DataSource, models: seq<Resource>, destroyable: bool)
    : (r: Result<(SourcesUpdate, seq<Resource>), Error>)
    ensures r.Err? <==> !su.schema.Unset?
    ensures r.Ok? && ds.indexer.None? ==> r.value == (su, [])
    ensures r.Ok? && ds.indexer.Some? ==>
      r.value.1 == models
      && r.value.0.schemaModels == su.schemaModels + [models]
      && Get(r.value.0.updaters, Text(ds.id)) == Some(Updater(ds, destroyable))
      && r.value.0.(schemaModels := su.schemaModels, updaters := su.updaters) == su
  {
    if !su.schema.Unset? then
      Err(Thrown(LateIndexer))
    else if ds.indexer.None? then Ok((su, []))
    else
      SetThenGet(su.updaters, Text(ds.id), Updater(ds, destroyable), Text(ds.id));
      Ok((su.(updaters := Set(su.updaters, Text(ds.id), Updater(ds, destroyable)),
              schemaModels := su.schemaModels + [models]), models))
  }

  /** `schema()`: refused once given away; otherwise built from the seed and
      all collected models on first use, then memoised. */
  function Schema(su: SourcesUpdate): (r: Result<(SourcesUpdate, BuiltSchema), Error>)
    ensures r.Err? <==> su.schema.Finalized?
    ensures r.Ok? ==> r.value.0 == su.(schema := Held(r.value.1))
    ensures r.Ok? && su.schema.Held? ==> r.value.1 == su.schema.schema
    ensures r.Ok? && su.schema.Unset? ==> r.value.1 == BuiltSchema(Flatten(su.schemaModels))
  {
    match su.schema
    case Finalized => Err(Thrown(SchemaTaken))
    case Held(s) => Ok((su, s))
    case Unset =>
      var s := BuiltSchema(Flatten(su.schemaModels));
      Ok((su.(schema := Held(s)), s))
  }

  /** `takeSchema()`: the schema `schema()` gives, after which this update
      holds none. */
  function TakeSchema(su: SourcesUpdate): (r: Result<(SourcesUpdate, BuiltSchema), Error>)
    ensures r.Err? <==> su.schema.Finalized?
    ensures r.Ok? ==> r.value.0.schema.Finalized? && r.value.1 == Schema(su).value.1
    ensures r.Ok? ==> r.value.0.(schema := su.schema) == su
  {
    var (next, s) :- Schema(su);
    Ok((next.(schema := Finalized), s))
  }

  /** The schema is built at most once: asking again gives the same schema
      and leaves the state alone; once taken it can be asked for no more. */
  lemma SchemaMemoised(su: SourcesUpdate)
    requires Consistent(su)
    ensures Schema(su).Ok? ==> Schema(Schema(su).value.0) == Ok((Schema(su).value.0, Schema(su).value.1))
    ensures Schema(su).Ok? ==> Schema(su).value.1 == BuiltSchema(Flatten(su.schemaModels))
    ensures TakeSchema(su).Ok? ==> Schema(TakeSchema(su).value.0).Err?
  {
  }

  /** No data source can change the models once a schema exists, so every
      operation keeps the held schema equal to what the models build. */
  lemma LifecyclePreservesConsistency(su: SourcesUpdate, ds: DataSource, models: seq<Resource>, destroyable: bool)
    requires Consistent(su)
    ensures AddDataSource(su, ds, models, destroyable).Ok? ==> Consistent(AddDataSource(su, ds, models, destroyable).value.0)
    ensures Schema(su).Ok? ==> Consistent(Schema(su).value.0)
    ensures TakeSchema(su).Ok? ==> Consistent(TakeSchema(su).value.0)
  {
    var add := AddDataSource(su, ds, models, destroyable);
    if add.Ok? {
      assert su.schema.Unset? && add.value.0.schema == su.schema;
    }
    var sch := Schema(su);
    if sch.Ok? {
      assert sch.value.1 == BuiltSchema(Flatten(su.schemaModels));
      assert sch.value.0.schemaModels == su.schemaModels;
    }
    var take := TakeSchema(su);
    if take.Ok? {
      assert take.value.0.schema.Finalized?;
    }
  }

  /** `destroy()`: the schema is torn down only when it is held, and every
      updater with a `destroy` method is destroyed, in registration order. */
  function Destroy(su: SourcesUpdate): (r: (Option<BuiltSchema>, seq<string>))
    ensures r.0.Some? <==> su.schema.Held?
    ensures r.0.Some? ==> r.0.value == su.schema.schema
    ensures forall k :: k in r.1 <==> exists i :: 0 <= i < |su.updaters| && su.updaters[i].0 == k && su.updaters[i].1.destroyable
    ensures WellFormed(su.updaters) ==> forall a, b :: 0 <= a < b < |r.1| ==>
      FirstIndex(su.updaters, UpdaterKey, r.1[a]) < FirstIndex(su.updaters, UpdaterKey, r.1[b]) < |su.updaters|
  {
    assert WellFormed(su.updaters) ==> forall a, b :: 0 <= a < b < |DestroyedKeys(su.updaters)| ==>
      FirstIndex(su.updaters, UpdaterKey, DestroyedKeys(su.updaters)[a])
        < FirstIndex(su.updaters, UpdaterKey, DestroyedKeys(su.updaters)[b]) < |su.updaters| by {
      if WellFormed(su.updaters) {
        DestroyedKeysInOrder(su.updaters);
      }
    }
    var teardown := if su.schema.Held? then Some(su.schema.schema) else None;
    (teardown, DestroyedKeys(su.updaters))
  }

  function UpdaterKey(e: (string, Updater)): string {
    e.0
  }

  function DestroyedKeys(us: Obj<Updater>): (ks: seq<string>)
    ensures forall k :: k in ks <==> exists i :: 0 <= i < |us| && us[i].0 == k && us[i].1.destroyable
    decreases |us|
  {
    if |us| == 0 then []
    else
      var rest := DestroyedKeys(us[1..]);
      assert forall i :: 1 <= i < |us| ==> us[i] == us[1..][i - 1];
      if us[0].1.destroyable then [us[0].0] + rest else rest
  }

  /** Under distinct keys, the destroyed updaters come in registration order. */
  lemma {:induction false} DestroyedKeysInOrder(us: Obj<Updater>)
    requires WellFormed(us)
    ensures forall a, b :: 0 <= a < b < |DestroyedKeys(us)| ==>
      FirstIndex(us, UpdaterKey, DestroyedKeys(us)[a]) < FirstIndex(us, UpdaterKey, DestroyedKeys(us)[b]) < |us|
    decreases |us|
  {
    if |us| > 0 {
      var tail := us[1..];
      var rest := DestroyedKeys(tail);
      var ks := DestroyedKeys(us);
      assert WellFormed(tail);
      DestroyedKeysInOrder(tail);
      forall a | 0 <= a < |rest|
        ensures FirstIndex(us, UpdaterKey, rest[a]) == 1 + FirstIndex(tail, UpdaterKey, rest[a])
        ensures FirstIndex(tail, UpdaterKey, rest[a]) < |tail|
      {
        assert rest[a] in rest;
        var i :| 0 <= i < |tail| && tail[i].0 == rest[a] && tail[i].1.destroyable;
        assert us[i + 1] == tail[i];
        assert FirstIndex(tail, UpdaterKey, rest[a]) <= i;
      }
      forall a, b | 0 <= a < b < |ks|
        ensures FirstIndex(us, UpdaterKey, ks[a]) < FirstIndex(us, UpdaterKey, ks[b]) < |us|
      {
        if us[0].1.destroyable {
          assert ks == [us[0].0] + rest;
          assert ks[b] == rest[b - 1];
          if a > 0 {
            assert ks[a] == rest[a - 1];
          }
        } else {
          assert ks == rest;
        }
      }
    }
  }

  // ------------------------------------------------------ hint narrowing

  /** An invalidation hint; only its type matters here. */
  datatype Hint = Hint(typ: Option<string>)

  function HintTypesFrom(hints: seq<Hint>): (ts: seq<Option<string>>)
    ensures forall t :: t in ts <==> Truthy(t) && exists i :: 0 <= i < |hints| && hints[i].typ == t
    decreases |hints|
  {
    if |hints| == 0 then []
    else
      var rest := HintTypesFrom(hints[1..]);
      assert forall i :: 1 <= i < |hints| ==> hints[i] == hints[1..][i - 1];
      if Truthy(hints[0].typ) then [hints[0].typ] + rest else rest
  }

  /** The truthy hint types; hints that are not a list give none. */
  function HintTypes(hints: Option<seq<Hint>>): seq<Option<string>> {
    match hints
    case None => []
    case Some(hs) => HintTypesFrom(hs)
  }

  /** The truthy ids of the data sources behind the hinted types. */
  function HintedSources(getType: TypeLookup, types: seq<Option<string>>): (ids: seq<Option<string>>)
    ensures forall x :: x in ids <==> Truthy(x) && exists t :: t in types && SourceIdOf(getType, t) == x
    decreases |types|
  {
    if |types| == 0 then []
    else
      var rest := HintedSources(getType, types[1..]);
      var x := SourceIdOf(getType, types[0]);
      assert forall t :: t in types <==> t == types[0] || t in types[1..];
      if Truthy(x) then [x] + rest else rest
  }

  /** The updaters `_updateContent` runs: those whose source a hinted type
      resolves to, or all of them when no hinted type resolves. */
  function SelectUpdaters(getType: TypeLookup, hints: Option<seq<Hint>>, updaters: Obj<Updater>): (r: Obj<Updater>)
    ensures |r| <= |updaters|
  {
    var ids := HintedSources(getType, HintTypes(hints));
    if |ids| > 0 then Filter(updaters, (e: (string, Updater)) => Some(e.0) in ids) else updaters
  }

  /** A data source is hinted when some truthy hinted type resolves to it. */
  predicate Hinted(getType: TypeLookup, hints: Option<seq<Hint>>, key: string) {
    hints.Some? && exists i :: (0 <= i < |hints.value| && Truthy(hints.value[i].typ)
      && SourceIdOf(getType, hints.value[i].typ) == Some(key))
  }

  /** Some truthy hinted type resolves to a data source with a truthy id. */
  predicate AnyResolves(getType: TypeLookup, hints: Option<seq<Hint>>) {
    hints.Some? && exists i :: (0 <= i < |hints.value| && Truthy(hints.value[i].typ)
      && Truthy(SourceIdOf(getType, hints.value[i].typ)))
  }

  /** The source ids collected from the hints are exactly the hinted ones. */
  lemma HintedSourcesSpec(getType: TypeLookup, hints: Option<seq<Hint>>, key: string)
    ensures var ids := HintedSources(getType, HintTypes(hints));
      (Some(key) in ids <==> Hinted(getType, hints, key) && key != "")
      && (|ids| > 0 <==> AnyResolves(getType, hints))
  {
    HintedKey(getType, hints, key);
    HintedAny(getType, hints);
  }

  lemma HintedKey(getType: TypeLookup, hints: Option<seq<Hint>>, key: string)
    ensures Some(key) in HintedSources(getType, HintTypes(hints)) <==> Hinted(getType, hints, key) && key != ""
  {
    var types := HintTypes(hints);
    var ids := HintedSources(getType, types);
    if hints.Some? {
      if Some(key) in ids {
        var t :| t in types && SourceIdOf(getType, t) == Some(key);
        var i :| 0 <= i < |hints.value| && hints.value[i].typ == t;
      }
      if Hinted(getType, hints, key) && key != "" {
        var i :| 0 <= i < |hints.value| && Truthy(hints.value[i].typ)
          && SourceIdOf(getType, hints.value[i].typ) == Some(key);
        assert hints.value[i].typ in types;
      }
    }
  }

  lemma HintedAny(getType: TypeLookup, hints: Option<seq<Hint>>)
    ensures |HintedSources(getType, HintTypes(hints))| > 0 <==> AnyResolves(getType, hints)
  {
    var types := HintTypes(hints);
    var ids := HintedSources(getType, types);
    if hints.Some? {
      if |ids| > 0 {
        assert ids[0] in ids;
        var t :| t in types && SourceIdOf(getType, t) == ids[0];
        var i :| 0 <= i < |hints.value| && hints.value[i].typ == t;
      }
      if AnyResolves(getType, hints) {
        var i :| 0 <= i < |hints.value| && Truthy(hints.value[i].typ)
          && Truthy(SourceIdOf(getType, hints.value[i].typ));
        assert hints.value[i].typ in types;
        assert SourceIdOf(getType, hints.value[i].typ) in ids;
      }
    }
  }

  /** An updater runs exactly when it is hinted, or when no hinted type
      resolves to a data source at all. */
  lemma SelectUpdatersSpec(getType: TypeLookup, hints: Option<seq<Hint>>, updaters: Obj<Updater>, e: (string, Updater))
    ensures e in SelectUpdaters(getType, hints, updaters) <==>
      e in updaters && (!AnyResolves(getType, hints) || (Hinted(getType, hints, e.0) && e.0 != ""))
  {
    var ids := HintedSources(getType, HintTypes(hints));
    FilterMembers(updaters, (e: (string, Updater)) => Some(e.0) in ids, e);
    HintedSourcesSpec(getType, hints, e.0);
  }

  /** Hints without a type are ignored: dropping them selects the same updaters. */
  lemma UntypedHintsIgnored(getType: TypeLookup, hints: seq<Hint>, updaters: Obj<Updater>)
    ensures SelectUpdaters(getType, Some(hints), updaters)
      == SelectUpdaters(getType, Some(Filter(hints, (h: Hint) => Truthy(h.typ))), updaters)
  {
    TypedHintsSame(hints);
  }

  lemma {:induction false} TypedHintsSame(hints: seq<Hint>)
    ensures HintTypesFrom(Filter(hints, (h: Hint) => Truthy(h.typ))) == HintTypesFrom(hints)
    decreases |hints|
  {
    if |hints| > 0 {
      TypedHintsSame(hints[1..]);
    }
  }

  // ------------------------------------------------------ the content pass

  /** The calls for one updater of `_updateContent`: load the source's meta,
      let the updater update its content, save the meta it returns. `loaded`
      stands for what the client's `loadMeta` returns and `content` for what
      each updater's `updateContent` returns. */
  function Visit(e: (string, Updater), loaded: Option<string> -> Value, content: (string, Value) -> Value): seq<Call> {
    var id := e.1.source.id;
    [LoadMeta(id), UpdateContent(e.0, loaded(id)), SaveMeta(id, content(e.0, loaded(id)))]
  }

  /** The loop of `_updateContent` over the selected updaters, in order. */
  function RunUpdaters(selected: Obj<Updater>, loaded: Option<string> -> Value, content: (string, Value) -> Value)
    : (calls: seq<Call>)
    ensures |calls| == 3 * |selected|
    decreases |selected|
  {
    if |selected| == 0 then []
    else Visit(selected[0], loaded, content) + RunUpdaters(selected[1..], loaded, content)
  }

  /** The `k`-th updater's calls sit at positions `3k` to `3k + 2`; the loop
      never closes the batch. */
  lemma {:induction false} RunUpdatersAt(selected: Obj<Updater>, loaded: Option<string> -> Value,
                                         content: (string, Value) -> Value, k: nat)
    requires k < |selected|
    ensures RunUpdaters(selected, loaded, content)[3 * k..3 * k + 3] == Visit(selected[k], loaded, content)
    decreases k
  {
    if k > 0 {
      RunUpdatersAt(selected[1..], loaded, content, k - 1);
      var rest := RunUpdaters(selected[1..], loaded, content);
      assert RunUpdaters(selected, loaded, content)[3 * k..3 * k + 3] == rest[3 * (k - 1)..3 * (k - 1) + 3];
    }
  }

  lemma {:induction false} RunUpdatersOpen(selected: Obj<Updater>, loaded: Option<string> -> Value,
                                           content: (string, Value) -> Value)
    ensures BatchDone !in RunUpdaters(selected, loaded, content)
    decreases |selected|
  {
    if |selected| > 0 {
      RunUpdatersOpen(selected[1..], loaded, content);
    }
  }

  /** `update(forceRefresh, hints)`: the schema is handed to the client, a
      batch is begun, the selected updaters run in order, and the batch is
      closed once. `getType` stands for the built schema's type lookup. */
  function Update(su: SourcesUpdate, hints: Option<seq<Hint>>, getType: TypeLookup,
                  loaded: Option<string> -> Value, content: (string, Value) -> Value): (r: Result<SourcesUpdate, Error>)
    ensures r.Err? <==> su.schema.Finalized?
    ensures r.Ok? ==> r.value.batchBegun && r.value.updaters == su.updaters
  {
    var (su1, s) :- Schema(su);
    var selected := SelectUpdaters(getType, hints, su1.updaters);
    Ok(su1.(batchBegun := true,
            log := su1.log + [AccomodateSchema(s), BeginBatch(s)]
                   + RunUpdaters(selected, loaded, content) + [BatchDone]))
  }

  /** What a pass appends to the log, given the schema and the selected updaters. */
  function PassCalls(s: BuiltSchema, selected: Obj<Updater>, loaded: Option<string> -> Value,
                     content: (string, Value) -> Value): seq<Call> {
    [AccomodateSchema(s), BeginBatch(s)] + RunUpdaters(selected, loaded, content) + [BatchDone]
  }

  lemma UpdateAppends(su: SourcesUpdate, hints: Option<seq<Hint>>, getType: TypeLookup,
                      loaded: Option<string> -> Value, content: (string, Value) -> Value)
    requires Consistent(su)
    ensures var r := Update(su, hints, getType, loaded, content);
      r.Ok? ==> r.value.log == su.log + PassCalls(BuiltSchema(Flatten(su.schemaModels)),
        SelectUpdaters(getType, hints, su.updaters), loaded, content)
  {
  }

  /** The calls of a pass: the schema hand-over and the batch, then for each
      selected updater in order a load, an update and a save of its own
      source's meta, and the batch closed exactly once, last. */
  lemma PassOrder(s: BuiltSchema, selected: Obj<Updater>, loaded: Option<string> -> Value,
                  content: (string, Value) -> Value)
    ensures var added := PassCalls(s, selected, loaded, content);
      |added| == 3 * |selected| + 3
      && added[0] == AccomodateSchema(s) && added[1] == BeginBatch(s)
      && added[|added| - 1] == BatchDone
      && (forall i :: 0 <= i < |added| - 1 ==> added[i] != BatchDone)
      && (forall k :: 0 <= k < |selected| ==>
            added[2 + 3 * k..5 + 3 * k] == Visit(selected[k], loaded, content))
  {
    var calls := RunUpdaters(selected, loaded, content);
    var added := PassCalls(s, selected, loaded, content);
    RunUpdatersOpen(selected, loaded, content);
    forall i | 0 <= i < |added| - 1
      ensures added[i] != BatchDone
    {
      if 2 <= i {
        assert added[i] == calls[i - 2];
      }
    }
    forall k | 0 <= k < |selected|
      ensures added[2 + 3 * k..5 + 3 * k] == Visit(selected[k], loaded, content)
    {
      RunUpdatersAt(selected, loaded, content, k);
      assert added[2 + 3 * k..5 + 3 * k] == calls[3 * k..3 * k + 3];
    }
  }

  // ------------------------------------------- documents and their events

  /** `add(type, id, doc, sourceId, nonce)`: the document's context carries
      the source and the generation; a document without a search projection
      (`searchDoc` falsy) is dropped silently; otherwise it is saved to the
      batch and then announced. Without an open batch the save is a
      TypeError. */
  function Add(su: SourcesUpdate, typ: Option<string>, id: Option<string>, doc: Value,
               sourceId: Option<string>, nonce: Option<int>, searchDoc: Value): (r: Result<SourcesUpdate, Error>)
    ensures r.Err? <==> su.schema.Finalized? || (searchDoc.Truthy() && !su.batchBegun)
    ensures r.Ok? && !searchDoc.Truthy() ==> r.value.log == su.log
    ensures r.Ok? && searchDoc.Truthy() ==>
      r.value.log == su.log + [SaveDocument(DocContext(typ, id, sourceId, nonce, Some(doc))), EmitAdd(typ, id, doc)]
    ensures r.Ok? ==> r.value.(log := su.log, schema := su.schema) == su
  {
    var (su1, _) :- Schema(su);
    if !searchDoc.Truthy() then Ok(su1)
    else if !su1.batchBegun then Err(TypeFault)
    else Ok(su1.(log := su1.log + [SaveDocument(DocContext(typ, id, sourceId, nonce, Some(doc))), EmitAdd(typ, id, doc)]))
  }

  /** `delete(type, id)`: the document is deleted from the batch by type and
      id alone, then announced. */
  function Delete(su: SourcesUpdate, typ: Option<string>, id: Option<string>): (r: Result<SourcesUpdate, Error>)
    ensures r.Err? <==> su.schema.Finalized? || !su.batchBegun
    ensures r.Ok? ==> r.value.log == su.log + [DeleteDocument(DocContext(typ, id, None, None, None)), EmitDelete(typ, id)]
    ensures r.Ok? ==> r.value.(log := su.log, schema := su.schema) == su
  {
    var (su1, _) :- Schema(su);
    if !su1.batchBegun then Err(TypeFault)
    else Ok(su1.(log := su1.log + [DeleteDocument(DocContext(typ, id, None, None, None)), EmitDelete(typ, id)]))
  }

  /** `deleteAllWithoutNonce(sourceId, nonce)`: the client drops the source's
      documents of other generations, then the event is announced. */
  function DeleteAllWithoutNonce(su: SourcesUpdate, sourceId: Option<string>, nonce: Option<int>): (r: SourcesUpdate)
    ensures r.log == su.log + [DeleteOlderGenerations(sourceId, nonce), EmitDeleteAll(sourceId, nonce)]
    ensures r.(log := su.log) == su
  {
    su.(log := su.log + [DeleteOlderGenerations(sourceId, nonce), EmitDeleteAll(sourceId, nonce)])
  }

  /** Every event follows the batch or client call it reports: an add is
      announced right after its save, a delete right after its delete. */
  lemma EventsFollowWrites(su: SourcesUpdate, typ: Option<string>, id: Option<string>, doc: Value,
                           sourceId: Option<string>, nonce: Option<int>, searchDoc: Value)
    requires Consistent(su)
    ensures var r := Add(su, typ, id, doc, sourceId, nonce, searchDoc);
      r.Ok? ==> (Consistent(r.value)
        && (EmitAdd(typ, id, doc) in r.value.log[|su.log|..] <==> searchDoc.Truthy()))
    ensures var r := Delete(su, typ, id);
      r.Ok? ==> Consistent(r.value) && r.value.log[|su.log|..][0].DeleteDocument?
  {
    var r := Add(su, typ, id, doc, sourceId, nonce, searchDoc);
    if r.Ok? && !searchDoc.Truthy() {
      assert r.value.log[|su.log|..] == [];
    }
  }
}

=== FILE: strings.dfy ===
/** The string primitives the hub relies on: JavaScript's `split`, `join` and
    `includes`, specialised to the `::` card-identity delimiter and to single
    characters, plus decimal rendering of indices for JSON pointers. */
module Strings {

  /** The reserved card-identity delimiter. */
  const Delim: string := "::"

  predicate StartsWith(s: string, p: string) {
    |p| <= |s| && s[..|p|] == p
  }

  /** JavaScript's `s.includes(sub)`: `sub` occurs somewhere in `s`. */
  predicate Includes(s: string, sub: string)
    decreases |s|
  {
    StartsWith(s, sub) || (|s| > 0 && Includes(s[1..], sub))
  }

  lemma IncludesWhenStartsWith(s: string, p: string)
    requires StartsWith(s, p)
    ensures Includes(s, p)
  {
  }

  /** An occurrence of the delimiter starts at index `i` of `s`. */
  predicate DelimAt(s: string, i: int) {
    0 <= i && i + 1 < |s| && s[i] == ':' && s[i + 1] == ':'
  }

  predicate HasDelim(s: string) {
    exists i | 0 <= i < |s| :: DelimAt(s, i)
  }

  /** A component that survives a join followed by a split when it is not the
      last one: it holds no delimiter and does not end in ':' (a trailing ':'
      would merge with the delimiter that follows it). */
  predicate Segment(p: string) {
    !HasDelim(p) && (|p| == 0 || p[|p| - 1] != ':')
  }

  /** JavaScript's `parts.join('::')`. */
  function Join(parts: seq<string>): string {
    if |parts| == 0 then ""
    else if |parts| == 1 then parts[0]
    else parts[0] + Delim + Join(parts[1..])
  }

  /** JavaScript's `s.split('::')`: the pieces between leftmost, non-overlapping
      occurrences of the delimiter. */
  function Split(s: string): (parts: seq<string>)
    ensures |parts| >= 1
    ensures Join(parts) == s
    ensures StartsWith(s, parts[0])
    ensures |parts| > 1 ==> StartsWith(s, parts[0] + Delim)
    decreases |s|
  {
    if |s| < 2 then
      [s]
    else if s[0] == ':' && s[1] == ':' then
      var rest := Split(s[2..]);
      var parts := [""] + rest;
      assert Join(parts) == "" + Delim + Join(rest);
      assert s == Delim + s[2..];
      parts
    else
      var rest := Split(s[1..]);
      var first := [s[0]] + rest[0];
      var parts := [first] + rest[1..];
      assert s == [s[0]] + s[1..];
      JoinConsFirst(s[0], rest);
      assert |rest| > 1 ==> StartsWith(s, first + Delim) by {
        if |rest| > 1 {
          assert StartsWith(s[1..], rest[0] + Delim);
          assert s[..|first + Delim|] == [s[0]] + s[1..][..|rest[0] + Delim|];
        }
      }
      parts
  }

  /** Every piece of a split is free of the delimiter, and every piece but the
      last is a segment. */
  lemma {:induction false} SplitPieces(s: string)
    ensures forall i :: 0 <= i < |Split(s)| ==> !HasDelim(Split(s)[i])
    ensures forall i :: 0 <= i < |Split(s)| - 1 ==> Segment(Split(s)[i])
    decreases |s|
  {
    var parts := Split(s);
    if |s| < 2 {
      assert parts == [s];
      forall i | 0 <= i < |s| ensures !DelimAt(s, i) { }
    } else if s[0] == ':' && s[1] == ':' {
      var rest := Split(s[2..]);
      SplitPieces(s[2..]);
      assert parts == [""] + rest;
      assert forall i :: 1 <= i < |parts| ==> parts[i] == rest[i - 1];
    } else {
      var rest := Split(s[1..]);
      SplitPieces(s[1..]);
      var first := [s[0]] + rest[0];
      assert parts == [first] + rest[1..];
      FirstPieceHasNoDelim(s, rest[0]);
      if |rest| > 1 {
        assert Segment(rest[0]);
        if |rest[0]| == 0 {
          assert StartsWith(s[1..], Delim);
        } else {
          assert first[|first| - 1] == rest[0][|rest[0]| - 1];
        }
      }
      assert forall i :: 1 <= i < |parts| ==> parts[i] == rest[i];
    }
  }

  lemma JoinConsFirst(c: char, rest: seq<string>)
    requires |rest| >= 1
    ensures Join([[c] + rest[0]] + rest[1..]) == [c] + Join(rest)
  {
    var parts := [[c] + rest[0]] + rest[1..];
    if |rest| > 1 {
      assert parts[0] == [c] + rest[0] && parts[1..] == rest[1..];
      ConsAssoc(c, rest[0], Delim, Join(rest[1..]));
    } else {
      assert parts == [[c] + rest[0]];
    }
  }

  lemma ConsAssoc(c: char, x: string, d: string, y: string)
    ensures [c] + x + d + y == [c] + (x + d + y)
  {
  }

  lemma FirstPieceHasNoDelim(s: string, r0: string)
    requires |s| >= 2 && !(s[0] == ':' && s[1] == ':')
    requires StartsWith(s[1..], r0) && !HasDelim(r0)
    ensures !HasDelim([s[0]] + r0)
  {
    var f := [s[0]] + r0;
    forall i | 0 <= i < |f|
      ensures !DelimAt(f, i)
    {
      if i == 0 {
        if |r0| > 0 {
          assert f[1] == s[1];
        }
      } else {
        assert !DelimAt(r0, i - 1);
      }
    }
  }

  lemma {:induction false} SplitWithoutDelim(p: string)
    requires !HasDelim(p)
    ensures Split(p) == [p]
    decreases |p|
  {
    if |p| >= 2 {
      assert !DelimAt(p, 0);
      NoDelimTail(p);
      SplitWithoutDelim(p[1..]);
      assert [p[0]] + p[1..] == p;
    }
  }

  lemma NoDelimTail(p: string)
    requires |p| >= 1 && !HasDelim(p)
    ensures !HasDelim(p[1..])
  {
    forall i | 0 <= i < |p| - 1
      ensures !DelimAt(p[1..], i)
    {
      assert !DelimAt(p, i + 1);
    }
  }

  /** A split that does not start at a delimiter extends the first piece of
      the tail's split by one character. */
  lemma SplitStep(s: string)
    requires |s| >= 2 && !(s[0] == ':' && s[1] == ':')
    ensures Split(s) == [[s[0]] + Split(s[1..])[0]] + Split(s[1..])[1..]
  {
  }

  /** Splitting right after a segment and the delimiter peels the segment off. */
  lemma {:induction false} SplitAfterSegment(p: string, rest: string)
    requires Segment(p)
    ensures Split(p + Delim + rest) == [p] + Split(rest)
    decreases |p|
  {
    var s := p + Delim + rest;
    if |p| == 0 {
      assert s[2..] == rest;
    } else {
      assert !(s[0] == ':' && s[1] == ':') by {
        if |p| >= 2 {
          assert !DelimAt(p, 0);
        }
      }
      assert Segment(p[1..]) by {
        NoDelimTail(p);
      }
      assert s[1..] == p[1..] + Delim + rest;
      SplitAfterSegment(p[1..], rest);
      SplitStep(s);
      assert [s[0]] + p[1..] == p;
    }
  }

  /** Decoding an encoding gives the parts back, provided every part but the
      last is a segment and the last holds no delimiter. */
  lemma {:induction false} SplitJoin(parts: seq<string>)
    requires |parts| >= 1
    requires forall i :: 0 <= i < |parts| - 1 ==> Segment(parts[i])
    requires !HasDelim(parts[|parts| - 1])
    ensures Split(Join(parts)) == parts
    decreases |parts|
  {
    if |parts| == 1 {
      SplitWithoutDelim(parts[0]);
    } else {
      SplitAfterSegment(parts[0], Join(parts[1..]));
      SplitJoin(parts[1..]);
      assert [parts[0]] + parts[1..] == parts;
    }
  }

  /** Joining two non-empty lists puts one delimiter between their encodings. */
  lemma {:induction false} JoinAppend(a: seq<string>, b: seq<string>)
    requires |a| >= 1 && |b| >= 1
    ensures Join(a + b) == Join(a) + Delim + Join(b)
    decreases |a|
  {
    if |a| == 1 {
      assert (a + b)[1..] == b;
    } else {
      JoinAppend(a[1..], b);
      assert (a + b)[1..] == a[1..] + b;
    }
  }

  /** Encoding the pieces of a split gives the original string. */
  lemma JoinSplit(s: string)
    ensures Join(Split(s)) == s
  {
  }

  /** A component ending in ':' does not survive: "a:" and "b" encode to
      "a:::b", which decodes to "a" and ":b". */
  lemma TrailingColonBreaksRoundTrip()
    ensures Split(Join(["a:", "b"])) == ["a", ":b"]
  {
    assert Join(["a:", "b"]) == "a:::b";
    assert Split("b") == ["b"];
    assert ":b"[1..] == "b";
    assert Split(":b") == [":b"];
    assert ":::b"[2..] == ":b";
    assert Split(":::b") == [""] + [":b"];
    assert "a:::b"[1..] == ":::b";
    assert Split("a:::b") == [['a'] + ""] + [":b"];
    assert ['a'] + "" == "a";
  }

  /** JavaScript's `s.split(c)` for a single character. */
  function SplitOn(s: string, c: char): (parts: seq<string>)
    ensures |parts| >= 1
    ensures forall i :: 0 <= i < |parts| ==> c !in parts[i]
    ensures JoinOn(parts, c) == s
    decreases |s|
  {
    if |s| == 0 then [""]
    else
      var rest := SplitOn(s[1..], c);
      assert s == [s[0]] + s[1..];
      if s[0] == c then
        var parts := [""] + rest;
        assert parts[1..] == rest;
        assert forall i :: 1 <= i < |parts| ==> parts[i] == rest[i - 1];
        parts
      else
        var parts := [[s[0]] + rest[0]] + rest[1..];
        JoinOnConsFirst(s[0], rest, c);
        assert forall i :: 1 <= i < |parts| ==> parts[i] == rest[i];
        parts
  }

  /** JavaScript's `parts.join(c)` for a single character. */
  function JoinOn(parts: seq<string>, c: char): string {
    if |parts| == 0 then ""
    else if |parts| == 1 then parts[0]
    else parts[0] + [c] + JoinOn(parts[1..], c)
  }

  lemma JoinOnConsFirst(x: char, rest: seq<string>, c: char)
    requires |rest| >= 1
    ensures JoinOn([[x] + rest[0]] + rest[1..], c) == [x] + JoinOn(rest, c)
  {
    var parts := [[x] + rest[0]] + rest[1..];
    if |rest| > 1 {
      assert parts[1..] == rest[1..];
    }
  }

  /** The number of pieces `s.split(c)` yields. */
  function PieceCount(s: string, c: char): nat {
    |SplitOn(s, c)|
  }

  function Digit(d: nat): char
    requires d < 10
  {
    "0123456789"[d]
  }

  /** Decimal rendering of a natural number, as string interpolation prints it. */
  function NatToString(n: nat): (s: string)
    ensures |s| >= 1
    ensures forall i :: 0 <= i < |s| ==> '0' <= s[i] <= '9'
    decreases n
  {
    if n < 10 then [Digit(n)] else NatToString(n / 10) + [Digit(n % 10)]
  }
}

=== FILE: writers.dfy ===
/** The write paths of the hub: which writer handles a type, how query
    relationships are turned into links, and the order in which a create, an
    update or a delete drives its pending change. */
module Writers {
  import opened Base
  import opened Objects
  import opened Json
  import opened Resources
  import opened Schemas
  import opened PendingChanges
  import opened Lists

  // ------------------------------------------------------ writer resolution

  /** The writer and the data source id `_getSchemaDetailsForType` hands back. */
  datatype Details = Details(writer: Plugin, sourceId: Option<string>)

  const NotWritable: Error := Titled(403, "Not a writable type")

  /** `_getSchemaDetailsForType(schema, type)`: the writer of the type's data
      source, refused with a 403 when the schema has no such content type, the
      content type has no data source, or the data source has no writer. */
  function SchemaDetails(getType: TypeLookup, t: Option<string>): (r: Result<Details, Error>)
    ensures getType(t).None? ==> r == Err(NotWritable)
    ensures getType(t).Some? && getType(t).value.dataSource.None? ==> r == Err(NotWritable)
    ensures (getType(t).Some? && getType(t).value.dataSource.Some?
      && getType(t).value.dataSource.value.writer.None?) ==> r == Err(NotWritable)
    ensures r.Ok? ==> (getType(t).Some? && getType(t).value.dataSource.Some?
      && Some(r.value.writer) == getType(t).value.dataSource.value.writer)
    ensures r.Err? ==> r.error == NotWritable
  {
    match getType(t)
    case None => Err(NotWritable)
    case Some(ct) =>
      match ct.dataSource
      case None => Err(NotWritable)
      case Some(ds) =>
        match ds.writer
        case None => Err(NotWritable)
        case Some(w) => Ok(Details(w, ds.id))
  }

  /** Whenever a writer is found for type `t`, the source id the batch is
      tagged with is the one `createPendingChange` gives the pending change's
      contexts, provided the document it resolves (the original document, or
      else the final one) has type `t`; the write paths pass documents of the
      path's type. */
  lemma DetailsAgreeWithPendingSource(getType: TypeLookup, t: Option<string>)
    ensures SchemaDetails(getType, t).Ok? ==> SchemaDetails(getType, t).value.sourceId == SourceIdOf(getType, t)
  {
  }

  /** The check `create` and `_update` make before anything else: a document
      without a top-level `data` member is refused with a 400. */
  function RequireData(data: Option<Resource>): (r: Result<Resource, Error>)
    ensures r.Err? <==> data.None?
    ensures r.Err? ==> r.error == Http(400, None)
    ensures r.Ok? ==> r.value == data.value
  {
    match data
    case None => Err(Http(400, None))
    case Some(d) => Ok(d)
  }

  // -------------------------------------------------------- query links

  const QueriesType: Option<string> := Some("cardstack-queries")

  /** A linkage to a query: a single reference of the query type, or a
      non-empty list whose first reference has it. */
  predicate IsQueryLinkage(l: Linkage) {
    match l
    case ToMany(refs) => |refs| > 0 && refs[0].typ == QueriesType
    case ToOne(x) => x.typ == QueriesType
    case _ => false
  }

  /** The id the `related` link points at: that of the single or first reference. */
  function QueryTarget(l: Linkage): Option<string>
    requires IsQueryLinkage(l)
  {
    match l
    case ToMany(refs) => refs[0].id
    case ToOne(x) => x.id
  }

  /** One relationship of `_createQueryLinks`: a query linkage is replaced by
      `links: {related: <id>}` and its `data` is removed; any other
      relationship is left as it is. */
  function QueryLink(rel: Relationship): (r: Relationship)
    ensures IsQueryLinkage(rel.data) ==> r.data == NoData && r.links == Links(QueryTarget(rel.data))
    ensures !IsQueryLinkage(rel.data) ==> r == rel
    ensures !IsQueryLinkage(r.data)
  {
    if IsQueryLinkage(rel.data) then Relationship(NoData, Links(QueryTarget(rel.data))) else rel
  }

  /** `_createQueryLinks(doc)`: every relationship is passed through
      `QueryLink`, under the same key and in the same order; the rest of the
      resource is untouched. */
  function CreateQueryLinks(r: Resource): (out: Resource)
    ensures out.(relationships := r.relationships) == r
    ensures Keys(out.relationships) == Keys(r.relationships)
  {
    r.(relationships := MapValues(r.relationships, QueryLink))
  }

  /** Reading a relationship of the result reads the input's relationship
      with its query linkage turned into a link. */
  lemma QueryLinksGet(r: Resource, k: string)
    ensures Get(CreateQueryLinks(r).relationships, k) ==
      match Get(r.relationships, k)
      case None => None
      case Some(rel) => Some(QueryLink(rel))
  {
    GetMapValues(r.relationships, QueryLink, k);
  }

  /** After the rewrite no relationship holds a query linkage; and a resource
      that held none comes back unchanged. */
  lemma QueryLinksRemoveQueries(r: Resource)
    ensures forall i :: 0 <= i < |CreateQueryLinks(r).relationships| ==>
      !IsQueryLinkage(CreateQueryLinks(r).relationships[i].1.data)
    ensures (forall i :: 0 <= i < |r.relationships| ==> !IsQueryLinkage(r.relationships[i].1.data))
      ==> CreateQueryLinks(r) == r
  {
    var out := CreateQueryLinks(r);
    if forall i :: 0 <= i < |r.relationships| ==> !IsQueryLinkage(r.relationships[i].1.data) {
      assert out.relationships == r.relationships;
    }
  }

  /** Rewriting twice is rewriting once. */
  lemma QueryLinksIdempotent(r: Resource)
    ensures CreateQueryLinks(CreateQueryLinks(r)) == CreateQueryLinks(r)
  {
    var once := CreateQueryLinks(r);
    var twice := CreateQueryLinks(once);
    assert |twice.relationships| == |once.relationships|;
    forall i | 0 <= i < |once.relationships|
      ensures twice.relationships[i] == once.relationships[i]
    {
      assert !IsQueryLinkage(once.relationships[i].1.data);
    }
  }

  // ------------------------------------------------------- the write paths

  datatype Kind = Create | Update | Delete

  /** A step of a write path after its pending change exists. */
  datatype Step =
    | Validate         // `schema.validate(pending, …)`
    | BeforeFinalize   // the card hook that creates and updates the card's internal models
    | FinalizeChange   // `this._finalize(pending, …)`
    | SaveDocument     // `batch.saveDocument(context)`
    | DeleteDocument   // `batch.deleteDocument(context)`
    | BatchDone        // `batch.done()`
    | AfterFinalize    // the card hook that deletes the card's dropped internal resources
    | InvalidateCache  // `currentSchema.invalidateCache()` when validation produced a new schema
    | AbortChange      // `pending.abort()` in the `finally` block

  /** The position of each step in the protocol. */
  function Rank(s: Step): nat {
    match s
    case Validate => 0
    case BeforeFinalize => 1
    case FinalizeChange => 2
    case SaveDocument => 3
    case DeleteDocument => 4
    case BatchDone => 5
    case AfterFinalize => 6
    case InvalidateCache => 7
    case AbortChange => 8
  }

  /** Every step of the `try` block, in protocol order. */
  const Protocol: seq<Step> :=
    [Validate, BeforeFinalize, FinalizeChange, SaveDocument, DeleteDocument, BatchDone, AfterFinalize, InvalidateCache]

  predicate RankOrdered(s: seq<Step>) {
    forall i, j :: 0 <= i < j < |s| ==> Rank(s[i]) < Rank(s[j])
  }

  /** Whether a write path runs a step of the protocol when nothing throws.
      `card` says the type was `cards`, so that the card operations supplied
      hooks: `handleCreate` keeps only `beforeFinalize`, `_update` keeps both,
      `delete` keeps only `afterFinalize`. `newSchema` says validation
      produced a new schema. */
  predicate Runs(kind: Kind, card: bool, newSchema: bool, s: Step) {
    match s
    case Validate => true
    case BeforeFinalize => card && kind != Delete
    case FinalizeChange => true
    case SaveDocument => kind != Delete
    case DeleteDocument => kind == Delete
    case BatchDone => true
    case AfterFinalize => card && kind != Create
    case InvalidateCache => newSchema
    case AbortChange => false
  }

  /** A subsequence of a rank-ordered list is rank-ordered. */
  lemma {:induction false} FilterKeepsOrder(s: seq<Step>, p: Step -> bool)
    requires RankOrdered(s)
    ensures RankOrdered(Filter(s, p))
    decreases |s|
  {
    if |s| > 0 {
      FilterKeepsOrder(s[1..], p);
      var rest := Filter(s[1..], p);
      if p(s[0]) {
        forall j | 0 <= j < |rest|
          ensures Rank(s[0]) < Rank(rest[j])
        {
          FilterMembers(s[1..], p, rest[j]);
          var k :| 0 <= k < |s[1..]| && s[1..][k] == rest[j];
          assert s[k + 1] == rest[j];
        }
      }
    }
  }

  /** The `try` block of `handleCreate`, `_update` and `delete` when no step
      throws: the protocol's steps that the path runs, in protocol order. */
  function Planned(kind: Kind, card: bool, newSchema: bool): (plan: seq<Step>)
    ensures |plan| > 0 && plan[0] == Validate
    ensures RankOrdered(plan)
    ensures forall s :: s in plan <==> Runs(kind, card, newSchema, s)
  {
    var keep := RunsOn(kind, card, newSchema);
    var plan := Filter(Protocol, keep);
    ProtocolOrdered();
    FilterKeepsOrder(Protocol, keep);
    forall s
      ensures s in plan <==> Runs(kind, card, newSchema, s)
    {
      FilterMembers(Protocol, keep, s);
      InProtocol(s);
    }
    assert Protocol[0] == Validate && keep(Validate);
    plan
  }

  /** The steps a write path runs, as a filter. */
  function RunsOn(kind: Kind, card: bool, newSchema: bool): Step -> bool {
    s => Runs(kind, card, newSchema, s)
  }

  lemma ProtocolOrdered()
    ensures RankOrdered(Protocol)
  {
  }

  /** The protocol lists every step but the abort. */
  lemma InProtocol(s: Step)
    ensures s in Protocol <==> !s.AbortChange?
  {
    match s
    case Validate => assert Protocol[0] == s;
    case BeforeFinalize => assert Protocol[1] == s;
    case FinalizeChange => assert Protocol[2] == s;
    case SaveDocument => assert Protocol[3] == s;
    case DeleteDocument => assert Protocol[4] == s;
    case BatchDone => assert Protocol[5] == s;
    case AfterFinalize => assert Protocol[6] == s;
    case InvalidateCache => assert Protocol[7] == s;
    case AbortChange =>
  }

  /** Runs the steps in order until one throws: `fails[i]` says step `i`
      throws (steps past the end of `fails` succeed). The result is the steps
      that started and whether all of them completed. */
  function Execute(plan: seq<Step>, fails: seq<bool>): (r: (seq<Step>, bool))
    ensures |r.0| <= |plan| && r.0 == plan[..|r.0|]
    ensures r.1 ==> r.0 == plan
    ensures r.1 <==> forall i :: 0 <= i < |plan| && i < |fails| ==> !fails[i]
    ensures !r.1 ==> (0 < |r.0| <= |fails| && fails[|r.0| - 1]
      && forall i :: 0 <= i < |r.0| - 1 ==> !fails[i])
    decreases |plan|
  {
    if |plan| == 0 then ([], true)
    else if |fails| > 0 && fails[0] then ([plan[0]], false)
    else
      var rest := Execute(plan[1..], if |fails| > 0 then fails[1..] else []);
      assert forall i :: 1 <= i < |plan| && i < |fails| ==> fails[i] == fails[1..][i - 1];
      ([plan[0]] + rest.0, rest.1)
  }

  /** How a write path ends: it returns, or it throws, either before its
      pending change exists (with the error) or from one of its steps. */
  datatype Outcome =
    | Returned(trace: seq<Step>)
    | Threw(trace: seq<Step>, error: Option<Error>)

  /** The `try`/`finally` block: the planned steps run until one throws,
      then `pending.abort()` runs whatever happened. */
  function Attempt(plan: seq<Step>, fails: seq<bool>): (o: Outcome)
    ensures |o.trace| > 0 && o.trace[|o.trace| - 1] == AbortChange
  {
    var run := Execute(plan, fails);
    if run.1 then Returned(run.0 + [AbortChange]) else Threw(run.0 + [AbortChange], None)
  }

  /** What happens before a write path's pending change exists, each part
      read in the order the path meets it. */
  datatype Preamble = Preamble(
    hasData: bool,                    // the document has a top-level `data` (create and update only)
    cardOps: Option<Error>,           // what `handleCardOperations` or `handleCardDeleteOperation` throws, for a card
    internalCardFound: bool,          // a card delete found its internal card
    details: Result<Details, Error>,  // what `_getSchemaDetailsForType` gives
    prepared: Option<Error>)          // what the writer's `prepare*` hook or `createPendingChange` throws

  /** Whether a write path gets as far as its pending change. */
  predicate ReachesPending(kind: Kind, card: bool, pre: Preamble) {
    (kind == Delete || pre.hasData)
    && !(card && pre.cardOps.Some?)
    && !(kind == Delete && card && !pre.internalCardFound)
    && pre.details.Ok?
    && pre.prepared.None?
  }

  /** `handleCreate`, `_update` and `delete` as the steps they run. A create
      or update without `data` is refused first; then a card's operations
      run and may throw; deleting a card whose internal card cannot be found
      does nothing; an unwritable type is refused; the writer's `prepare*`
      hook and `createPendingChange` may throw. All of these come before the
      `try`, so none of them aborts anything. Otherwise the planned steps run
      until one throws, and `pending.abort()` runs whatever happened. */
  function WritePath(kind: Kind, card: bool, pre: Preamble, newSchema: bool, fails: seq<bool>): (o: Outcome)
    ensures kind != Delete && !pre.hasData ==> o == Threw([], Some(Http(400, None)))
    ensures (kind == Delete || pre.hasData) && card && pre.cardOps.Some? ==> o == Threw([], pre.cardOps)
    ensures (kind == Delete || pre.hasData) && !(card && pre.cardOps.Some?)
      ==> (kind == Delete && card && !pre.internalCardFound ==> o == Returned([]))
    ensures (kind == Delete || pre.hasData) && !(card && pre.cardOps.Some?)
      && !(kind == Delete && card && !pre.internalCardFound)
      ==> ((pre.details.Err? ==> o == Threw([], Some(pre.details.error)))
        && (pre.details.Ok? && pre.prepared.Some? ==> o == Threw([], pre.prepared)))
  {
    if kind != Delete && !pre.hasData then Threw([], Some(Http(400, None)))
    else if card && pre.cardOps.Some? then Threw([], pre.cardOps)
    else if kind == Delete && card && !pre.internalCardFound then Returned([])
    else if pre.details.Err? then Threw([], Some(pre.details.error))
    else if pre.prepared.Some? then Threw([], pre.prepared)
    else Attempt(Planned(kind, card, newSchema), fails)
  }

  /** An attempt ends with its one abort, after a prefix of the plan; it
      returns only when the whole plan ran, and otherwise throws from the
      first failing step. */
  lemma AttemptAbortsOnce(plan: seq<Step>, fails: seq<bool>)
    requires AbortChange !in plan
    ensures var o := Attempt(plan, fails);
      var n := |o.trace| - 1;
      AbortChange !in o.trace[..n]
      && o.trace[..n] == plan[..n]
      && (o.Returned? <==> forall i :: 0 <= i < |plan| && i < |fails| ==> !fails[i])
      && (o.Returned? ==> o.trace == plan + [AbortChange])
      && (o.Threw? ==> o.error.None? && n - 1 < |fails| && fails[n - 1])
  {
    var o := Attempt(plan, fails);
    var run := Execute(plan, fails);
    assert o.trace[..|o.trace| - 1] == run.0;
    assert AbortChange !in run.0 by {
      forall i | 0 <= i < |run.0|
        ensures run.0[i] != AbortChange
      {
        assert run.0[i] == plan[i];
      }
    }
  }

  /** An attempt keeps protocol order: abort comes last. */
  lemma AttemptOrdered(plan: seq<Step>, fails: seq<bool>)
    requires AbortChange !in plan && RankOrdered(plan)
    ensures RankOrdered(Attempt(plan, fails).trace)
  {
    var run := Execute(plan, fails);
    var t := Attempt(plan, fails).trace;
    assert t == run.0 + [AbortChange];
    forall i, j | 0 <= i < j < |t|
      ensures Rank(t[i]) < Rank(t[j])
    {
      assert t[i] == plan[i];
      if j < |t| - 1 {
        assert t[j] == plan[j];
      }
    }
  }

  /** What an attempt of `plan` leaves behind: one abort, last, after a
      prefix of the plan, in protocol order, returning only when no step threw. */
  predicate Settled(o: Outcome, plan: seq<Step>, fails: seq<bool>) {
    var n := |o.trace| - 1;
    |o.trace| > 0
    && o.trace[n] == AbortChange
    && AbortChange !in o.trace[..n]
    && n <= |plan| && o.trace[..n] == plan[..n]
    && RankOrdered(o.trace)
    && (o.Returned? <==> forall i :: 0 <= i < |plan| && i < |fails| ==> !fails[i])
    && (o.Returned? ==> o.trace == plan + [AbortChange])
  }

  lemma AttemptSettled(plan: seq<Step>, fails: seq<bool>)
    requires AbortChange !in plan && RankOrdered(plan)
    ensures Settled(Attempt(plan, fails), plan, fails)
  {
    AttemptAbortsOnce(plan, fails);
    AttemptOrdered(plan, fails);
  }

  /** Once the pending change exists, each write path ends with exactly one
      abort, after a prefix of its planned steps, in protocol order; it
      returns exactly when no step threw. A path that never reaches the
      pending change (no `data`, a throw from the card operations, no
      internal card to delete, no writer for the type, a throw from
      `prepare*` or `createPendingChange`) leaves an empty trace: no step
      ran and nothing was aborted. */
  lemma WritePathAbortsOnce(kind: Kind, card: bool, pre: Preamble, newSchema: bool, fails: seq<bool>)
    ensures var o := WritePath(kind, card, pre, newSchema, fails);
      var plan := Planned(kind, card, newSchema);
      var n := |o.trace| - 1;
      (|o.trace| > 0 ==>
        (o.trace[n] == AbortChange
        && AbortChange !in o.trace[..n]
        && o.trace[..n] == plan[..n]
        && RankOrdered(o.trace)
        && (o.Returned? <==> forall i :: 0 <= i < |plan| && i < |fails| ==> !fails[i])
        && (o.Returned? ==> o.trace == plan + [AbortChange])))
      && (|o.trace| == 0 <==> !ReachesPending(kind, card, pre))
  {
    var plan := Planned(kind, card, newSchema);
    var o := WritePath(kind, card, pre, newSchema, fails);
    if ReachesPending(kind, card, pre) {
      assert Settled(o, plan, fails) by {
        assert o == Attempt(plan, fails);
        assert AbortChange !in plan by {
          assert !Runs(kind, card, newSchema, AbortChange);
        }
        AttemptSettled(plan, fails);
      }
    } else {
      assert |o.trace| == 0;
    }
  }

  // ------------------------------------------- what reaches the pending change

  /** The fifth and sixth positional arguments of
      `_finalize(pending, type, schema, sourceId, id, isBulk)`. */
  datatype FinalizeArgs = FinalizeArgs(id: Value, isBulk: Value)

  function FlagValue(b: Option<bool>): Value {
    match b
    case None => Undefined
    case Some(v) => Bool(v)
  }

  function IdValue(id: Option<string>): Value {
    match id
    case None => Undefined
    case Some(s) => Str(s)
  }

  /** The arguments each write path passes: `handleCreate` and `_update` pass
      their `isBulk` flag fifth and nothing sixth; `delete` passes the id fifth
      and nothing sixth. */
  function FinalizeCallSite(kind: Kind, id: Option<string>, isBulk: Option<bool>): FinalizeArgs {
    match kind
    case Create => FinalizeArgs(FlagValue(isBulk), Undefined)
    case Update => FinalizeArgs(FlagValue(isBulk), Undefined)
    case Delete => FinalizeArgs(IdValue(id), Undefined)
  }

  /** What `pending.finalize(isBulk)` records: a boolean, or nothing. */
  function FlagOf(v: Value): Option<bool> {
    if v.Bool? then Some(v.b) else None
  }

  /** The context `_finalize` returns: the pending change's final document
      context, or for a delete a fresh context built from the id argument. */
  datatype FinalContext =
    | Existing(context: DocumentContext)
    | Fresh(id: Value, typ: Option<string>, sourceId: Option<string>)

  /** `_finalize`: finalizes the pending change with the sixth argument, then
      picks the context to save or delete. */
  function FinalizeWrite(pc: PendingChange, typ: Option<string>, sourceId: Option<string>, args: FinalizeArgs)
    : (r: (PendingChange, Option<Callback>, FinalContext))
    ensures r.1 == pc.finalizer
    ensures r.0.finalizer.None? && r.0.aborter.None?
    ensures r.0.isBulk == FlagOf(args.isBulk)
    ensures r.2.Existing? <==> pc.finalContext.Some?
    ensures r.2.Existing? ==> r.2.context == pc.finalContext.value
    ensures r.2.Fresh? ==> r.2 == Fresh(args.id, typ, sourceId)
  {
    var (next, fired) := Finalize(pc, FlagOf(args.isBulk));
    var ctx := match next.finalContext
      case Some(c) => Existing(c)
      case None => Fresh(args.id, typ, sourceId);
    (next, fired, ctx)
  }

  /** The bulk flag never reaches the pending change: whichever path
      finalizes, `isBulk` is recorded as absent; and when a create or update
      has no final document context, the flag lands in the id of the fresh
      context instead. */
  lemma BulkFlagNeverReachesFinalize(kind: Kind, pc: PendingChange, typ: Option<string>,
                                     sourceId: Option<string>, id: Option<string>, isBulk: Option<bool>)
    ensures var r := FinalizeWrite(pc, typ, sourceId, FinalizeCallSite(kind, id, isBulk));
      r.0.isBulk.None?
      && (kind != Delete && pc.finalContext.None? ==> r.2.id == FlagValue(isBulk))
      && (kind == Delete && pc.finalContext.None? ==> r.2.id == IdValue(id))
  {
    var args := FinalizeCallSite(kind, id, isBulk);
    assert args.isBulk == Undefined;
  }

  /** The calls a trace makes on its pending change: `finalize` with the
      sixth argument of `_finalize`, and `abort`. */
  function PendingCalls(trace: seq<Step>, flag: Option<bool>): (calls: seq<Call>)
    ensures |calls| <= |trace|
    decreases |trace|
  {
    if |trace| == 0 then []
    else
      var rest := PendingCalls(trace[1..], flag);
      match trace[0]
      case FinalizeChange => [FinalizeCall(flag)] + rest
      case AbortChange => [AbortCall] + rest
      case _ => rest
  }

  lemma {:induction false} PendingCallsOfPrefix(plan: seq<Step>, n: nat, flag: Option<bool>)
    requires n <= |plan|
    requires AbortChange !in plan
    requires RankOrdered(plan)
    ensures PendingCalls(plan[..n] + [AbortChange], flag) ==
      (if FinalizeChange in plan[..n] then [FinalizeCall(flag)] else []) + [AbortCall]
    decreases n
  {
    if n == 0 {
      assert plan[..0] + [AbortChange] == [AbortChange];
      assert PendingCalls([], flag) == [];
    } else {
      var t := plan[..n] + [AbortChange];
      assert t[1..] == plan[1..][..n - 1] + [AbortChange];
      PendingCallsOfPrefix(plan[1..], n - 1, flag);
      if plan[0] == FinalizeChange {
        var tail := plan[1..][..n - 1];
        forall i | 0 <= i < |tail|
          ensures tail[i] != FinalizeChange
        {
          assert tail[i] == plan[i + 1];
          assert Rank(plan[0]) < Rank(plan[i + 1]);
        }
      } else {
        assert FinalizeChange in plan[..n] <==> FinalizeChange in plan[1..][..n - 1] by {
          assert plan[..n] == [plan[0]] + plan[1..][..n - 1];
        }
      }
    }
  }

  /** Over an attempt, the pending change fires its finalizer when the
      attempt reached `_finalize`, and its aborter otherwise, never both and
      never twice; both callbacks end cleared. */
  lemma AttemptFiresOnce(plan: seq<Step>, fails: seq<bool>, pc: PendingChange, flag: Option<bool>)
    requires AbortChange !in plan && RankOrdered(plan)
    ensures var t := Attempt(plan, fails).trace;
      var run := Run(pc, PendingCalls(t, flag));
      run.1 == (if FinalizeChange in t then Fired(pc.finalizer) else Fired(pc.aborter))
      && (FinalizeChange in t ==> run.0.isBulk == flag)
      && run.0.finalizer.None? && run.0.aborter.None?
  {
    var t := Attempt(plan, fails).trace;
    var run := Execute(plan, fails);
    assert t == plan[..|run.0|] + [AbortChange];
    PendingCallsOfPrefix(plan, |run.0|, flag);
    var calls := PendingCalls(t, flag);
    assert FinalizeChange in t <==> FinalizeChange in plan[..|run.0|];
    FiresAtMostOnce(pc, calls);
    if FinalizeChange in t {
      var after := Finalize(pc, flag).0;
      assert calls == [FinalizeCall(flag), AbortCall];
      assert Run(after, [AbortCall]).0 == Abort(after).0;
    } else {
      assert calls == [AbortCall];
    }
  }

  /** Over a whole write path, the pending change fires its finalizer when
      the path reached `_finalize`, and its aborter otherwise, never both and
      never twice; a path that finalized leaves `isBulk` absent, whatever
      flag the caller passed. */
  lemma WritePathFiresOnce(kind: Kind, card: bool, pre: Preamble, newSchema: bool, fails: seq<bool>,
                           pc: PendingChange, id: Option<string>, isBulk: Option<bool>)
    ensures var o := WritePath(kind, card, pre, newSchema, fails);
      var flag := FlagOf(FinalizeCallSite(kind, id, isBulk).isBulk);
      var run := Run(pc, PendingCalls(o.trace, flag));
      |o.trace| > 0 ==>
        (run.1 == (if FinalizeChange in o.trace then Fired(pc.finalizer) else Fired(pc.aborter))
        && (FinalizeChange in o.trace ==> run.0.isBulk.None?)
        && run.0.finalizer.None? && run.0.aborter.None?)
  {
    if ReachesPending(kind, card, pre) {
      var plan := Planned(kind, card, newSchema);
      assert WritePath(kind, card, pre, newSchema, fails) == Attempt(plan, fails);
      assert FlagOf(FinalizeCallSite(kind, id, isBulk).isBulk) == None by {
        assert FinalizeCallSite(kind, id, isBulk).isBulk == Undefined;
      }
      assert AbortChange !in plan by {
        assert !Runs(kind, card, newSchema, AbortChange);
      }
      AttemptFiresOnce(plan, fails, pc, None);
    }
  }
}
